=== FILE: README.md ===
# taku desktop launcher — Dafny model

This project models the logic at the core of matchbox-desktop ("taku"), a
launcher for small touch-screen desktops. The launcher:

- reads the category index (`Root.order` with its `.directory` files) and
  every `.desktop` file under the XDG data directories;
- keeps the menu of items in step with file-system events;
- classifies each item into categories;
- shows one tile per item in a grid that is sorted by name and filtered
  by the current category.

When a tile is clicked, the item's `Exec` line is split into an argument
vector and the program is launched, unless it is a single-instance
application that is already running or starting.

The model is written as pure functions over immutable datatypes, one module
per component:

| module | models |
|---|---|
| `Common` | C string helpers the code relies on: `strchr`/`strrchr`, `g_strstrip`, `g_strsplit`, `strcmp`, `strstr`, `g_list_remove`, C integer division, `g_build_filename` |
| `ExecArgv` | `exec_to_argv`, the `Exec` tokenizer (libtaku/launcher-util.c) |
| `Icon` | `strip_extension` and the fallback chain of `get_icon` |
| `WindowProps` | `mb_single_instance_get_window` and `mb_single_instance_is_starting`, which parse the text of two root-window properties (libtaku/xutil.c) |
| `Launch` | the single-instance decision of `launcher_start` |
| `Categories` | `load_vfolder_dir`, `match_category` and `set_groups` (libtaku/taku-menu-desktop.c) |
| `DesktopEntry` | `get_desktop_boolean`, `get_desktop_string` and the checks of `load_desktop_file` |
| `Catalog` | the menu: its item list and path index, loading of data directories, `_find_item`, `_remove_item` and the inotify handler with its notifications |
| `CategoryBar` | the category switcher (src/taku-category-bar.c) |
| `Tiles` | tile state and keys (libtaku/taku-tile.c, taku-icon-tile.c, taku-launcher-tile.c) |
| `IconQueue` | the queued icon loader of launcher tiles |
| `DesktopView` | src/desktop.c: the view kept in step with the menu (as written and corrected), the sort and filter functions, focus-driven category switching, the column rule |
| `LegacyTable` | the legacy grid container taku-table.c: sorted insert, removal, reflow and column calculation |
| `LegacyMain` | main.c of the legacy desktop: three tables and a fixed `Categories` classifier |

Foreign calls become parameters:

- the key-file parser (a `KeyFile` record, or `None` when unreadable);
- directory listings and the contents of `.directory` files;
- icon-theme and file-loading success (predicates);
- X11 property contents (`Option<seq<char>>`);
- the collation function (`string -> string`).

Strings are byte strings. Each element of a model `string` stands for one
byte (one C `char`) of the C string, and text outside ASCII is modelled as its
UTF-8 bytes, one element per byte. Lengths and positions are therefore byte
counts, as in the code:

- the 245-byte `fgets` buffer of the index reader (`Categories.LineMax`,
  `Categories.ChunkLength`);
- the overwrite of an index line's last byte (`Categories.DirectoryFileName`);
- the single byte the tokenizer skips after a `%` (`ExecArgv.Scan`), so `%é`
  skips the first byte of `é` and keeps the second.

`Common.Strcmp` compares elements as unsigned bytes, as `strcmp` does.

The tokenizer drops a field code such as `%f` but not the blank after it.
That blank flushes the word buffer even when it is empty, so `a %f b` yields
the three arguments `a`, an empty string and `b`
(`ExecArgv.FieldCodeLeavesEmptyArgument`, `ExecArgv.DropFieldBetween`). The
code also hands a zero-length vector on rather than reporting a failure, and
the model keeps that too.

Given an empty category list, `taku_category_bar_set_categories` leaves the
current category as it was rather than clearing it. On a new bar that is
already NULL. After an earlier list, it is a stale reference into the old list.
`CategoryBar.SetCategories` keeps the old current position, as an index
rather than a list node (see "## Left out").

## Model

| member | source | states |
|---|---|---|
| Common.IndexOf | libtaku/xutil.c:157-185 | `strchr`: none exactly when the character is absent; otherwise the first position holding it |
| Common.LastIndexOf | libtaku/launcher-util.c:115-131 | `strrchr`: none exactly when the character is absent; otherwise the last position holding it |
| Common.Contains | main.c:64-70 | `strstr` succeeds exactly when the needle occurs at some position of the haystack |
| Common.TrimStart | libtaku/taku-menu-desktop.c:311-329 | `g_strchug`: removes exactly the leading `g_ascii_isspace` characters (the vertical tab is not one): the result is a suffix, everything dropped is such a space, and the result does not start with one |
| Common.TrimEnd | libtaku/taku-menu-desktop.c:311-329 | `g_strchomp`: removes exactly the trailing `g_ascii_isspace` characters: the result is a prefix, everything dropped is such a space, and the result does not end with one |
| Common.Strip | libtaku/taku-menu-desktop.c:311-329 | `g_strstrip`: a contiguous slice with only `g_ascii_isspace` characters cut from both ends, so a vertical tab is kept; empty exactly when the input is all space; otherwise it starts and ends with non-space |
| Common.StripParts | libtaku/taku-menu-desktop.c:311-329 | a leading trim followed by a trailing trim is a strip of the original string |
| Common.SplitAll | libtaku/taku-menu-desktop.c:388-392 | the pieces contain no separator and joining them with the separator gives back the input |
| Common.Split | libtaku/taku-menu-desktop.c:388-392 | `g_strsplit`: as SplitAll, except that the empty string splits into no pieces at all |
| Common.JoinInjective | libtaku/taku-menu-desktop.c:388-392 | pieces without the separator are determined by their join: two such non-empty lists with the same join are equal |
| Common.SplitUnique | libtaku/taku-menu-desktop.c:388-392 | `g_strsplit` is the only way to cut a string into separator-free pieces that join back to it, given that the empty string has no pieces |
| Common.FirstIndex | libtaku/taku-menu-desktop.c:460-474 | the first position of an element that is in the list |
| Common.Without | libtaku/taku-menu-desktop.c:460-474 | removing one position keeps every element before it and shifts every element after it down by one |
| Common.WithoutMultiset | libtaku/taku-menu-desktop.c:460-474 | removing one position removes exactly one occurrence of its element |
| Common.RemoveFirst | libtaku/taku-menu-desktop.c:460-474 | `g_list_remove` leaves a list without the element unchanged; otherwise it removes the first occurrence, keeping everything before it and shifting everything after it down by one |
| Common.RemoveFirstMultiset | libtaku/taku-launcher-tile.c:217-223 | `g_list_remove` removes exactly one occurrence of the element when there is one |
| Common.TruncDivBounds | src/desktop.c:140-145 | C integer division truncates toward zero: bounds on the quotient for both signs of the dividend |
| Common.Strcmp | src/desktop.c:155-176 | the comparison's sign is one of -1, 0, 1 |
| Common.StrcmpZero | src/desktop.c:155-176 | `strcmp` is zero exactly for equal strings |
| Common.StrcmpAntisymmetric | src/desktop.c:155-176 | swapping the arguments negates the comparison |
| Common.StrcmpTransitive | src/desktop.c:155-176 | less-than by `strcmp` is transitive |
| Common.BuildFilename | libtaku/taku-menu-desktop.c:510-552 | the directory, one separator and then the name, in that order |
| ExecArgv.Emit | libtaku/launcher-util.c:83-95 | storing keeps every earlier argument and adds at most one; from a vector within the cap the result is the extended vector capped at 255, so it never exceeds 255; a full vector drops the argument |
| ExecArgv.Scan | libtaku/launcher-util.c:50-101 | scanning only appends arguments, never rewrites the ones already emitted, and never exceeds 255 arguments |
| ExecArgv.ExecToArgv | libtaku/launcher-util.c:34-113 | the vector has at most 255 arguments; there is no vector only when the line ends in `%`, so a line without `%` always has one |
| ExecArgv.Finish | libtaku/launcher-util.c:103-108 | the end of input keeps every stored argument and adds at most one: nothing for an empty buffer, the buffer when a slot is free; the vector stays within 255 arguments |
| ExecArgv.NoneEndsInPercent | libtaku/launcher-util.c:50-101 | the scan can only read past the end at a `%` that is the last character |
| ExecArgv.ScanAppend | libtaku/launcher-util.c:50-101 | the scanner is a left-to-right state machine: scanning `s + t` is scanning `t` from the state `s` leaves |
| ExecArgv.QuoteArg | libtaku/launcher-util.c:51-98 | quoting never shortens an argument |
| ExecArgv.ScanQuoteArg | libtaku/launcher-util.c:51-98 | scanning a quoted argument appends exactly that argument to the word buffer |
| ExecArgv.EmitCap | libtaku/launcher-util.c:83-95 | emitting into a capped vector is capping the extended vector |
| ExecArgv.ScanQuoteArgs | libtaku/launcher-util.c:50-101 | scanning a space-joined list of quoted arguments emits all but the last (capped at 255) and leaves the last in the buffer |
| ExecArgv.FinishScan | libtaku/launcher-util.c:103-110 | the final flush: the vector is what was emitted, plus the buffer if it is non-empty |
| ExecArgv.QuoteRoundTrip | libtaku/launcher-util.c:34-113 | tokenizing the quoted join of any argument list whose last argument is non-empty gives back that list, capped at 255 |
| ExecArgv.FieldCodeDropped | libtaku/launcher-util.c:61-68 | a `%` followed by any character other than `%` is removed from the line without a trace |
| ExecArgv.PercentPercentIsPercent | libtaku/launcher-util.c:61-68 | `%%` tokenizes exactly like an escaped literal `%` |
| ExecArgv.TrailingPercentOverruns | libtaku/launcher-util.c:61-68 | a line ending in a lone `%` has no vector, because the C scanner reads past the terminator |
| ExecArgv.TrailingBackslashIgnored | libtaku/launcher-util.c:51-60 | a trailing backslash escapes nothing and changes nothing |
| ExecArgv.TrailingSpace | libtaku/launcher-util.c:83-95 | a trailing blank adds an empty argument when the buffer is empty, and otherwise changes nothing |
| ExecArgv.SingleQuotedLiteral | libtaku/launcher-util.c:69-75 | inside single quotes every character other than `'`, `\` and `%` is copied literally, blanks included |
| ExecArgv.DoubleQuotedLiteral | libtaku/launcher-util.c:76-82 | inside double quotes every character other than `"`, `\` and `%` is copied literally, blanks included |
| ExecArgv.QuotedRun | libtaku/launcher-util.c:69-82 | while one quote is open, a run without that quote, `\` or `%` is copied to the buffer unchanged |
| ExecArgv.ScanPlainWord | libtaku/launcher-util.c:96-98 | a run of ordinary characters is copied to the buffer unchanged |
| ExecArgv.PlainWordQuotesToItself | libtaku/launcher-util.c:96-98 | a word with no special characters needs no quoting |
| ExecArgv.ScanSpace | libtaku/launcher-util.c:83-95 | an unquoted blank emits the buffer, even an empty one, and clears it |
| ExecArgv.QuoteThree | libtaku/launcher-util.c:83-95 | an empty middle argument is written as two consecutive blanks |
| ExecArgv.DropFieldBetween | libtaku/launcher-util.c:61-95 | `a %f b` tokenizes like `a`, two blanks, `b` |
| ExecArgv.FieldCodeLeavesEmptyArgument | libtaku/launcher-util.c:34-113 | `a %f b` yields the three arguments `a`, the empty string and `b`, not two |
| Icon.StripExtensionSpec | libtaku/launcher-util.c:115-131 | a trailing `.png`, `.svg` or `.xpm` is removed; every other name is left unchanged |
| Icon.StripExtension | libtaku/launcher-util.c:115-131 | the result is a prefix of the name: the name itself, or the name without its last four characters, which happens only when they are an image extension |
| Icon.GetIcon | libtaku/launcher-util.c:136-202 | a themed icon is only returned when the theme has it; an absolute name gives its file icon exactly when the file loads and nothing otherwise, with no theme fallback |
| Icon.FirstAvailable | libtaku/launcher-util.c:163-185 | the first candidate the theme has, and none exactly when the theme has none of them |
| Icon.FallbackNamesAreBare | libtaku/launcher-util.c:133-134 | the two fallback names carry no image extension |
| Icon.GetIconFallbackChain | libtaku/launcher-util.c:163-185 | a relative name tries at most three theme names (the stripped name, then `application-x-executable`, then `gtk-missing-image`) and takes the first available one; the chain stops after the missing-image name |
| Icon.NullNameIsGeneric | libtaku/launcher-util.c:148-150 | a NULL name behaves as `application-x-executable` |
| Launch.LaunchDecision | libtaku/launcher-util.c:229-242 | non-single-instance always spawns; single-instance does nothing while a startup is pending, else raises a registered positive window, else spawns; the window comes from the corrected lookup of Findings row 1 |
| Launch.LaunchDecisionAsWritten | libtaku/launcher-util.c:229-242 | the same decision with the unsigned lookup as written: a raised window is any non-zero id below 2^64 |
| Launch.NegativeIdActivatesHugeWindow | libtaku/launcher-util.c:229-242 | with `bin=-n\|` registered and no startup pending, the code as written raises window 2^64 − n while the corrected decision spawns the program |
| Launch.RegisteredWindowIsActivated | libtaku/launcher-util.c:229-242 | a binary whose first entry in the exec map holds a positive id is activated on that window |
| Launch.PendingStartupBlocksLaunch | libtaku/launcher-util.c:229-242 | any startup-list text containing the binary's name blocks the launch |
| WindowProps.CString | libtaku/xutil.c:151-173 | property data is read up to its first NUL |
| WindowProps.DigitPrefix | libtaku/xutil.c:177-182 | `atoi` reads the longest run of digits at the front |
| WindowProps.DecimalString | libtaku/xutil.c:177-182 | decimal rendering is non-empty and all digits |
| WindowProps.DecimalValue | libtaku/xutil.c:177-182 | reading a rendered number gives the number back |
| WindowProps.SkipSpace | libtaku/xutil.c:177-182 | `atoi` skips exactly the leading `isspace` characters, the vertical tab included, before the sign |
| WindowProps.AtoiOfDigits | libtaku/xutil.c:177-182 | `atoi` of a digit string is its value |
| WindowProps.AtoiOfNegatedDigits | libtaku/xutil.c:177-182 | `atoi` of `-` and a digit string is the negated value |
| WindowProps.AtoiDecimal | libtaku/xutil.c:177-182 | `atoi` inverts decimal rendering |
| WindowProps.AtoiNegativeDecimal | libtaku/xutil.c:177-182 | `atoi` inverts a negative decimal rendering |
| WindowProps.NextEntry | libtaku/xutil.c:157-173 | an entry parsed off the text is a key without `=` and a value without `\|` that, re-joined as `key=value\|rest`, give back the text |
| WindowProps.ValueAfter | libtaku/xutil.c:169-173 | the value runs up to the next `\|`; the text after the key is value, bar and rest |
| WindowProps.ToWindowId | libtaku/xutil.c:178-181 | conversion to the unsigned 64-bit `Window` is reduction modulo 2^64 |
| WindowProps.WindowIdAsWritten | libtaku/xutil.c:178-181 | as written, a value yields a window whenever its unsigned conversion is non-zero, below 2^64 |
| WindowProps.WindowId | libtaku/xutil.c:178-181 | corrected: a value yields a window exactly when `atoi` is positive, and that window is the value |
| WindowProps.GetWindowAsWritten | libtaku/xutil.c:130-189 | a window is only found in a property that was read, and is non-zero |
| WindowProps.GetWindow | libtaku/xutil.c:130-189 | a window is only found in a property that was read, is positive, and comes from an entry keyed by the binary |
| WindowProps.Atoi | libtaku/xutil.c:177-182 | `atoi`: text without any digit reads as 0, and a negative result needs a minus sign in the text |
| WindowProps.Lookup | libtaku/xutil.c:157-185 | an answer contains no `\|`; a map without `=` has no answer |
| WindowProps.LookupOccurs | libtaku/xutil.c:157-185 | an answer occurs in the map as the entry text `bin=value\|` |
| WindowProps.NoDataNoWindow | libtaku/xutil.c:151-155 | without property data there is no window, as written and corrected |
| WindowProps.NextEntryOf | libtaku/xutil.c:157-173 | parsing `key=value\|tail` gives back exactly key, value and tail |
| WindowProps.LookupEntry | libtaku/xutil.c:157-185 | the scan answers the value of an entry keyed by the binary, and otherwise continues after it |
| WindowProps.LookupStep | libtaku/xutil.c:157-185 | lookup in an encoded map: the first entry's value when it is keyed by the binary, else lookup in the remaining entries |
| WindowProps.FirstKeyedLater | libtaku/xutil.c:157-185 | the first match, when it is not at the front, is the first match of the tail |
| WindowProps.LookupPast | libtaku/xutil.c:157-185 | entries before the first match do not affect the lookup |
| WindowProps.LookupFirstMatch | libtaku/xutil.c:157-185 | the lookup returns the value of the first entry keyed by the binary, whatever follows |
| WindowProps.LookupSkips | libtaku/xutil.c:157-185 | well-formed entries with other keys are skipped |
| WindowProps.KeyWithoutEquals | libtaku/xutil.c:160-163 | text without `=` holds no entry |
| WindowProps.EqualsAtEnd | libtaku/xutil.c:165-167 | a key whose `=` ends the text yields nothing |
| WindowProps.UnterminatedEntry | libtaku/xutil.c:169-173 | a value not closed by `\|` yields nothing |
| WindowProps.GetWindowFindsFirst | libtaku/xutil.c:157-185 | corrected lookup: the first entry for the binary with a positive id gives that id |
| WindowProps.NoNulInMap | libtaku/xutil.c:151-173 | an encoded map of well-formed entries contains no NUL, so it is read whole |
| WindowProps.AsWrittenAgreesExceptNegative | libtaku/xutil.c:177-182 | as written and corrected agree on every value whose `atoi` is non-negative and below 2^64 |
| WindowProps.NegativeValue | libtaku/xutil.c:177-182 | a negative value becomes 2^64 minus its magnitude as written, and no window when corrected |
| WindowProps.SingleEntryLookup | libtaku/xutil.c:157-185 | a one-entry map answers its own key |
| WindowProps.NegativeIdBecomesHugeWindow | libtaku/xutil.c:177-182 | a map entry `bin=-n\|` makes the code report window 2^64 − n; the corrected reading reports none |
| WindowProps.IsStarting | libtaku/xutil.c:191-222 | a startup is pending exactly when the property was read and the binary's name occurs in its text up to the first NUL |
| WindowProps.IsStartingMatchesSubstrings | libtaku/xutil.c:209-221 | any occurrence of the name counts, even inside another name; with no property nothing is pending |
| Categories.ChunkLength | libtaku/taku-menu-desktop.c:193-193 | `fgets` with a 246-byte buffer reads up to and including a newline, at most 245 characters, or to the end |
| Categories.FgetsChunks | libtaku/taku-menu-desktop.c:193-199 | the chunks `fgets` returns concatenate to the whole text and each is a proper chunk |
| Categories.ShortLinesAreChunks | libtaku/taku-menu-desktop.c:193-193 | a text of newline-terminated lines of at most 245 characters is read back line by line |
| Categories.DirectoryFileName | libtaku/taku-menu-desktop.c:201-201 | the line's last character is replaced by `.directory` |
| Categories.LastLineLosesCharacter | libtaku/taku-menu-desktop.c:201-201 | the last character is dropped even when it is not a newline, so a last line without one loses its final letter |
| Categories.LineCategory | libtaku/taku-menu-desktop.c:198-233 | a line yields a category exactly when it is not a comment and its `.directory` file is readable with both `Match` and `Name`; the category carries those |
| Categories.IsCommentLine | libtaku/taku-menu-desktop.c:198-199 | a line is a comment exactly when it starts with `#` or with one of the six `isspace` bytes, the vertical tab included |
| Categories.AddCategory | libtaku/taku-menu-desktop.c:229-239 | a category is appended; the fallback is the first category whose matches contain `meta-fallback` and is never replaced |
| Categories.LoadVfolderDir | libtaku/taku-menu-desktop.c:170-247 | an unreadable index gives no categories and no fallback |
| Categories.LoadChunks | libtaku/taku-menu-desktop.c:193-244 | at most one category per `fgets` chunk; a fallback, when there is one, is a loaded category that matches `meta-fallback` |
| Categories.FirstWith | libtaku/taku-menu-desktop.c:235-239 | the first category listing the token, and none exactly when no category lists it |
| Categories.FirstWithSnoc | libtaku/taku-menu-desktop.c:235-239 | appending a category changes the first holder of a token only when there was none |
| Categories.FallbackIsFirst | libtaku/taku-menu-desktop.c:170-247 | the loaded fallback is the first loaded category matching `meta-fallback` |
| Categories.LoadedRulesWellFormed | libtaku/taku-menu-desktop.c:170-247 | a fallback, when there is one, points to a loaded category that lists `meta-fallback` |
| Categories.AcceptedAppend | libtaku/taku-menu-desktop.c:193-233 | the lines of an index are read independently: a concatenation loads the concatenated categories |
| Categories.LoadedAreAccepted | libtaku/taku-menu-desktop.c:193-233 | the categories loaded are exactly the lines accepted, in order |
| Categories.CommentLinesIgnored | libtaku/taku-menu-desktop.c:198-199 | a comment line affects neither the categories nor the fallback |
| Categories.AcceptedSkipsComment | libtaku/taku-menu-desktop.c:198-199 | a comment line is never accepted |
| Categories.MatchCategory | libtaku/taku-menu-desktop.c:249-272 | no match exactly when no match token is decisive; otherwise the first decisive token decides, and it is a meta-all match exactly when that token is `meta-all` |
| Categories.Selected | libtaku/taku-menu-desktop.c:274-287 | the positions whose flag is set: each selected position is flagged, every flagged position is selected, in increasing order |
| Categories.Taken | libtaku/taku-menu-desktop.c:274-287 | the categories that take an item: all matching ones, in list order |
| Categories.Placed | libtaku/taku-menu-desktop.c:249-287 | whether some category places the item by an actual tag match |
| Categories.SetGroups | libtaku/taku-menu-desktop.c:274-287 | the item's groups are every matching category in order, followed by the fallback when no tag matched and a fallback exists |
| Categories.FallbackCatchesAll | libtaku/taku-menu-desktop.c:274-287 | with a fallback, no item is left without a group |
| Categories.FallbackTwice | libtaku/taku-menu-desktop.c:249-287 | a fallback category whose matches open with `meta-all` takes every item twice: once through `meta-all`, which does not count as placing it, and once as the fallback |
| DesktopEntry.GetDesktopBoolean | libtaku/taku-menu-desktop.c:293-309 | the parsed boolean when the key parses, otherwise the default |
| DesktopEntry.GetDesktopString | libtaku/taku-menu-desktop.c:311-329 | none exactly when the key is missing or only blank; otherwise the stripped value, non-empty and without surrounding space |
| DesktopEntry.ParseEntry | libtaku/taku-menu-desktop.c:334-400 | unreadable, `NoDisplay` and missing-`Exec` files are rejected for exactly those reasons; an item carries the path, the tokenized `Exec`, the startup-notification flag, a single-instance flag set by either of its two keys, the `Name`, `Comment` and `Icon` strings, categories that are `;`-free and join back to the `Categories` string (none when it is absent), and the groups `set_groups` computes |
| DesktopEntry.CategoriesAreTheSplit | libtaku/taku-menu-desktop.c:334-392 | a readable, shown entry with an `Exec` line is accepted, and its categories are its `Categories` string (empty when absent) split at every `;` |
| Catalog.EmptyMenu | libtaku/taku-menu-desktop.c:610-646 | the initial menu is empty and consistent |
| Catalog.Append | libtaku/taku-menu-desktop.c:395-397 | the old items are kept in front of the new one, the paths grow by exactly the new path, the index answers the new path with the item, and a consistent menu stays consistent when the path is new |
| Catalog.AppendPaths | libtaku/taku-menu-desktop.c:395-397 | appending adds exactly the new path |
| Catalog.AppendIndexed | libtaku/taku-menu-desktop.c:395-397 | after appending, every listed item is what the index holds for its path |
| Catalog.LoadDesktopFile | libtaku/taku-menu-desktop.c:334-400 | an already known path is left alone; otherwise an item is added exactly when the file parses; the menu stays consistent |
| Catalog.FindItem | libtaku/taku-menu-desktop.c:441-458 | the first listed item with the path, and none exactly when no item has it |
| Catalog.FindAgreesWithIndex | libtaku/taku-menu-desktop.c:441-458 | in a consistent menu the list search and the index agree |
| Catalog.RemoveItem | libtaku/taku-menu-desktop.c:460-474 | exactly one occurrence of the item leaves the list by multiset (none when unlisted, and then the list is unchanged); on a consistent menu a listed item's path leaves the paths and the index and the menu stays consistent |
| Catalog.PathsWithoutSub | libtaku/taku-menu-desktop.c:460-474 | with distinct paths, removing an item removes its path |
| Catalog.PathsWithoutSuper | libtaku/taku-menu-desktop.c:460-474 | removing an item loses no other path |
| Catalog.DistinctWithout | libtaku/taku-menu-desktop.c:460-474 | removal keeps paths distinct |
| Catalog.RemovedValid | libtaku/taku-menu-desktop.c:460-474 | dropping a listed item from the list and its path from the index keeps the menu consistent |
| Catalog.HandleEvent | libtaku/taku-menu-desktop.c:476-504 | at most one notification; none means no change; an addition only for a created or moved-in `.desktop` file; a removal exactly for a deleted or moved-out known path; consistency is kept |
| Catalog.AddedIffNewAndParsed | libtaku/taku-menu-desktop.c:476-504 | an addition is announced exactly for a created or moved-in `.desktop` file whose path is not indexed and which parses; then the parsed item is appended and announced |
| Catalog.NotificationsDescribeChange | libtaku/taku-menu-desktop.c:476-504 | replaying the notifications on the old list gives the new list |
| Catalog.ApplyNotifications | libtaku/taku-menu-desktop.c:479-504 | each notification changes the list by at most one item; additions alone keep the old list as a prefix, and removals alone never lengthen it |
| Catalog.RemovedItemWasListed | libtaku/taku-menu-desktop.c:493-503 | only listed items are announced as removed |
| Catalog.RemovingUnknownPath | libtaku/taku-menu-desktop.c:493-503 | deleting an unknown file changes nothing and notifies nothing |
| Catalog.DuplicateCreateIgnored | libtaku/taku-menu-desktop.c:483-492 | creating a file whose path is already listed changes nothing and notifies nothing |
| Catalog.LoadEntries | libtaku/taku-menu-desktop.c:510-552 | loading a directory (recursing into subdirectories, taking `.desktop` files) only appends and keeps the menu consistent |
| Catalog.LoadEntry | libtaku/taku-menu-desktop.c:510-552 | one directory entry only appends and keeps the menu consistent |
| Catalog.LoadDataDir | libtaku/taku-menu-desktop.c:557-568 | a missing applications folder changes nothing; loading keeps the menu consistent |
| Catalog.MenuInit | libtaku/taku-menu-desktop.c:610-646 | the initialised menu is consistent and its rules are those read from the category index |
| Catalog.LoadIsIdempotent | libtaku/taku-menu-desktop.c:347-349 | loading a path a second time adds nothing, whatever the file now holds |
| CategoryBar.SetCategory | src/taku-category-bar.c:69-82 | a NULL node is ignored; otherwise that node becomes current and the bar is consistent |
| CategoryBar.Next | src/taku-category-bar.c:103-120 | moves to the following category, wrapping to the first; does nothing without a current one |
| CategoryBar.Prev | src/taku-category-bar.c:84-101 | moves to the preceding category, wrapping to the last; does nothing without a current one |
| CategoryBar.MenuActivated | src/taku-category-bar.c:150-158 | the chosen category becomes current and its name is shown |
| CategoryBar.SetCategories | src/taku-category-bar.c:285-305 | a non-empty list selects its first category; an empty list shows "No categories available", desensitises the bar and leaves the old current position in place |
| CategoryBar.GetCurrent | src/taku-category-bar.c:307-316 | the current category belongs to the list and its name is the label |
| CategoryBar.NextPrevInverse | src/taku-category-bar.c:84-120 | next and previous undo each other, position and label |
| CategoryBar.NextN | src/taku-category-bar.c:318-332 | repeated next keeps the bar consistent |
| CategoryBar.NextNAdvances | src/taku-category-bar.c:103-120 | k presses of next advance k places, modulo the number of categories |
| CategoryBar.NextCycles | src/taku-category-bar.c:103-120 | one press per category returns to the start |
| CategoryBar.ArrowsIdleWithoutCurrent | src/taku-category-bar.c:84-120 | without a current category the arrows do nothing |
| Tiles.NewTile | libtaku/taku-tile.c:152-156 | a new tile is outside the pointer, keyless, unbound and without groups |
| Tiles.Enter | libtaku/taku-tile.c:76-83 | pointer entry marks the tile as entered, is handled, and changes nothing else |
| Tiles.Leave | libtaku/taku-tile.c:88-95 | pointer exit clears the mark, is handled, and changes nothing else |
| Tiles.Release | libtaku/taku-tile.c:100-110 | a release clicks exactly when it is button 1 inside the tile; a click grabs focus |
| Tiles.RealActivate | libtaku/taku-tile.c:67-71 | keyboard activation clicks without grabbing focus |
| Tiles.Run | libtaku/taku-tile.c:76-110 | a run of pointer events changes only the inside mark |
| Tiles.RunSnoc | libtaku/taku-tile.c:76-110 | a run extends event by event |
| Tiles.RunCountsClicks | libtaku/taku-tile.c:76-110 | the clicks of a run are the button-1 releases while the pointer is inside, by an independent count |
| Tiles.LeaveThenReleaseNoClick | libtaku/taku-tile.c:88-110 | a release right after leaving the tile is not a click |
| Tiles.SetPrimary | libtaku/taku-icon-tile.c:334-354 | sets the label (empty for NULL) and the collation key of the text (none for NULL), changing nothing else |
| Tiles.KeysFollowPrimary | libtaku/taku-icon-tile.c:160-170 | an icon tile's sort key is its collation key and its search key its label; a plain tile has neither |
| Tiles.SortKey | libtaku/taku-tile.c:158-170 | a plain tile, whose class has no `get_sort_key`, has no sort key; an icon or launcher tile's key is its collation key |
| Tiles.SearchKey | libtaku/taku-tile.c:172-184 | a tile has a search key exactly when it is not a plain tile, and that key is its label |
| Tiles.MatchesFilter | libtaku/taku-tile.c:186-199 | a NULL filter matches nothing; a non-launcher tile matches any filter; a launcher tile matches exactly its groups |
| Tiles.AddGroup | libtaku/taku-launcher-tile.c:209-215 | the group is prepended, one more occurrence, nothing else changes |
| Tiles.RemoveGroup | libtaku/taku-launcher-tile.c:217-223 | the first occurrence is removed and the other groups keep their order; an absent group changes nothing |
| Tiles.AddGroups | libtaku/taku-launcher-tile.c:193-195 | adding groups changes only the groups |
| Tiles.AddGroupsReverses | libtaku/taku-launcher-tile.c:193-195 | prepending one by one leaves the added groups in reverse order in front of the old ones |
| Tiles.NewFromItem | libtaku/taku-launcher-tile.c:168-199 | a launcher tile bound to the item, labelled with its name, with its comment as secondary text (empty for none), holding its groups in reverse |
| Tiles.NewTileMatchesItemGroups | libtaku/taku-launcher-tile.c:131-135 | a tile made from an item matches exactly the item's categories |
| Tiles.RemoveAfterAdd | libtaku/taku-launcher-tile.c:209-223 | removing a group just added restores the tile |
| Tiles.RemoveGroupMatching | libtaku/taku-launcher-tile.c:131-135 | after one removal a tile still matches the category exactly when it held it twice |
| IconQueue.StyleSet | libtaku/taku-launcher-tile.c:79-92 | a tile not yet loading is queued at the tail and marked; a loading tile is not queued again |
| IconQueue.TakeQueue | libtaku/taku-launcher-tile.c:44-77 | taking k tiles pops them from the head and clears their loading mark |
| IconQueue.TakeShown | libtaku/taku-launcher-tile.c:44-77 | each taken tile shows its looked-up icon; every other tile keeps its icon |
| IconQueue.TakeSpec | libtaku/taku-launcher-tile.c:44-77 | both halves of taking k tiles |
| IconQueue.LoadIcon | libtaku/taku-launcher-tile.c:44-77 | one idle call loads at most the batch size of tiles from the head, shows their icons, and asks to be called again |
| IconQueue.TakeStep | libtaku/taku-launcher-tile.c:44-77 | taking one more tile pops the next head |
| IconQueue.Batch | libtaku/taku-launcher-tile.c:44-77 | an idle call makes progress on a non-empty queue and empties a short one |
| IconQueue.Drain | libtaku/taku-launcher-tile.c:44-77 | repeated idle calls empty the queue and leave no tile marked as loading |
| IconQueue.StyleSetThenDrain | libtaku/taku-launcher-tile.c:79-92 | a style change on an idle loader ends with the tile showing its icon |
| IconQueue.StyleSetIdempotent | libtaku/taku-launcher-tile.c:79-92 | a repeated style change queues nothing more |
| DesktopView.TableSort | src/desktop.c:155-176 | a keyless tile sorts before a keyed one; the result is a sign |
| DesktopView.TableSortOrders | src/desktop.c:155-176 | the sort is a total preorder: equal exactly on equal keys, antisymmetric, transitive |
| DesktopView.OnItemAdded | src/desktop.c:43-54 | a tile bound to the item joins the flow box, recorded after the existing ones; the display order is the sort function's |
| DesktopView.FindTile | src/desktop.c:56-77 | corrected search: with each child unwrapped, the first tile bound to the path, and none exactly when no tile is |
| DesktopView.OnItemRemoved | src/desktop.c:56-77 | corrected (see Findings): with no bound tile nothing changes, otherwise one tile fewer; on a flow box mirroring a menu with distinct paths that lists the item, the result mirrors the menu without the item |
| DesktopView.LoadItems | src/desktop.c:106-123 | existing tiles are kept and at most one tile per item is added |
| DesktopView.Present | src/desktop.c:106-123 | the items that are present, at most as many as given |
| DesktopView.LoadItemsMirrors | src/desktop.c:106-123 | the initial load makes the tiles mirror the menu's items one to one, in order |
| DesktopView.FirstIndexOfDistinct | src/desktop.c:56-77 | with distinct paths an item's first position is its position |
| DesktopView.FindTileMirrors | src/desktop.c:56-77 | in a mirror the tile for an item's path sits at the item's position |
| DesktopView.MirrorAdd | src/desktop.c:43-54 | "item-added" keeps the mirror |
| DesktopView.MirrorWithout | src/desktop.c:56-77 | in a mirror the tile found for item i is tile i, and dropping it mirrors the menu without item i |
| DesktopView.MirrorNotification | src/desktop.c:43-77 | any notification about a listed item keeps the mirror |
| DesktopView.OnNotification | src/desktop.c:43-77 | bar and selection are untouched; an added item gets a new tile bound to it after the existing ones; a removal takes away at most one tile |
| DesktopView.OnNotifications | src/desktop.c:43-77 | a list of signals changes the tile count by at most one per signal and leaves bar and selection alone |
| DesktopView.StaysInSync | src/desktop.c:43-77 | with the corrected removal, after any file-system event the view still mirrors the menu |
| DesktopView.Children | src/desktop.c:62 | the flow box's children are one `GtkFlowBoxChild` wrapper per tile, in order |
| DesktopView.FindChild | src/desktop.c:62-72 | the loop as written: the first child that is itself a launcher tile bound to the path; none exactly when no child is |
| DesktopView.OnItemRemovedAsWritten | src/desktop.c:56-77 | as written no wrapper passes `TAKU_IS_LAUNCHER_TILE`, so the flow box keeps every tile |
| DesktopView.StaleTileAfterDelete | src/desktop.c:56-77 | deleting a listed `.desktop` file removes the item from the menu's list and index, but as written its tile stays bound to the path and the view no longer mirrors the menu |
| DesktopView.TableFilterAsWritten | src/desktop.c:147-153 | the code reads the current category's data, and there is none exactly when the bar has no current category |
| DesktopView.EmptyCategoriesBreakFilter | src/desktop.c:147-153 | with an empty category list the filter has nothing to read |
| DesktopView.TableFilter | src/desktop.c:147-153 | corrected: without a current category the tile is hidden, which is how `taku_tile_matches_filter` answers a NULL filter; with one the filter agrees with the code |
| DesktopView.ShownIffInCurrentCategory | src/desktop.c:147-153 | a launcher tile is shown exactly when its item belongs to the current category |
| DesktopView.FocusCb | src/desktop.c:80-101 | left and right switch the category and report the focus handled; up clears the selection; the rest and an empty bar change nothing |
| DesktopView.LeftThenRightReturns | src/desktop.c:80-101 | running off the left and then the right edge returns to the same category |
| DesktopView.RightAdvances | src/desktop.c:80-101 | running off the right edge moves to the next category modulo the count |
| DesktopView.MinChildrenPerLine | src/desktop.c:140-145 | the number of 200-pixel columns that fit in the width |
| LegacyTable.NewTable | taku-table.c:295-295 | a new table is empty with two columns |
| LegacyTable.AtNext | taku-table.c:40-56 | reflow advances one cell per child and wraps at the column count |
| LegacyTable.AtFirstRow | taku-table.c:40-56 | the first children fill row 0 |
| LegacyTable.AtUnique | taku-table.c:40-56 | a child index has a single cell |
| LegacyTable.AtIsDivMod | taku-table.c:40-56 | child k goes to column k mod n, row k div n |
| LegacyTable.Reflow | taku-table.c:58-108 | an invisible table is untouched; otherwise child k is at its cell and dummies fill the rest of a short first row exactly |
| LegacyTable.CellsDisjoint | taku-table.c:58-108 | no two children share a cell and no child sits on a dummy |
| LegacyTable.PangoPixels | taku-table.c:182-209 | Pango units are rounded to the nearest pixel |
| LegacyTable.CalculateColumns | taku-table.c:182-209 | the columns are the count of cells that fit in the width (at least one); an unchanged count leaves the table alone; a new count reflows |
| LegacyTable.InsertPos | taku-table.c:128-144 | the insertion point follows every child collating at most equal and precedes the first collating after |
| LegacyTable.Inserted | taku-table.c:128-144 | insertion puts the widget at the point and shifts the rest |
| LegacyTable.AfterInsertPos | taku-table.c:110-144 | in a sorted sequence everything from the insertion point on collates after the widget |
| LegacyTable.InsertedSorted | taku-table.c:110-144 | sorted insertion keeps the sequence sorted |
| LegacyTable.InsertedDistinct | taku-table.c:128-144 | inserting a new widget keeps children distinct and adds exactly it |
| LegacyTable.InsertSorted | taku-table.c:128-144 | the result is sorted, one occurrence longer, with the widget at the boundary of the collation |
| LegacyTable.ContainerAdd | taku-table.c:128-144 | a new child goes in sorted; a visible table is reflowed, an invisible one gets the cell (0,0) |
| LegacyTable.RemoveTargetAsWritten | taku-table.c:146-180 | as written, a found position holds the widget, and an absent widget is not found |
| LegacyTable.RemoveTarget | taku-table.c:157-180 | corrected: the widget is found exactly when it is a child |
| LegacyTable.AddressSortedRemoves | taku-table.c:146-180 | the address search is correct only on an address-sorted sequence |
| LegacyTable.GreatestAddressNotRemoved | taku-table.c:146-180 | a child with the greatest address that is not last is never found |
| LegacyTable.TwoTileCounterexample | taku-table.c:146-180 | children at addresses 2 then 1: removing 2 misses it |
| LegacyTable.WithoutDistinct | taku-table.c:157-180 | removing one child keeps the rest distinct and removes exactly it |
| LegacyTable.RemoveAt | taku-table.c:157-180 | removing a position removes that child and reflows a visible table |
| LegacyTable.ContainerRemoveAsWritten | taku-table.c:157-180 | as written, the widget is removed only when the address search finds it |
| LegacyTable.ContainerRemove | taku-table.c:157-180 | corrected: the widget is no longer a child, one occurrence fewer; a non-child changes nothing |
| LegacyMain.TableFor | main.c:58-70 | "office" exactly when `;Office;` occurs, "settings" exactly when `;Settings;` occurs without it, else "other"; NULL is "other" |
| LegacyMain.ShortCategoriesAreOther | main.c:64-70 | a string shorter than `;Office;` goes to "other" |
| LegacyMain.NoSeparatorIsOther | main.c:64-70 | a string without `;` goes to "other" |
| LegacyMain.PlaceEntry | main.c:47-75 | an entry is placed exactly when it is a `.desktop` file yielding a tile whose table exists, under its joined file name and classified table |
| LegacyMain.PlaceAll | main.c:47-75 | the placements are exactly those of the listed names |
| LegacyMain.LoadDataDir | main.c:16-86 | an unreadable folder places nothing; every placement is a `.desktop` file in an existing table |
| LegacyMain.FilenameKeepsSuffix | main.c:47-56 | joining keeps the `.desktop` suffix |
| LegacyMain.DefaultTablesPlaceEveryTile | main.c:157-168 | with the three default tables every `.desktop` file that yields a tile is placed |

## Left out

- GTK, GDK and Pango widgets, signals, drawing and layout are left out. So are the notebook and window set-up, work-area tracking and accessibility names. They are toolkit plumbing with no logic of the launcher's own. The one toolkit behaviour the model relies on is that a GtkFlowBox wraps each added widget in a `GtkFlowBoxChild` (`DesktopView.Children`).
- The key-file parser (`GKeyFile`), locale resolution and UTF-8 handling are foreign. A desktop file is given as its parsed strings and booleans.
- Directory listing, `fopen`/`fgets` on real files and the inotify machinery are I/O. Listings, file contents and events are data.
- X11 property reads are I/O. A property is its bytes, or none when the read fails.
- Process spawning, startup notification (libsn) and window activation are foreign calls. `Launch.LaunchDecision` returns which of them would run.
- Loading icons and pixbufs is foreign. Which loads would succeed is given as predicates.
- `g_utf8_collate_key` and case folding are a parameter function. Sorting assumes only that `strcmp` orders the keys.
- The egg_sequence tree shape is abstracted away: eggsequence.c is not part of this model. Insertion and the address search are modelled by the boundary each one finds.
- The idle dispatch of taku-queue-source.c is not modelled. `IconQueue.Drain` stands for repeated idle calls.
- Focus movement inside the flow box (`gtk_widget_child_focus`) is toolkit behaviour. Only the category switch is modelled.
- Common.BuildFilename: does not collapse repeated separators as `g_build_filename` does. A data directory listed with a trailing `/` (`/usr/share/`) therefore gives paths with `//` in the model (`/usr/share//applications/a.desktop`), while the same directory without it gives `/usr/share/applications/a.desktop`. The duplicate test compares paths as strings, so when a data-directory list names the same directory in both spellings, the model loads each of its applications twice. The code builds one path for both and loads each application once.
- Catalog.MenuInit: the choice of the vfolder directory (environment variable or default) is left to the caller, as the given index text.
- WindowProps.Atoi: does not model 32-bit `int` overflow, because `atoi` out of range is undefined behaviour in C.
- ExecArgv.ExecToArgv: a line ending in a lone `%` makes the C scanner read past the terminator, which is undefined behaviour. The model returns no vector, and the loader treats that as an item with no argument vector.
- Launch.LaunchDecision: requires a non-empty vector for a single-instance launch. The C code reads `argv[0]` without a check.
- LegacyTable.CalculateColumns: requires a positive cell width when it divides. A zero character width would make the C code divide by zero.
- `taku_launcher_tile_get_groups` returns a copy of the tile's group list (`g_list_copy`). The model's group list is an immutable sequence, so the copy and its ownership have no counterpart.
- CategoryBar.SetCategories: after an empty list the model keeps the old current position as an index, so the bar is no longer `Valid` and the arrow operations cannot be applied. The C code keeps a pointer to a node of the old list, whose links next and prev would follow; the buttons are made insensitive at the same time.
- Categories.LoadVfolderDir: requires an index without NUL bytes. C reads each line only up to a NUL, and a line that starts with one makes the `strcpy` write before the buffer.
- Catalog.MenuInit: requires an index without NUL bytes, for the same reason as `Categories.LoadVfolderDir`.
- `GtkTable` resizing is left out. The grid is modelled by its cell positions.

## Findings

| source | as written | input that shows it | evidently intended | confidence | as-written member | corrected member |
|---|---|---|---|---|---|---|
| libtaku/xutil.c:177-182 | `atoi` of the registered value is stored in an unsigned `Window` and accepted when non-zero | an entry `bin=-5\|` gives window 2^64 − 5 | a non-positive id means no window | not executed | WindowProps.NegativeIdBecomesHugeWindow | WindowProps.GetWindowFindsFirst |
| src/desktop.c:147-153 | `table_filter` reads the current category's data without checking for NULL | a bar given an empty category list has no current category | with no current category the filter passes NULL on and `taku_tile_matches_filter`, which refuses a NULL filter (libtaku/taku-tile.c:192), hides the tile | not executed | DesktopView.EmptyCategoriesBreakFilter | DesktopView.TableFilter |
| src/desktop.c:62-76 | `on_item_removed` applies `TAKU_IS_LAUNCHER_TILE` to the flow box's children, which are `GtkFlowBoxChild` wrappers, so no tile is found; the tile keeps pointing at the item `_remove_item` then frees | deleting any listed `.desktop` file | the item's tile leaves the flow box, the children unwrapped with `gtk_bin_get_child` as in `table_filter` | not executed | DesktopView.StaleTileAfterDelete | DesktopView.OnItemRemoved |
| taku-table.c:146-180 | `container_remove` searches by widget address in a sequence sorted by collation | children at addresses 2 then 1 in collation order; removing 2 finds nothing | the widget is removed whenever it is a child | not executed | LegacyTable.TwoTileCounterexample | LegacyTable.ContainerRemove |

=== FILE: catalog.dfy ===
/**
 The item store of libtaku/taku-menu-desktop.c: the ordered item list with its
 path index, load_desktop_file's duplicate test and registration, _find_item,
 _remove_item, the add/remove handling of inotify_event and the initial scan
 of the application directories. Directory listings and file contents are
 given as data; the inotify machinery is reduced to the events it delivers.
 */
module Catalog {
  import opened Common
  import Categories
  import opened DesktopEntry

  /** The menu: the category rules, the items in load order and the index from path to item. */
  datatype Menu = Menu(rules: Categories.Rules, items: seq<MenuItem>, index: map<string, MenuItem>)

  /** The set of paths of a list of items. */
  function Paths(items: seq<MenuItem>): set<string> {
    set i | 0 <= i < |items| :: items[i].path
  }

  /** The list and the index agree: paths are unique, and each indexes its own item and nothing else. */
  predicate Valid(m: Menu) {
    && (forall i, j :: 0 <= i < j < |m.items| ==> m.items[i].path != m.items[j].path)
    && m.index.Keys == Paths(m.items)
    && (forall i :: 0 <= i < |m.items| ==> m.index[m.items[i].path] == m.items[i])
  }

  /** The menu before any desktop file is read. */
  function EmptyMenu(rules: Categories.Rules): (m: Menu)
    ensures Valid(m) && |m.items| == 0
  {
    Menu(rules, [], map[])
  }

  /**
   Registers a new item: the list keeps its items and gains the new one at the
   end, the paths grow by exactly the new path, the index answers the new path
   with the item, and a consistent menu stays consistent when the path is new.
   */
  function Append(m: Menu, item: MenuItem): (r: Menu)
    ensures r.rules == m.rules
    ensures |r.items| == |m.items| + 1 && r.items[..|m.items|] == m.items && r.items[|m.items|] == item
    ensures Paths(r.items) == Paths(m.items) + {item.path}
    ensures item.path in r.index && r.index[item.path] == item
    ensures Valid(m) && item.path !in m.index ==> Valid(r)
  {
    AppendPaths(m.items, item);
    assert Valid(m) && item.path !in m.index ==> Valid(Menu(m.rules, m.items + [item], m.index[item.path := item])) by {
      if Valid(m) && item.path !in m.index { AppendIndexed(m, item); }
    }
    assert (m.items + [item])[..|m.items|] == m.items;
    Menu(m.rules, m.items + [item], m.index[item.path := item])
  }

  /** Appending an item adds exactly its path to the list's paths. */
  lemma AppendPaths(items: seq<MenuItem>, item: MenuItem)
    ensures Paths(items + [item]) == Paths(items) + {item.path}
  {
    var r := items + [item];
    forall p | p in Paths(r) ensures p in Paths(items) + {item.path} {
      var k :| 0 <= k < |r| && r[k].path == p;
      if k < |items| {
        assert items[k].path == p;
      }
    }
    forall p | p in Paths(items) ensures p in Paths(r) {
      var k :| 0 <= k < |items| && items[k].path == p;
      assert r[k].path == p;
    }
    assert r[|items|].path == item.path;
  }

  /** After appending an item with a new path, every listed item is still indexed by its own path. */
  lemma AppendIndexed(m: Menu, item: MenuItem)
    requires Valid(m) && item.path !in m.index
    ensures var r := Menu(m.rules, m.items + [item], m.index[item.path := item]);
            forall i :: 0 <= i < |r.items| ==> r.index[r.items[i].path] == r.items[i]
  {
    var r := Menu(m.rules, m.items + [item], m.index[item.path := item]);
    forall i | 0 <= i < |r.items| ensures r.index[r.items[i].path] == r.items[i] {
      if i < |m.items| {
        assert r.items[i] == m.items[i];
        assert m.items[i].path in Paths(m.items);
      }
    }
  }

  /**
   load_desktop_file: a path already indexed yields nothing and changes
   nothing; a rejected file yields nothing; an accepted one is appended to the
   list and registered in the index.
   */
  function LoadDesktopFile(m: Menu, path: string, file: Option<KeyFile>): (r: (Menu, Option<MenuItem>))
    ensures Valid(m) ==> Valid(r.0)
    ensures r.0.rules == m.rules
    ensures path in m.index ==> r.0 == m && r.1.None?
    ensures r.1.Some? <==> path !in m.index && ParseEntry(path, file, m.rules).Success?
    ensures r.1.None? ==> r.0 == m
    ensures r.1.Some? ==> r.1.value.path == path
                          && r.0.items == m.items + [r.1.value]
                          && r.0.index == m.index[path := r.1.value]
  {
    if path in m.index then (m, None)
    else match ParseEntry(path, file, m.rules)
      case Failure(_) => (m, None)
      case Success(item) =>
        (Append(m, item), Some(item))
  }

  /** _find_item: the position of the first item with the given path. */
  function FindItem(items: seq<MenuItem>, path: string): (r: Option<nat>)
    ensures r.None? <==> path !in Paths(items)
    ensures r.Some? ==> r.value < |items| && items[r.value].path == path
    ensures r.Some? ==> forall i :: 0 <= i < r.value ==> items[i].path != path
  {
    if |items| == 0 then None
    else if items[0].path == path then Some(0)
    else match FindItem(items[1..], path)
      case None =>
        assert forall i :: 0 < i < |items| ==> items[i] == items[1..][i - 1];
        None
      case Some(i) => Some(i + 1)
  }

  /** The linear search and the index agree on a consistent menu. */
  lemma FindAgreesWithIndex(m: Menu, path: string)
    requires Valid(m)
    ensures FindItem(m.items, path).Some? <==> path in m.index
    ensures FindItem(m.items, path).Some? ==> m.items[FindItem(m.items, path).value] == m.index[path]
  {
  }

  /**
   _remove_item: exactly one occurrence of the item leaves the list (none when
   it is not listed), and on a consistent menu a listed item's path leaves the
   paths and the index while the menu stays consistent.
   */
  function RemoveItem(m: Menu, item: MenuItem): (r: Menu)
    ensures r.rules == m.rules
    ensures multiset(r.items) == multiset(m.items) - multiset{item}
    ensures item !in m.items ==> r.items == m.items
    ensures Valid(m) && item in m.items ==>
              Valid(r) && Paths(r.items) == Paths(m.items) - {item.path} && item.path !in r.index
  {
    RemoveFirstMultiset(m.items, item);
    assert Valid(m) && item in m.items ==>
             Valid(Menu(m.rules, RemoveFirst(m.items, item), m.index - {item.path})) by {
      if Valid(m) && item in m.items {
        var i := FirstIndex(m.items, item);
        RemovedValid(m, i);
        PathsWithoutSub(m.items, i);
        PathsWithoutSuper(m.items, i);
      }
    }
    Menu(m.rules, RemoveFirst(m.items, item), m.index - {item.path})
  }

  /** Paths are unique in the list. */
  predicate DistinctPaths(s: seq<MenuItem>) {
    forall i, j :: 0 <= i < j < |s| ==> s[i].path != s[j].path
  }

  lemma PathsWithoutSub(s: seq<MenuItem>, i: nat)
    requires i < |s| && DistinctPaths(s)
    ensures Paths(Without(s, i)) <= Paths(s) - {s[i].path}
  {
    var rest := Without(s, i);
    forall p | p in Paths(rest) ensures p in Paths(s) - {s[i].path} {
      var k :| 0 <= k < |rest| && rest[k].path == p;
      var k' := if k < i then k else k + 1;
      assert rest[k] == s[k'];
      assert k' != i;
    }
  }

  lemma PathsWithoutSuper(s: seq<MenuItem>, i: nat)
    requires i < |s|
    ensures Paths(s) - {s[i].path} <= Paths(Without(s, i))
  {
    var rest := Without(s, i);
    forall p | p in Paths(s) - {s[i].path} ensures p in Paths(rest) {
      var k :| 0 <= k < |s| && s[k].path == p;
      if k < i { assert rest[k] == s[k]; } else { assert rest[k - 1] == s[k]; }
    }
  }

  lemma DistinctWithout(s: seq<MenuItem>, i: nat)
    requires i < |s| && DistinctPaths(s)
    ensures DistinctPaths(Without(s, i))
  {
    var rest := Without(s, i);
    forall a, b | 0 <= a < b < |rest| ensures rest[a].path != rest[b].path {
      assert rest[a] == s[if a < i then a else a + 1];
      assert rest[b] == s[if b < i then b else b + 1];
    }
  }

  /** Dropping a listed item from the list and its path from the index keeps the menu consistent. */
  lemma RemovedValid(m: Menu, i: nat)
    requires Valid(m) && i < |m.items|
    ensures Valid(Menu(m.rules, Without(m.items, i), m.index - {m.items[i].path}))
  {
    var item := m.items[i];
    var s := m.items;
    var rest := Without(s, i);
    PathsWithoutSub(s, i);
    PathsWithoutSuper(s, i);
    DistinctWithout(s, i);
    var index := m.index - {item.path};
    forall k | 0 <= k < |rest| ensures index[rest[k].path] == rest[k] {
      assert rest[k] == s[if k < i then k else k + 1];
    }
  }

  // ---------------------------------------------------------------------------
  // File-system events

  /** The inotify event kinds the handler distinguishes. */
  datatype EventKind = Created | MovedTo | Deleted | MovedFrom | OtherEvent

  /** An event on the file `name` in the watched directory `dir`. */
  datatype FsEvent = FsEvent(kind: EventKind, dir: string, name: string)

  /** The signals the menu emits. */
  datatype Notification = ItemAdded(item: MenuItem) | ItemRemoved(item: MenuItem)

  /**
   inotify_event: a created or moved-in file with the .desktop suffix is
   loaded, and "item-added" fires if that yields an item; for a deleted or
   moved-away file (any name) the item with that path, if found, is announced
   with "item-removed" and then removed. Other events do nothing.
   */
  function HandleEvent(m: Menu, ev: FsEvent, files: string -> Option<KeyFile>): (r: (Menu, seq<Notification>))
    ensures Valid(m) ==> Valid(r.0)
    ensures r.0.rules == m.rules
    ensures |r.1| <= 1
    ensures |r.1| == 0 ==> r.0 == m
    ensures (exists x :: r.1 == [ItemAdded(x)]) ==>
              (ev.kind == Created || ev.kind == MovedTo) && HasSuffix(ev.name, DesktopSuffix)
    ensures (exists x :: r.1 == [ItemRemoved(x)]) <==>
              (ev.kind == Deleted || ev.kind == MovedFrom) && BuildFilename(ev.dir, ev.name) in Paths(m.items)
  {
    var path := BuildFilename(ev.dir, ev.name);
    match ev.kind
    case Created | MovedTo =>
      if HasSuffix(ev.name, DesktopSuffix) then
        var (m1, item) := LoadDesktopFile(m, path, files(path));
        (m1, if item.Some? then [ItemAdded(item.value)] else [])
      else (m, [])
    case Deleted | MovedFrom =>
      (match FindItem(m.items, path)
       case Some(i) =>
         (RemoveItem(m, m.items[i]), [ItemRemoved(m.items[i])])
       case None => (m, []))
    case OtherEvent => (m, [])
  }

  /**
   The converse of the addition clause: a created or moved-in `.desktop` file
   is announced exactly when its path is not yet indexed and it parses, and
   then the parsed item is appended and announced.
   */
  lemma AddedIffNewAndParsed(m: Menu, ev: FsEvent, files: string -> Option<KeyFile>)
    ensures var path := BuildFilename(ev.dir, ev.name);
            var r := HandleEvent(m, ev, files);
            && ((exists x :: r.1 == [ItemAdded(x)]) <==>
                  (ev.kind == Created || ev.kind == MovedTo) && HasSuffix(ev.name, DesktopSuffix)
                  && path !in m.index && ParseEntry(path, files(path), m.rules).Success?)
            && ((ev.kind == Created || ev.kind == MovedTo) && HasSuffix(ev.name, DesktopSuffix)
                && path !in m.index && ParseEntry(path, files(path), m.rules).Success? ==>
                  var item := ParseEntry(path, files(path), m.rules).value;
                  r.1 == [ItemAdded(item)] && r.0.items == m.items + [item])
  {
    var path := BuildFilename(ev.dir, ev.name);
    var r := HandleEvent(m, ev, files);
    if (ev.kind == Created || ev.kind == MovedTo) && HasSuffix(ev.name, DesktopSuffix) {
      var (m1, item) := LoadDesktopFile(m, path, files(path));
      assert r == (m1, if item.Some? then [ItemAdded(item.value)] else []);
    } else {
      assert forall x :: r.1 != [ItemAdded(x)];
    }
  }

  /** The change a list of notifications describes, applied to a list of items. */
  function ApplyNotifications(items: seq<MenuItem>, notes: seq<Notification>): (r: seq<MenuItem>)
    ensures |items| - |notes| <= |r| <= |items| + |notes|
    ensures (forall k :: 0 <= k < |notes| ==> notes[k].ItemAdded?) ==> items <= r
    ensures (forall k :: 0 <= k < |notes| ==> notes[k].ItemRemoved?) ==> |r| <= |items|
    decreases |notes|
  {
    if |notes| == 0 then items
    else match notes[0]
      case ItemAdded(x) => ApplyNotifications(items + [x], notes[1..])
      case ItemRemoved(x) => ApplyNotifications(RemoveFirst(items, x), notes[1..])
  }

  /**
   The notifications describe the change exactly: replaying them on the old
   item list gives the new one. A listener that mirrors them stays in sync.
   */
  lemma NotificationsDescribeChange(m: Menu, ev: FsEvent, files: string -> Option<KeyFile>)
    ensures var r := HandleEvent(m, ev, files);
            ApplyNotifications(m.items, r.1) == r.0.items
  {
    var r := HandleEvent(m, ev, files);
    if |r.1| == 1 {
      assert r.1[1..] == [];
    }
  }

  /** Whatever "item-removed" announces was an item of the list. */
  lemma RemovedItemWasListed(m: Menu, ev: FsEvent, files: string -> Option<KeyFile>)
    ensures var r := HandleEvent(m, ev, files);
            forall k :: 0 <= k < |r.1| && r.1[k].ItemRemoved? ==> r.1[k].item in m.items
  {
  }

  /** A removal event for a file never loaded changes nothing and announces nothing. */
  lemma RemovingUnknownPath(m: Menu, ev: FsEvent, files: string -> Option<KeyFile>)
    requires ev.kind == Deleted || ev.kind == MovedFrom
    requires BuildFilename(ev.dir, ev.name) !in Paths(m.items)
    ensures HandleEvent(m, ev, files) == (m, [])
  {
  }

  /** Creating a file that is already loaded is ignored: the first load wins. */
  lemma DuplicateCreateIgnored(m: Menu, ev: FsEvent, files: string -> Option<KeyFile>)
    requires Valid(m) && (ev.kind == Created || ev.kind == MovedTo)
    requires BuildFilename(ev.dir, ev.name) in Paths(m.items)
    ensures HandleEvent(m, ev, files) == (m, [])
  {
  }

  // ---------------------------------------------------------------------------
  // The initial scan

  /** A directory listing: sub-directories, regular files and other kinds of entry. */
  datatype DirEntry =
    | SubDir(name: string, entries: seq<DirEntry>)
    | RegularFile(name: string)
    | OtherFile(name: string)

  /**
   load_desktop_files over a listing: sub-directories are descended into,
   regular files named *.desktop are loaded, nothing is announced.
   */
  function LoadEntries(m: Menu, dir: string, entries: seq<DirEntry>, files: string -> Option<KeyFile>): (r: Menu)
    ensures Valid(m) ==> Valid(r)
    ensures r.rules == m.rules
    ensures m.items <= r.items
    decreases entries
  {
    if |entries| == 0 then m
    else
      var m1 := LoadEntry(m, dir, entries[0], files);
      var r := LoadEntries(m1, dir, entries[1..], files);
      PrefixTransitive(m.items, m1.items, r.items);
      r
  }

  /** One entry of a listing: a sub-directory is descended into, a regular *.desktop file is loaded. */
  function LoadEntry(m: Menu, dir: string, e: DirEntry, files: string -> Option<KeyFile>): (r: Menu)
    ensures Valid(m) ==> Valid(r)
    ensures r.rules == m.rules
    ensures m.items <= r.items
    decreases e
  {
    match e
    case SubDir(name, sub) => LoadEntries(m, BuildFilename(dir, name), sub, files)
    case RegularFile(name) =>
      if HasSuffix(name, DesktopSuffix) then LoadDesktopFile(m, BuildFilename(dir, name), files(BuildFilename(dir, name))).0
      else m
    case OtherFile(_) => m
  }

  /** load_data_dir: the listing of `datadir`/applications, or nothing when it is not a directory. */
  function LoadDataDir(m: Menu, datadir: string, listing: Option<seq<DirEntry>>, files: string -> Option<KeyFile>): (r: Menu)
    ensures Valid(m) ==> Valid(r)
    ensures listing.None? ==> r == m
  {
    match listing
    case None => m
    case Some(entries) => LoadEntries(m, BuildFilename(datadir, "applications"), entries, files)
  }

  /**
   taku_menu_init: the category rules from the index, then every data
   directory in turn. The resulting menu is consistent, so every item can be
   found by its path and no path is loaded twice.
   */
  function MenuInit(index: Option<string>, dirs: string -> Categories.DirectoryFile,
                    dataDirs: seq<(string, Option<seq<DirEntry>>)>, files: string -> Option<KeyFile>): (r: Menu)
    requires index.Some? ==> '\0' !in index.value
    ensures Valid(r)
    ensures r.rules == Categories.LoadVfolderDir(index, dirs)
    decreases |dataDirs|
  {
    if |dataDirs| == 0 then EmptyMenu(Categories.LoadVfolderDir(index, dirs))
    else
      var last := dataDirs[|dataDirs| - 1];
      LoadDataDir(MenuInit(index, dirs, dataDirs[..|dataDirs| - 1], files), last.0, last.1, files)
  }

  /** Once a path is loaded, loading it again, whatever the file now holds, changes nothing. */
  lemma LoadIsIdempotent(m: Menu, path: string, file: Option<KeyFile>, file2: Option<KeyFile>)
    requires LoadDesktopFile(m, path, file).1.Some?
    ensures var m1 := LoadDesktopFile(m, path, file).0;
            var r := LoadDesktopFile(m1, path, file2);
            r.1.None? && r.0 == m1
  {
  }
}

=== FILE: categories.dfy ===
/**
 The category rule engine of libtaku/taku-menu-desktop.c: reading the category
 index (Root.order) into categories, choosing the fallback category, and
 classifying an item by its Categories tags (match_category and set_groups).
 Reading files is foreign: the index arrives as its text (None when it cannot
 be opened) and each .directory file as an already parsed record.
 */
module Categories {
  import opened Common

  /** The match token that places every item in a category without counting as a placement. */
  const MetaAll := "meta-all"
  /** The match token marking the category that collects unplaced items. */
  const MetaFallback := "meta-fallback"
  /** fgets(name, NAME_MAX - 9, fp) with NAME_MAX = 255 reads at most 245 characters per call. */
  const LineMax: nat := 245
  /** What replaces the last character of an index line. */
  const DirectorySuffix := ".directory"

  /** A category: its display name and its list of match tokens. */
  datatype Category = Category(name: string, matches: seq<string>)

  /**
   A .directory key file as the key-file reader sees it: unreadable, or its
   Match string list and its locale-resolved Name, each possibly absent.
   */
  datatype DirectoryFile =
    | UnreadableDirectory
    | DirectoryFile(matchList: Option<seq<string>>, name: Option<string>)

  /** The loaded categories in index order, and the position of the fallback category. */
  datatype Rules = Rules(categories: seq<Category>, fallback: Option<nat>)

  // ---------------------------------------------------------------------------
  // Reading Root.order with fgets

  /** How many bytes one fgets call takes: through the next newline, at most LineMax. */
  function ChunkLength(text: string): (n: nat)
    requires |text| > 0
    ensures 0 < n <= |text| && n <= LineMax
    ensures '\n' !in text[..n - 1]
    ensures text[n - 1] == '\n' || n == LineMax || n == |text|
  {
    match IndexOf(text, '\n')
    case Some(i) =>
      if i + 1 <= LineMax then i + 1
      else assert text[..LineMax - 1] <= text[..i]; LineMax
    case None => Min(|text|, LineMax)
  }

  /** Flattens the chunks back into one text. */
  function Concat(chunks: seq<string>): string {
    if |chunks| == 0 then "" else chunks[0] + Concat(chunks[1..])
  }

  /** What one fgets buffer can hold: one to LineMax characters, a newline only at the end. */
  predicate IsChunk(c: string) {
    0 < |c| <= LineMax && '\n' !in c[..|c| - 1]
  }

  /**
   The successive buffers fgets fills from the index text: each ends at a
   newline, after LineMax characters, or at the end of the file.
   */
  function FgetsChunks(text: string): (r: seq<string>)
    ensures Concat(r) == text
    ensures forall k :: 0 <= k < |r| ==> IsChunk(r[k])
    decreases |text|
  {
    if |text| == 0 then []
    else
      var n := ChunkLength(text);
      var rest := FgetsChunks(text[n..]);
      FirstChunk(text);
      ChunksCons(text[..n], rest);
      ConcatCons(text, n, rest);
      [text[..n]] + rest
  }

  /** The buffer one fgets call fills is a chunk. */
  lemma FirstChunk(text: string)
    requires |text| > 0
    ensures IsChunk(text[..ChunkLength(text)])
  {
    var n := ChunkLength(text);
    assert text[..n][..n - 1] == text[..n - 1];
  }

  /** A chunk in front of chunks gives chunks. */
  lemma ChunksCons(c: string, rest: seq<string>)
    requires IsChunk(c) && forall k :: 0 <= k < |rest| ==> IsChunk(rest[k])
    ensures forall k :: 0 <= k < |[c] + rest| ==> IsChunk(([c] + rest)[k])
  {
    forall k | 0 <= k < |[c] + rest| ensures IsChunk(([c] + rest)[k]) {
      if k > 0 {
        assert ([c] + rest)[k] == rest[k - 1];
      }
    }
  }

  /** A first chunk followed by chunks that flatten to the remaining text flattens to the whole text. */
  lemma ConcatCons(text: string, n: nat, rest: seq<string>)
    requires n <= |text| && Concat(rest) == text[n..]
    ensures Concat([text[..n]] + rest) == text
  {
    assert ([text[..n]] + rest)[1..] == rest;
    assert text[..n] + text[n..] == text;
  }

  /** A text of short newline-terminated lines is read one line per fgets call. */
  lemma {:induction false} ShortLinesAreChunks(lines: seq<string>)
    requires forall k :: 0 <= k < |lines| ==> 0 < |lines[k]| <= LineMax
    requires forall k :: 0 <= k < |lines| ==> lines[k][|lines[k]| - 1] == '\n' && '\n' !in lines[k][..|lines[k]| - 1]
    ensures FgetsChunks(Concat(lines)) == lines
    decreases |lines|
  {
    if |lines| > 0 {
      var l := lines[0];
      var text := Concat(lines);
      assert text == l + Concat(lines[1..]);
      assert text[..|l|] == l;
      assert IndexOf(text, '\n') == Some(|l| - 1) by {
        assert text[..|l| - 1] == l[..|l| - 1];
      }
      assert text[|l|..] == Concat(lines[1..]);
      ShortLinesAreChunks(lines[1..]);
    }
  }

  /** Index lines starting with '#' or whitespace are comments. */
  function IsCommentLine(line: string): (r: bool)
    requires |line| > 0
    ensures r <==> line[0] in {'#', ' ', '\t', '\n', '\r', 11 as char, 12 as char}
  {
    line[0] == '#' || IsSpace(line[0])
  }

  /**
   The .directory file an index line names: its last character, normally the
   newline, is replaced by ".directory".
   */
  function DirectoryFileName(line: string): (r: string)
    requires |line| > 0
    ensures |r| == |line| - 1 + |DirectorySuffix|
    ensures r[..|line| - 1] == line[..|line| - 1] && HasSuffix(r, DirectorySuffix)
  {
    var r := line[..|line| - 1] + DirectorySuffix;
    assert r[|r| - |DirectorySuffix|..] == DirectorySuffix;
    r
  }

  /** A final line without a newline loses its last real character. */
  lemma LastLineLosesCharacter(name: string, c: char)
    ensures DirectoryFileName(name + [c]) == name + DirectorySuffix
    ensures DirectoryFileName(name + "\n") == name + DirectorySuffix
  {
    assert (name + [c])[..|name|] == name;
    assert (name + "\n")[..|name|] == name;
  }

  /** The category one index line yields, if any: the file must be readable and have a Match list and a Name. */
  function LineCategory(line: string, dirs: string -> DirectoryFile): (r: Option<Category>)
    requires |line| > 0
    ensures r.Some? <==> !IsCommentLine(line) && dirs(DirectoryFileName(line)).DirectoryFile?
                         && dirs(DirectoryFileName(line)).matchList.Some? && dirs(DirectoryFileName(line)).name.Some?
    ensures r.Some? ==> r.value.name == dirs(DirectoryFileName(line)).name.value
                        && r.value.matches == dirs(DirectoryFileName(line)).matchList.value
  {
    if IsCommentLine(line) then None
    else match dirs(DirectoryFileName(line))
      case UnreadableDirectory => None
      case DirectoryFile(m, n) =>
        if m.None? || n.None? then None else Some(Category(n.value, m.value))
  }

  /** Appends a category; it becomes the fallback if there is none yet and it carries meta-fallback. */
  function AddCategory(rules: Rules, c: Category): (r: Rules)
    ensures r.categories == rules.categories + [c]
    ensures rules.fallback.Some? ==> r.fallback == rules.fallback
    ensures rules.fallback.None? ==> (r.fallback.Some? <==> MetaFallback in c.matches)
    ensures r.fallback.Some? && rules.fallback.None? ==> r.fallback.value == |rules.categories|
  {
    Rules(rules.categories + [c],
          if rules.fallback.None? && MetaFallback in c.matches then Some(|rules.categories|) else rules.fallback)
  }

  /** The categories of the given index buffers, read in order. */
  function LoadChunks(chunks: seq<string>, dirs: string -> DirectoryFile): (r: Rules)
    requires forall k :: 0 <= k < |chunks| ==> |chunks[k]| > 0
    ensures |r.categories| <= |chunks|
    ensures r.fallback.Some? ==> r.fallback.value < |r.categories|
                                 && MetaFallback in r.categories[r.fallback.value].matches
    decreases |chunks|
  {
    if |chunks| == 0 then Rules([], None)
    else
      var rules := LoadChunks(chunks[..|chunks| - 1], dirs);
      match LineCategory(chunks[|chunks| - 1], dirs)
      case None => rules
      case Some(c) => AddCategory(rules, c)
  }

  /**
   load_vfolder_dir: the categories named by the index text, or none when the
   index cannot be opened. A NUL byte in the index is outside the model.
   */
  function LoadVfolderDir(index: Option<string>, dirs: string -> DirectoryFile): (r: Rules)
    requires index.Some? ==> '\0' !in index.value
    ensures index.None? ==> r == Rules([], None)
  {
    match index
    case None => Rules([], None)
    case Some(text) => LoadChunks(FgetsChunks(text), dirs)
  }

  // ---------------------------------------------------------------------------
  // The fallback category

  /** The category lists the token among its matches. */
  predicate Lists(c: Category, token: string) {
    token in c.matches
  }

  /** The position of the first category whose Match list holds `token`. */
  function FirstWith(categories: seq<Category>, token: string): (r: Option<nat>)
    ensures r.None? <==> forall i :: 0 <= i < |categories| ==> !Lists(categories[i], token)
    ensures r.Some? ==> r.value < |categories| && Lists(categories[r.value], token)
    ensures r.Some? ==> forall i :: 0 <= i < r.value ==> !Lists(categories[i], token)
  {
    if |categories| == 0 then None
    else if Lists(categories[0], token) then Some(0)
    else match FirstWith(categories[1..], token)
      case None => None
      case Some(i) => Some(i + 1)
  }

  lemma FirstWithSnoc(categories: seq<Category>, c: Category, token: string)
    ensures FirstWith(categories + [c], token)
         == if FirstWith(categories, token).Some? then FirstWith(categories, token)
            else if Lists(c, token) then Some(|categories|) else None
  {
    if FirstWith(categories, token).Some? {
      FirstWithSnocKeeps(categories, c, token);
    } else if Lists(c, token) {
      FirstWithSnocNew(categories, c, token);
    } else {
      FirstWithSnocNone(categories, c, token);
    }
  }

  /** An earlier holder of the token stays the first one. */
  lemma FirstWithSnocKeeps(categories: seq<Category>, c: Category, token: string)
    requires FirstWith(categories, token).Some?
    ensures FirstWith(categories + [c], token) == FirstWith(categories, token)
  {
    var all := categories + [c];
    var j := FirstWith(categories, token).value;
    assert all[j] == categories[j];
    forall i | 0 <= i < j ensures !Lists(all[i], token) {
      assert all[i] == categories[i];
    }
    FirstWithIs(all, token, j);
  }

  /** The first holder is the one with no holder before it. */
  lemma FirstWithIs(categories: seq<Category>, token: string, j: nat)
    requires j < |categories| && Lists(categories[j], token)
    requires forall i :: 0 <= i < j ==> !Lists(categories[i], token)
    ensures FirstWith(categories, token) == Some(j)
  {
    var f := FirstWith(categories, token);
    assert f.Some?;
    assert f.value <= j;
  }

  /** Without an earlier holder, an appended holder is the first one. */
  lemma FirstWithSnocNew(categories: seq<Category>, c: Category, token: string)
    requires FirstWith(categories, token).None? && Lists(c, token)
    ensures FirstWith(categories + [c], token) == Some(|categories|)
  {
    var all := categories + [c];
    assert all[|categories|] == c;
    assert forall i :: 0 <= i < |categories| ==> all[i] == categories[i];
  }

  /** Without any holder there is still none. */
  lemma FirstWithSnocNone(categories: seq<Category>, c: Category, token: string)
    requires FirstWith(categories, token).None? && !Lists(c, token)
    ensures FirstWith(categories + [c], token).None?
  {
    var all := categories + [c];
    forall i | 0 <= i < |all| ensures !Lists(all[i], token) {
      if i < |categories| {
        assert all[i] == categories[i];
      }
    }
  }

  /**
   The fallback is the first loaded category carrying meta-fallback; a later
   one never replaces it.
   */
  lemma {:induction false} FallbackIsFirst(chunks: seq<string>, dirs: string -> DirectoryFile)
    requires forall k :: 0 <= k < |chunks| ==> |chunks[k]| > 0
    ensures var r := LoadChunks(chunks, dirs); r.fallback == FirstWith(r.categories, MetaFallback)
    decreases |chunks|
  {
    if |chunks| > 0 {
      var prev := chunks[..|chunks| - 1];
      FallbackIsFirst(prev, dirs);
      var rules := LoadChunks(prev, dirs);
      match LineCategory(chunks[|chunks| - 1], dirs)
      case None =>
      case Some(c) => FirstWithSnoc(rules.categories, c, MetaFallback);
    }
  }

  /** The loaded rules always name a fallback that exists and carries meta-fallback. */
  lemma LoadedRulesWellFormed(index: Option<string>, dirs: string -> DirectoryFile)
    requires index.Some? ==> '\0' !in index.value
    ensures var r := LoadVfolderDir(index, dirs);
            r.fallback.Some? ==> r.fallback.value < |r.categories|
                                 && MetaFallback in r.categories[r.fallback.value].matches
  {
    if index.Some? {
      FallbackIsFirst(FgetsChunks(index.value), dirs);
    }
  }

  /** The categories of the accepted lines, in line order. */
  function Accepted(chunks: seq<string>, dirs: string -> DirectoryFile): seq<Category>
    requires forall k :: 0 <= k < |chunks| ==> |chunks[k]| > 0
    decreases |chunks|
  {
    if |chunks| == 0 then []
    else match LineCategory(chunks[0], dirs)
      case None => Accepted(chunks[1..], dirs)
      case Some(c) => [c] + Accepted(chunks[1..], dirs)
  }

  lemma {:induction false} AcceptedAppend(a: seq<string>, b: seq<string>, dirs: string -> DirectoryFile)
    requires forall k :: 0 <= k < |a| ==> |a[k]| > 0
    requires forall k :: 0 <= k < |b| ==> |b[k]| > 0
    ensures Accepted(a + b, dirs) == Accepted(a, dirs) + Accepted(b, dirs)
    decreases |a|
  {
    if |a| == 0 {
      assert a + b == b;
    } else {
      assert (a + b)[1..] == a[1..] + b;
      AcceptedAppend(a[1..], b, dirs);
    }
  }

  /**
   The loaded categories are exactly those of the accepted lines, appended in
   index order: skipped lines (comments, unreadable files, files without Match
   or Name) leave no trace.
   */
  lemma {:induction false} LoadedAreAccepted(chunks: seq<string>, dirs: string -> DirectoryFile)
    requires forall k :: 0 <= k < |chunks| ==> |chunks[k]| > 0
    ensures LoadChunks(chunks, dirs).categories == Accepted(chunks, dirs)
    decreases |chunks|
  {
    if |chunks| > 0 {
      var prev := chunks[..|chunks| - 1];
      var last := chunks[|chunks| - 1];
      LoadedAreAccepted(prev, dirs);
      assert chunks == prev + [last];
      AcceptedAppend(prev, [last], dirs);
      assert [last][1..] == [];
    }
  }

  /** A comment line can be removed from the index without changing the result. */
  lemma CommentLinesIgnored(a: seq<string>, line: string, b: seq<string>, dirs: string -> DirectoryFile)
    requires forall k :: 0 <= k < |a| ==> |a[k]| > 0
    requires forall k :: 0 <= k < |b| ==> |b[k]| > 0
    requires |line| > 0 && IsCommentLine(line)
    ensures LoadChunks(a + [line] + b, dirs).categories == LoadChunks(a + b, dirs).categories
    ensures LoadChunks(a + [line] + b, dirs).fallback == LoadChunks(a + b, dirs).fallback
  {
    AcceptedSkipsComment(a, line, b, dirs);
    LoadedAreAccepted(a + [line] + b, dirs);
    LoadedAreAccepted(a + b, dirs);
    FallbackIsFirst(a + [line] + b, dirs);
    FallbackIsFirst(a + b, dirs);
  }

  /** A comment line contributes no category. */
  lemma AcceptedSkipsComment(a: seq<string>, line: string, b: seq<string>, dirs: string -> DirectoryFile)
    requires forall k :: 0 <= k < |a| ==> |a[k]| > 0
    requires forall k :: 0 <= k < |b| ==> |b[k]| > 0
    requires |line| > 0 && IsCommentLine(line)
    ensures Accepted(a + [line] + b, dirs) == Accepted(a + b, dirs)
  {
    AcceptedAppend(a + [line], b, dirs);
    AcceptedAppend(a, [line], dirs);
    AcceptedAppend(a, b, dirs);
    assert [line][1..] == [];
  }

  // ---------------------------------------------------------------------------
  // Classifying an item

  /** How one category treats an item. */
  datatype MatchOutcome =
    | NoMatch   // the category does not take the item
    | AllMatch  // a meta-all token takes it; this does not count as placed
    | TagMatch  // one of the item's tags takes it; the item counts as placed

  /** A token that decides match_category: meta-all or one of the item's tags. */
  predicate Decisive(token: string, tags: seq<string>) {
    token == MetaAll || token in tags
  }

  /** Position i holds the first decisive token of the list. */
  ghost predicate FirstDecisiveAt(matches: seq<string>, tags: seq<string>, i: int) {
    0 <= i < |matches| && Decisive(matches[i], tags)
    && forall j :: 0 <= j < i ==> !Decisive(matches[j], tags)
  }

  /**
   match_category: the first decisive token decides; meta-all is tested before
   the tags at every position, and tags compare exactly (case-sensitively).
   */
  function MatchCategory(matches: seq<string>, tags: seq<string>): (r: MatchOutcome)
    ensures r.NoMatch? <==> forall i :: 0 <= i < |matches| ==> !Decisive(matches[i], tags)
    ensures !r.NoMatch? ==> exists i :: FirstDecisiveAt(matches, tags, i) && (r.AllMatch? <==> matches[i] == MetaAll)
  {
    if |matches| == 0 then NoMatch
    else if matches[0] == MetaAll then
      assert FirstDecisiveAt(matches, tags, 0);
      AllMatch
    else if matches[0] in tags then
      assert FirstDecisiveAt(matches, tags, 0);
      TagMatch
    else
      var r := MatchCategory(matches[1..], tags);
      assert !r.NoMatch? ==> exists i :: FirstDecisiveAt(matches, tags, i) && (r.AllMatch? <==> matches[i] == MetaAll) by {
        if !r.NoMatch? {
          var i :| FirstDecisiveAt(matches[1..], tags, i) && (r.AllMatch? <==> matches[1..][i] == MetaAll);
          assert FirstDecisiveAt(matches, tags, i + 1);
        }
      }
      r
  }

  /** The category takes the item: match_category adds it to the category's tiles. */
  predicate Takes(c: Category, tags: seq<string>) {
    !MatchCategory(c.matches, tags).NoMatch?
  }

  /** The positions below n whose flag is set, in increasing order. */
  function Selected(flags: seq<bool>, n: nat): (r: seq<nat>)
    requires n <= |flags|
    ensures forall k :: 0 <= k < |r| ==> r[k] < n && flags[r[k]]
    ensures forall i :: 0 <= i < n && flags[i] ==> i in r
    ensures forall k, l :: 0 <= k < l < |r| ==> r[k] < r[l]
  {
    if n == 0 then []
    else
      var r := Selected(flags, n - 1);
      if !flags[n - 1] then r
      else
        SnocIndex(r, n - 1);
        r + [n - 1]
  }

  /** Appending an index above all others keeps the earlier ones and adds just it. */
  lemma SnocIndex(r: seq<nat>, x: nat)
    ensures |r + [x]| == |r| + 1 && (r + [x])[|r|] == x
    ensures forall k :: 0 <= k < |r| ==> (r + [x])[k] == r[k]
    ensures forall i :: i in r + [x] <==> i in r || i == x
  {
  }

  /** For each category, whether it takes the item. */
  function TakesFlags(categories: seq<Category>, tags: seq<string>): (f: seq<bool>)
    ensures |f| == |categories|
    ensures forall i :: 0 <= i < |categories| ==> (f[i] <==> Takes(categories[i], tags))
  {
    seq(|categories|, i requires 0 <= i < |categories| => Takes(categories[i], tags))
  }

  /** The positions, below n, of the categories that take the item, in load order. */
  function Taken(categories: seq<Category>, tags: seq<string>, n: nat): (r: seq<nat>)
    requires n <= |categories|
    ensures forall k :: 0 <= k < |r| ==> r[k] < n && Takes(categories[r[k]], tags)
    ensures forall i :: 0 <= i < n && Takes(categories[i], tags) ==> i in r
    ensures forall k, l :: 0 <= k < l < |r| ==> r[k] < r[l]
  {
    Selected(TakesFlags(categories, tags), n)
  }

  /** Whether some category below n took the item by one of its tags (`placed`). */
  function Placed(categories: seq<Category>, tags: seq<string>, n: nat): (r: bool)
    requires n <= |categories|
    ensures r <==> exists i :: 0 <= i < n && MatchCategory(categories[i].matches, tags).TagMatch?
  {
    if n == 0 then false
    else Placed(categories, tags, n - 1) || MatchCategory(categories[n - 1].matches, tags).TagMatch?
  }

  /** An item with these tags counts as placed by no category: the fallback applies. */
  predicate Unplaced(rules: Rules, tags: seq<string>) {
    forall i :: 0 <= i < |rules.categories| ==> !MatchCategory(rules.categories[i].matches, tags).TagMatch?
  }

  /**
   set_groups: the categories (by position) an item with the given tags lands
   in. Every category that takes the item appears once, in load order; after
   them comes the fallback, exactly when no category took the item by a tag
   and there is a fallback. A fallback category that also carries meta-all
   therefore appears twice for an untagged item.
   */
  function SetGroups(rules: Rules, tags: seq<string>): (r: seq<nat>)
    ensures var n := |rules.categories|;
            var fb := Unplaced(rules, tags) && rules.fallback.Some?;
            var m := |r| - (if fb then 1 else 0);
            && 0 <= m
            && (forall k :: 0 <= k < m ==> r[k] < n && Takes(rules.categories[r[k]], tags))
            && (forall i :: 0 <= i < n && Takes(rules.categories[i], tags) ==> i in r[..m])
            && (forall k, l :: 0 <= k < l < m ==> r[k] < r[l])
            && (fb ==> r[m] == rules.fallback.value)
  {
    var n := |rules.categories|;
    var t := Taken(rules.categories, tags, n);
    if !Placed(rules.categories, tags, n) && rules.fallback.Some? then
      var r := t + [rules.fallback.value];
      assert r[..|t|] == t;
      r
    else
      assert t[..|t|] == t;
      t
  }

  /** Every item lands in at least one category when the rules have a fallback. */
  lemma FallbackCatchesAll(rules: Rules, tags: seq<string>)
    requires rules.fallback.Some?
    ensures |SetGroups(rules, tags)| > 0
  {
    var n := |rules.categories|;
    if !Unplaced(rules, tags) {
      var i :| 0 <= i < n && MatchCategory(rules.categories[i].matches, tags).TagMatch?;
      var r := SetGroups(rules, tags);
      assert i in r[..|r|];
    }
  }

  /** A list opening with meta-all takes every item without placing it. */
  lemma MetaAllFirst(matches: seq<string>, tags: seq<string>)
    requires |matches| > 0 && matches[0] == MetaAll
    ensures MatchCategory(matches, tags) == AllMatch
  {
  }

  /** With the first flag set, the first position is selected. */
  lemma SelectedFirst(flags: seq<bool>)
    requires |flags| > 0 && flags[0]
    ensures Selected(flags, 1) == [0]
  {
    assert Selected(flags, 0) == [];
  }

  /** An item no tag places is added to the fallback after the categories that take it. */
  lemma SetGroupsUnplaced(rules: Rules, tags: seq<string>)
    requires rules.fallback.Some? && !Placed(rules.categories, tags, |rules.categories|)
    ensures SetGroups(rules, tags) == Taken(rules.categories, tags, |rules.categories|) + [rules.fallback.value]
  {
  }

  /**
   A fallback category whose matches open with meta-all: any item lands in it
   twice, once through meta-all (tested before any tag) and once as the
   fallback, since meta-all does not count as placing the item.
   */
  lemma FallbackTwice(c: Category, tags: seq<string>)
    requires |c.matches| > 0 && c.matches[0] == MetaAll && MetaFallback in c.matches
    ensures SetGroups(Rules([c], Some(0)), tags) == [0, 0]
  {
    MetaAllFirst(c.matches, tags);
    SelectedFirst(TakesFlags([c], tags));
    assert !Placed([c], tags, 1);
    SetGroupsUnplaced(Rules([c], Some(0)), tags);
  }
}

=== FILE: category_bar.dfy ===
/**
 The category switcher of src/taku-category-bar.c: a list of categories, the
 current one (a node of that list, here its position), the switcher label and
 the sensitivity of the buttons. Widget construction and the popup menu's
 layout are left to GTK; the choices the popup offers are modelled.
 */
module CategoryBar {
  import opened Common
  import Categories

  /** The label shown when the bar is given no categories. */
  const NoCategoriesLabel := "No categories available"

  /**
   The bar's state. `refilters` counts the invalidations of the table filter,
   which re-runs the tile filter against the new current category.
   */
  datatype Bar = Bar(categories: seq<Categories.Category>, current: Option<nat>,
                     text: string, sensitive: bool, refilters: nat)

  /** The bar as constructed: no categories, nothing current, an empty label, buttons enabled. */
  const NewBar := Bar([], None, "", true, 0)

  /** The current node lies in the list and the label names it. */
  predicate Valid(b: Bar) {
    b.current.Some? ==> b.current.value < |b.categories| && b.text == b.categories[b.current.value].name
  }

  /** set_category: NULL changes nothing; a node becomes current, its name the label, and the filter re-runs. */
  function SetCategory(b: Bar, node: Option<nat>): (r: Bar)
    requires node.Some? ==> node.value < |b.categories|
    ensures node.None? ==> r == b
    ensures node.Some? ==> Valid(r) && r.current == node && r.categories == b.categories
                           && r.sensitive == b.sensitive && r.refilters == b.refilters + 1
  {
    match node
    case None => b
    case Some(i) => b.(text := b.categories[i].name, current := Some(i), refilters := b.refilters + 1)
  }

  /** next_category: no-op without a current category; otherwise the next one, wrapping to the first. */
  function Next(b: Bar): (r: Bar)
    requires Valid(b)
    ensures Valid(r) && r.categories == b.categories
    ensures b.current.None? ==> r == b
    ensures b.current.Some? ==> r.current.Some?
    ensures b.current.Some? ==> r.current.value == if b.current.value + 1 < |b.categories| then b.current.value + 1 else 0
  {
    match b.current
    case None => b
    case Some(i) => SetCategory(b, Some(if i + 1 == |b.categories| then 0 else i + 1))
  }

  /** prev_category: no-op without a current category; otherwise the previous one, wrapping to the last. */
  function Prev(b: Bar): (r: Bar)
    requires Valid(b)
    ensures Valid(r) && r.categories == b.categories
    ensures b.current.None? ==> r == b
    ensures b.current.Some? ==> r.current.Some?
    ensures b.current.Some? ==> b.current.value == if r.current.value + 1 < |b.categories| then r.current.value + 1 else 0
  {
    match b.current
    case None => b
    case Some(i) => SetCategory(b, Some(if i == 0 then |b.categories| - 1 else i - 1))
  }

  /** menu_activated: a category picked from the popup, which lists every node, becomes current. */
  function MenuActivated(b: Bar, node: nat): (r: Bar)
    requires node < |b.categories|
    ensures Valid(r) && r.current == Some(node) && r.text == b.categories[node].name
  {
    SetCategory(b, Some(node))
  }

  /**
   taku_category_bar_set_categories: a non-empty list makes its first category
   current; an empty one shows a notice, disables the buttons and leaves
   `current` as it was.
   */
  function SetCategories(b: Bar, categories: seq<Categories.Category>): (r: Bar)
    ensures r.categories == categories
    ensures |categories| > 0 ==> Valid(r) && r.current == Some(0) && r.text == categories[0].name
    ensures |categories| == 0 ==> r.current == b.current && r.text == NoCategoriesLabel && !r.sensitive
  {
    var b1 := b.(categories := categories);
    if |categories| > 0 then SetCategory(b1, Some(0))
    else b1.(text := NoCategoriesLabel, sensitive := false)
  }

  /** taku_category_bar_get_current: the current category; the C code dereferences it unconditionally. */
  function GetCurrent(b: Bar): (r: Categories.Category)
    requires Valid(b) && b.current.Some?
    ensures r in b.categories && r.name == b.text
  {
    b.categories[b.current.value]
  }

  /** Going forward and then back returns to the same category, and so does the reverse. */
  lemma NextPrevInverse(b: Bar)
    requires Valid(b)
    ensures Prev(Next(b)).current == b.current
    ensures Next(Prev(b)).current == b.current
    ensures Prev(Next(b)).text == b.text && Next(Prev(b)).text == b.text
  {
  }

  /** k presses of the next button. */
  function NextN(b: Bar, k: nat): (r: Bar)
    requires Valid(b)
    ensures Valid(r) && r.categories == b.categories
  {
    if k == 0 then b else Next(NextN(b, k - 1))
  }

  /** k presses of next, for k up to the number of categories, move k places around the list. */
  lemma {:induction false} NextNAdvances(b: Bar, k: nat)
    requires Valid(b) && b.current.Some? && k <= |b.categories|
    ensures var i, n := b.current.value, |b.categories|;
            NextN(b, k).current == Some(if i + k < n then i + k else i + k - n)
  {
    if k > 0 {
      NextNAdvances(b, k - 1);
    }
  }

  /** Pressing next once per category comes back to where it started. */
  lemma NextCycles(b: Bar)
    requires Valid(b) && b.current.Some?
    ensures NextN(b, |b.categories|).current == b.current
  {
    NextNAdvances(b, |b.categories|);
  }

  /** Without a current category the arrows do nothing. */
  lemma {:induction false} ArrowsIdleWithoutCurrent(b: Bar, k: nat)
    requires Valid(b) && b.current.None?
    ensures NextN(b, k) == b && Prev(b) == b
  {
    if k > 0 {
      ArrowsIdleWithoutCurrent(b, k - 1);
    }
  }
}

=== FILE: common.dfy ===
/**
 Shared vocabulary: optional values, C-string helpers (isspace, suffix and
 substring tests, g_strstrip) and GLib's g_strsplit on a one-character
 delimiter, each with a contract that relates the result to its input.
 A `string` here is a C byte string: each element is one byte, and
 non-ASCII text appears as its UTF-8 bytes.
 */
module Common {

  /** A value that may be absent; stands in for a nullable C pointer. */
  datatype Option<+T> = None | Some(value: T)

  /** A value or the reason it could not be produced. */
  datatype Result<+T, +E> = Success(value: T) | Failure(error: E)

  function Min(a: int, b: int): int { if a <= b then a else b }

  function Max(a: int, b: int): int { if a >= b then a else b }

  /** isspace() in the "C" locale: space, \t, \n, \v, \f and \r. */
  predicate IsSpace(c: char) {
    c == ' ' || c == '\t' || c == '\n' || c == '\r' || c as int == 11 || c as int == 12
  }

  /**
   g_ascii_isspace: space, \t, \n, \f and \r. Unlike isspace() it does not
   count the vertical tab (11).
   */
  predicate IsAsciiSpace(c: char) {
    c == ' ' || c == '\t' || c == '\n' || c == '\r' || c as int == 12
  }

  /** g_str_has_suffix. */
  predicate HasSuffix(s: string, suffix: string) {
    |suffix| <= |s| && s[|s| - |suffix|..] == suffix
  }

  /** `needle` occurs in `hay` starting at position `i`. */
  ghost predicate OccursAt(hay: string, needle: string, i: int) {
    0 <= i && i + |needle| <= |hay| && hay[i..i + |needle|] == needle
  }

  /** strstr(hay, needle) != NULL: a scan that tries every start position in turn. */
  function Contains(hay: string, needle: string): (r: bool)
    ensures r <==> exists i :: OccursAt(hay, needle, i)
    decreases |hay|
  {
    if needle <= hay then
      assert OccursAt(hay, needle, 0);
      true
    else if |hay| == 0 then
      false
    else
      var r := Contains(hay[1..], needle);
      if r then
        assert exists i :: OccursAt(hay, needle, i) by {
          var i :| OccursAt(hay[1..], needle, i);
          assert hay[i + 1..i + 1 + |needle|] == hay[1..][i..i + |needle|];
          assert OccursAt(hay, needle, i + 1);
        }
        true
      else
        assert forall i | 0 < i && OccursAt(hay, needle, i) :: OccursAt(hay[1..], needle, i - 1) by {
          forall i | 0 < i && OccursAt(hay, needle, i)
            ensures OccursAt(hay[1..], needle, i - 1)
          {
            assert hay[1..][i - 1..i - 1 + |needle|] == hay[i..i + |needle|];
          }
        }
        false
  }

  /** Position of the first occurrence of `c` in `s` (strchr). */
  function IndexOf(s: string, c: char): (r: Option<nat>)
    ensures r.None? <==> c !in s
    ensures r.Some? ==> r.value < |s| && s[r.value] == c && c !in s[..r.value]
  {
    if |s| == 0 then None
    else if s[0] == c then Some(0)
    else match IndexOf(s[1..], c)
      case None => None
      case Some(i) =>
        assert s[..i + 1] == [s[0]] + s[1..][..i];
        Some(i + 1)
  }

  /** Position of the last occurrence of `c` in `s` (strrchr). */
  function LastIndexOf(s: string, c: char): (r: Option<nat>)
    ensures r.None? <==> c !in s
    ensures r.Some? ==> r.value < |s| && s[r.value] == c && c !in s[r.value + 1..]
  {
    if |s| == 0 then None
    else if s[|s| - 1] == c then Some(|s| - 1)
    else match LastIndexOf(s[..|s| - 1], c)
      case None =>
        SplitLast(s);
        None
      case Some(i) =>
        forall k | i + 1 <= k < |s| ensures s[k] != c {
          if k < |s| - 1 {
            assert s[..|s| - 1][i + 1..][k - i - 1] == s[k];
          }
        }
        Some(i)
  }

  /** g_strchug: drops leading g_ascii_isspace characters. */
  function TrimStart(s: string): (r: string)
    ensures |r| <= |s| && r == s[|s| - |r|..]
    ensures forall i :: 0 <= i < |s| - |r| ==> IsAsciiSpace(s[i])
    ensures |r| > 0 ==> !IsAsciiSpace(r[0])
  {
    if |s| > 0 && IsAsciiSpace(s[0]) then TrimStart(s[1..]) else s
  }

  /** g_strchomp: drops trailing g_ascii_isspace characters. */
  function TrimEnd(s: string): (r: string)
    ensures |r| <= |s| && r == s[..|r|]
    ensures forall i :: |r| <= i < |s| ==> IsAsciiSpace(s[i])
    ensures |r| > 0 ==> !IsAsciiSpace(r[|r| - 1])
  {
    if |s| > 0 && IsAsciiSpace(s[|s| - 1]) then TrimEnd(s[..|s| - 1]) else s
  }

  /** `r` is `s` with the whitespace before position `a` and after `r` removed. */
  ghost predicate StrippedAt(s: string, r: string, a: int) {
    && 0 <= a && a + |r| <= |s| && r == s[a..a + |r|]
    && (forall i :: 0 <= i < a ==> IsAsciiSpace(s[i]))
    && (forall i :: a + |r| <= i < |s| ==> IsAsciiSpace(s[i]))
  }

  /** g_strstrip: removes leading and trailing whitespace. */
  function Strip(s: string): (r: string)
    ensures |r| <= |s|
    ensures exists a :: StrippedAt(s, r, a)
    ensures |r| > 0 ==> !IsAsciiSpace(r[0]) && !IsAsciiSpace(r[|r| - 1])
    ensures |r| == 0 <==> forall i :: 0 <= i < |s| ==> IsAsciiSpace(s[i])
  {
    var t := TrimStart(s);
    var r := TrimEnd(t);
    StripParts(s, t, r);
    r
  }

  /** Trimming the front and then the back strips the whitespace on both sides, and nothing else. */
  lemma StripParts(s: string, t: string, r: string)
    requires |t| <= |s| && t == s[|s| - |t|..] && forall i :: 0 <= i < |s| - |t| ==> IsAsciiSpace(s[i])
    requires |t| > 0 ==> !IsAsciiSpace(t[0])
    requires |r| <= |t| && r == t[..|r|] && forall i :: |r| <= i < |t| ==> IsAsciiSpace(t[i])
    ensures StrippedAt(s, r, |s| - |t|)
    ensures |r| == 0 ==> |t| == 0
  {
    var a := |s| - |t|;
    forall i | a + |r| <= i < |s| ensures IsAsciiSpace(s[i]) {
      assert s[i] == t[i - a];
    }
  }

  /** Joins pieces with a one-character separator (g_strjoinv). */
  function Join(pieces: seq<string>, sep: char): string
    decreases |pieces|
  {
    if |pieces| == 0 then ""
    else if |pieces| == 1 then pieces[0]
    else pieces[0] + [sep] + Join(pieces[1..], sep)
  }

  /** Splitting a non-empty string at every `sep`: the pieces are kept, empty ones included. */
  function SplitAll(s: string, sep: char): (r: seq<string>)
    ensures |r| >= 1
    ensures forall i :: 0 <= i < |r| ==> sep !in r[i]
    ensures Join(r, sep) == s
    decreases |s|
  {
    match IndexOf(s, sep)
    case None => [s]
    case Some(i) =>
      var rest := SplitAll(s[i + 1..], sep);
      assert s == s[..i] + [sep] + s[i + 1..];
      [s[..i]] + rest
  }

  /** g_strsplit(s, sep, -1): the empty string splits into no pieces at all. */
  function Split(s: string, sep: char): (r: seq<string>)
    ensures |s| == 0 <==> |r| == 0
    ensures forall i :: 0 <= i < |r| ==> sep !in r[i]
    ensures Join(r, sep) == s
  {
    if |s| == 0 then [] else SplitAll(s, sep)
  }

  /** In a join of separator-free pieces, the first piece runs up to the first separator. */
  lemma JoinFirstPiece(a: seq<string>, sep: char)
    requires |a| > 1 && forall i :: 0 <= i < |a| ==> sep !in a[i]
    ensures var s := Join(a, sep);
            |a[0]| < |s| && s[|a[0]|] == sep && s[..|a[0]|] == a[0] && s[|a[0]| + 1..] == Join(a[1..], sep)
    ensures forall k :: 0 <= k < |a[0]| ==> Join(a, sep)[k] != sep
  {
    var s := Join(a, sep);
    assert s == a[0] + [sep] + Join(a[1..], sep);
    assert forall k :: 0 <= k < |a[0]| ==> s[k] == a[0][k];
  }

  /** A join of separator-free pieces holds a separator exactly when there are two pieces or more. */
  lemma JoinHasSeparator(a: seq<string>, sep: char)
    requires |a| >= 1 && forall i :: 0 <= i < |a| ==> sep !in a[i]
    ensures sep in Join(a, sep) <==> |a| > 1
  {
    if |a| > 1 {
      JoinFirstPiece(a, sep);
    }
  }

  /** Separator-free pieces are determined by their join: g_strjoinv is injective on them. */
  lemma {:induction false} JoinInjective(a: seq<string>, b: seq<string>, sep: char)
    requires |a| >= 1 && forall i :: 0 <= i < |a| ==> sep !in a[i]
    requires |b| >= 1 && forall i :: 0 <= i < |b| ==> sep !in b[i]
    requires Join(a, sep) == Join(b, sep)
    ensures a == b
    decreases |a|
  {
    JoinHasSeparator(a, sep);
    JoinHasSeparator(b, sep);
    if |a| > 1 {
      JoinFirstPiece(a, sep);
      JoinFirstPiece(b, sep);
      assert |a[0]| == |b[0]|;
      JoinInjective(a[1..], b[1..], sep);
      assert a == [a[0]] + a[1..] && b == [b[0]] + b[1..];
    }
  }

  /**
   Split is the only way to cut a string into separator-free pieces that join
   back to it, when the empty string has no pieces.
   */
  lemma SplitUnique(s: string, sep: char, pieces: seq<string>)
    requires forall i :: 0 <= i < |pieces| ==> sep !in pieces[i]
    requires Join(pieces, sep) == s && (|pieces| == 0 <==> |s| == 0)
    ensures pieces == Split(s, sep)
  {
    if |s| > 0 {
      JoinInjective(pieces, Split(s, sep), sep);
    }
  }

  /** A non-empty sequence is its prefix followed by its last element. */
  lemma SplitLast<T>(s: seq<T>)
    requires |s| > 0
    ensures s[..|s| - 1] + [s[|s| - 1]] == s
  {
  }

  /** A sequence is what comes before position i, the element there, and what comes after. */
  lemma SplitAt<T>(s: seq<T>, i: int)
    requires 0 <= i < |s|
    ensures s == s[..i] + [s[i]] + s[i + 1..]
  {
  }

  /** Being a prefix is transitive. */
  lemma PrefixTransitive<T>(a: seq<T>, b: seq<T>, c: seq<T>)
    requires a <= b && b <= c
    ensures a <= c
  {
    assert forall i :: 0 <= i < |a| ==> a[i] == b[i] == c[i];
  }

  /** The position of the first occurrence of `x`. */
  function FirstIndex<T(==)>(s: seq<T>, x: T): (i: nat)
    requires x in s
    ensures i < |s| && s[i] == x && x !in s[..i]
  {
    if s[0] == x then 0
    else
      var i := FirstIndex(s[1..], x) + 1;
      assert s[..i] == [s[0]] + s[1..][..i - 1];
      i
  }

  /** The sequence without position i, element by element. */
  function Without<T>(s: seq<T>, i: nat): (r: seq<T>)
    requires i < |s|
    ensures |r| == |s| - 1
    ensures forall k :: 0 <= k < i ==> r[k] == s[k]
    ensures forall k :: i <= k < |r| ==> r[k] == s[k + 1]
  {
    s[..i] + s[i + 1..]
  }

  /** Dropping position i takes exactly one copy of s[i] out of the multiset. */
  lemma WithoutMultiset<T>(s: seq<T>, i: nat)
    requires i < |s|
    ensures multiset(Without(s, i)) == multiset(s) - multiset{s[i]}
  {
    SplitAt(s, i);
  }

  /** g_list_remove: drops the first occurrence of `x`, if any, and keeps the order of the rest. */
  function RemoveFirst<T(==)>(s: seq<T>, x: T): (r: seq<T>)
    ensures x !in s ==> r == s
    ensures x in s ==> |r| == |s| - 1
    ensures x in s ==> var i := FirstIndex(s, x); r[..i] == s[..i] && r[i..] == s[i + 1..]
  {
    if x in s then Without(s, FirstIndex(s, x)) else s
  }

  /** Removing the first occurrence takes exactly one copy of `x` out of the multiset, or nothing when there is none. */
  lemma RemoveFirstMultiset<T>(s: seq<T>, x: T)
    ensures multiset(RemoveFirst(s, x)) == multiset(s) - multiset{x}
  {
    if x in s {
      WithoutMultiset(s, FirstIndex(s, x));
    }
  }

  /** C's integer division, which truncates toward zero (Dafny's `/` is Euclidean). */
  function TruncDiv(a: int, b: int): int
    requires b > 0
  {
    if a >= 0 then a / b else 0 - (0 - a) / b
  }

  /** The C quotient has the sign of the dividend and the magnitude of the rounded-down quotient of the magnitudes. */
  lemma TruncDivBounds(a: int, b: int)
    requires b > 0
    ensures var r := TruncDiv(a, b);
            if a >= 0 then r >= 0 && r * b <= a < r * b + b
            else r <= 0 && (0 - r) * b <= 0 - a < (0 - r) * b + b
  {
  }

  /**
   The sign of strcmp. Elements are the bytes of the C string, compared as
   unsigned values; a proper prefix comes first.
   */
  function Strcmp(a: string, b: string): (r: int)
    ensures -1 <= r <= 1
    decreases |a|
  {
    if |a| == 0 && |b| == 0 then 0
    else if |a| == 0 then -1
    else if |b| == 0 then 1
    else if a[0] < b[0] then -1
    else if a[0] > b[0] then 1
    else Strcmp(a[1..], b[1..])
  }

  /** strcmp is zero exactly on equal strings. */
  lemma {:induction false} StrcmpZero(a: string, b: string)
    ensures Strcmp(a, b) == 0 <==> a == b
    decreases |a|
  {
    if |a| > 0 && |b| > 0 && a[0] == b[0] {
      StrcmpZero(a[1..], b[1..]);
      assert a == [a[0]] + a[1..] && b == [b[0]] + b[1..];
    }
  }

  /** Swapping the arguments of strcmp flips its sign. */
  lemma {:induction false} StrcmpAntisymmetric(a: string, b: string)
    ensures Strcmp(a, b) == 0 - Strcmp(b, a)
    decreases |a|
  {
    if |a| > 0 && |b| > 0 && a[0] == b[0] {
      StrcmpAntisymmetric(a[1..], b[1..]);
    }
  }

  /** strcmp orders strings transitively. */
  lemma {:induction false} StrcmpTransitive(a: string, b: string, c: string)
    requires Strcmp(a, b) < 0 && Strcmp(b, c) < 0
    ensures Strcmp(a, c) < 0
    decreases |a|
  {
    if |a| > 0 && |b| > 0 && |c| > 0 && a[0] == b[0] && b[0] == c[0] {
      StrcmpTransitive(a[1..], b[1..], c[1..]);
    }
  }

  /** g_build_filename for a directory and a plain file name. */
  function BuildFilename(dir: string, name: string): (r: string)
    ensures |r| == |dir| + 1 + |name| && r[|dir|] == '/'
  {
    dir + "/" + name
  }

  /** The file-name suffix of desktop entries. */
  const DesktopSuffix := ".desktop"
}

=== FILE: desktop_entry.dfy ===
/**
 Reading one .desktop file into a menu item (libtaku/taku-menu-desktop.c:
 get_desktop_boolean, get_desktop_string and the checks and fields of
 load_desktop_file). The key-file parser is foreign: a file arrives as the
 locale-resolved strings and the parsable booleans of its [Desktop Entry]
 group, or as None when it cannot be read or parsed.
 */
module DesktopEntry {
  import opened Common
  import ExecArgv
  import Categories

  /** The [Desktop Entry] group of a key file as the parser delivers it. */
  datatype KeyFile = KeyFile(strings: map<string, string>, booleans: map<string, bool>)

  /** A launchable item. `groups` are positions in the loaded category list. */
  datatype MenuItem = MenuItem(
    path: string,
    name: Option<string>,
    comment: Option<string>,
    icon: Option<string>,
    useSn: bool,
    singleInstance: bool,
    argv: Option<seq<string>>,   // None: the Exec line ends in a lone '%', which the C scanner reads past
    cats: seq<string>,
    groups: seq<nat>)

  /** Why a file yields no item. */
  datatype Rejection = Unreadable | Hidden | NoExec

  /** get_desktop_boolean: the parsed value, or the default when the key is absent or unparsable. */
  function GetDesktopBoolean(kf: KeyFile, key: string, def: bool): (r: bool)
    ensures key in kf.booleans ==> r == kf.booleans[key]
    ensures key !in kf.booleans ==> r == def
  {
    if key in kf.booleans then kf.booleans[key] else def
  }

  /** get_desktop_string: the value with surrounding whitespace stripped; absent when missing or blank. */
  function GetDesktopString(kf: KeyFile, key: string): (r: Option<string>)
    ensures r.None? <==> key !in kf.strings || forall i :: 0 <= i < |kf.strings[key]| ==> IsAsciiSpace(kf.strings[key][i])
    ensures r.Some? ==> |r.value| > 0 && !IsAsciiSpace(r.value[0]) && !IsAsciiSpace(r.value[|r.value| - 1])
    ensures r.Some? ==> exists a :: StrippedAt(kf.strings[key], r.value, a)
  {
    if key !in kf.strings then None
    else
      var s := Strip(kf.strings[key]);
      if |s| == 0 then None else Some(s)
  }

  /** An entry is hidden when NoDisplay parses as true; absent or unparsable means shown. */
  predicate IsHidden(kf: KeyFile) {
    GetDesktopBoolean(kf, "NoDisplay", false)
  }

  /**
   The checks and fields of load_desktop_file, after the duplicate test: an
   unreadable file, a hidden entry and an entry without a non-blank Exec are
   rejected, in that order; otherwise every field is read, single_instance is
   the OR of X-MB-SingleInstance and SingleInstance, the Categories string
   (empty when absent) is split at ';', and the item is classified.
   */
  function ParseEntry(path: string, file: Option<KeyFile>, rules: Categories.Rules): (r: Result<MenuItem, Rejection>)
    ensures file.None? <==> r == Failure(Unreadable)
    ensures r == Failure(Hidden) <==> file.Some? && IsHidden(file.value)
    ensures r == Failure(NoExec) <==> file.Some? && !IsHidden(file.value) && GetDesktopString(file.value, "Exec").None?
    ensures r.Success? ==> r.value.path == path
    ensures r.Success? ==> r.value.argv == ExecArgv.ExecToArgv(GetDesktopString(file.value, "Exec").value)
    ensures r.Success? ==> r.value.useSn == GetDesktopBoolean(file.value, "StartupNotify", false)
    ensures r.Success? ==> (r.value.singleInstance <==> GetDesktopBoolean(file.value, "X-MB-SingleInstance", false)
                                                        || GetDesktopBoolean(file.value, "SingleInstance", false))
    ensures r.Success? ==> var c := GetDesktopString(file.value, "Categories");
                           Join(r.value.cats, ';') == (if c.Some? then c.value else "")
                           && (c.None? <==> |r.value.cats| == 0)
    ensures r.Success? ==> forall i :: 0 <= i < |r.value.cats| ==> ';' !in r.value.cats[i]
    ensures r.Success? ==> r.value.name == GetDesktopString(file.value, "Name")
                           && r.value.comment == GetDesktopString(file.value, "Comment")
                           && r.value.icon == GetDesktopString(file.value, "Icon")
    ensures r.Success? ==> r.value.groups == Categories.SetGroups(rules, r.value.cats)
  {
    match file
    case None => Failure(Unreadable)
    case Some(kf) =>
      if IsHidden(kf) then Failure(Hidden)
      else match GetDesktopString(kf, "Exec")
        case None => Failure(NoExec)
        case Some(exec) =>
          var catString := match GetDesktopString(kf, "Categories") case Some(c) => c case None => "";
          var cats := Split(catString, ';');
          Success(MenuItem(
            path,
            GetDesktopString(kf, "Name"),
            GetDesktopString(kf, "Comment"),
            GetDesktopString(kf, "Icon"),
            GetDesktopBoolean(kf, "StartupNotify", false),
            GetDesktopBoolean(kf, "X-MB-SingleInstance", false) || GetDesktopBoolean(kf, "SingleInstance", false),
            ExecArgv.ExecToArgv(exec),
            cats,
            Categories.SetGroups(rules, cats)))
  }

  /**
   The categories of a parsed entry are the Categories string split at every
   ';': the pieces the parser stores are the only ';'-free ones that join back
   to the string.
   */
  lemma CategoriesAreTheSplit(path: string, file: Option<KeyFile>, rules: Categories.Rules)
    requires file.Some? && !IsHidden(file.value) && GetDesktopString(file.value, "Exec").Some?
    ensures ParseEntry(path, file, rules).Success?
    ensures var c := GetDesktopString(file.value, "Categories");
            ParseEntry(path, file, rules).value.cats == Split(if c.Some? then c.value else "", ';')
  {
    var c := GetDesktopString(file.value, "Categories");
    SplitUnique(if c.Some? then c.value else "", ';', ParseEntry(path, file, rules).value.cats);
  }
}

=== FILE: desktop_view.dfy ===
/**
 The desktop window's logic in src/desktop.c: the flow box of launcher tiles
 kept in step with the menu, its sort and filter functions, the keyboard
 focus handler that switches categories, and the column rule. Window and
 widget construction, the work-area tracking and the launch on activation
 are GTK and X plumbing and are not modelled.
 */
module DesktopView {
  import opened Common
  import DesktopEntry
  import Catalog
  import CategoryBar
  import Tiles

  // ---------------------------------------------------------------------------
  // The sort function
  // ---------------------------------------------------------------------------

  /**
   table_sort: tiles compare by sort key, a tile without a key before one
   with a key, two keyless tiles as equal, two keys by strcmp.
   */
  function TableSort(a: Tiles.Tile, b: Tiles.Tile): (r: int)
    ensures -1 <= r <= 1
    ensures Tiles.SortKey(a).None? && Tiles.SortKey(b).Some? ==> r < 0
    ensures Tiles.SortKey(a).Some? && Tiles.SortKey(b).None? ==> r > 0
  {
    var ka, kb := Tiles.SortKey(a), Tiles.SortKey(b);
    if ka.Some? && kb.None? then 1
    else if ka.None? && kb.Some? then -1
    else if ka.None? && kb.None? then 0
    else Strcmp(ka.value, kb.value)
  }

  /**
   The sort function is a total preorder on tiles: two tiles tie exactly when
   their keys are equal (both absent, or the same string), swapping them flips
   the sign, and it is transitive.
   */
  lemma TableSortOrders(a: Tiles.Tile, b: Tiles.Tile, c: Tiles.Tile)
    ensures TableSort(a, b) == 0 <==> Tiles.SortKey(a) == Tiles.SortKey(b)
    ensures TableSort(a, b) == 0 - TableSort(b, a)
    ensures TableSort(a, b) < 0 && TableSort(b, c) < 0 ==> TableSort(a, c) < 0
  {
    var ka, kb, kc := Tiles.SortKey(a), Tiles.SortKey(b), Tiles.SortKey(c);
    if ka.Some? && kb.Some? {
      StrcmpZero(ka.value, kb.value);
      StrcmpAntisymmetric(ka.value, kb.value);
      if kc.Some? && TableSort(a, b) < 0 && TableSort(b, c) < 0 {
        StrcmpTransitive(ka.value, kb.value, kc.value);
      }
    }
  }

  // ---------------------------------------------------------------------------
  // The desktop state
  // ---------------------------------------------------------------------------

  /**
   The category bar, the tiles in the flow box and the selected child. `tiles`
   records the order in which tiles were added; the flow box displays them in
   the order of TableSort, which is set as its sort function.
   */
  datatype View = View(bar: CategoryBar.Bar, tiles: seq<Tiles.Tile>, selected: Option<nat>)

  /** The tiles mirror the menu's items: one launcher tile bound to each item, in the same order. */
  predicate Mirrors(tiles: seq<Tiles.Tile>, items: seq<DesktopEntry.MenuItem>) {
    |tiles| == |items| && forall i :: 0 <= i < |tiles| ==> BoundTo(tiles[i], items[i].path)
  }

  /** on_item_added: a tile built from the new item joins the flow box. */
  function OnItemAdded(v: View, item: DesktopEntry.MenuItem, collate: string -> string): (r: View)
    ensures r.bar == v.bar && r.selected == v.selected
    ensures |r.tiles| == |v.tiles| + 1 && r.tiles[..|v.tiles|] == v.tiles
    ensures BoundTo(r.tiles[|v.tiles|], item.path)
  {
    v.(tiles := v.tiles + [Tiles.NewFromItem(item, collate)])
  }

  /** Whether a tile is a launcher tile bound to the item at `path`. */
  predicate BoundTo(t: Tiles.Tile, path: string) {
    t.cls.LauncherTile? && t.item == Some(path)
  }

  /**
   The first tile bound to `path`, if any: the search of on_item_removed with
   each flow box child unwrapped first (gtk_bin_get_child), as table_filter
   and table_sort do.
   */
  function FindTile(tiles: seq<Tiles.Tile>, path: string): (r: Option<nat>)
    ensures r.None? <==> forall i :: 0 <= i < |tiles| ==> !BoundTo(tiles[i], path)
    ensures r.Some? ==> r.value < |tiles| && BoundTo(tiles[r.value], path)
                        && forall j :: 0 <= j < r.value ==> !BoundTo(tiles[j], path)
    decreases |tiles|
  {
    if |tiles| == 0 then None
    else if BoundTo(tiles[0], path) then Some(0)
    else match FindTile(tiles[1..], path)
      case None => None
      case Some(i) => Some(i + 1)
  }

  /**
   on_item_removed: the first launcher tile bound to the item leaves the flow
   box, and with none nothing changes. On a flow box that mirrors a menu with
   distinct paths listing the item, the result mirrors the menu without it.
   */
  function OnItemRemoved(v: View, item: DesktopEntry.MenuItem): (r: View)
    ensures r.bar == v.bar && r.selected == v.selected
    ensures (forall i :: 0 <= i < |v.tiles| ==> !BoundTo(v.tiles[i], item.path)) ==> r == v
    ensures (exists i :: 0 <= i < |v.tiles| && BoundTo(v.tiles[i], item.path)) ==> |r.tiles| == |v.tiles| - 1
    ensures forall items :: Mirrors(v.tiles, items) && Catalog.DistinctPaths(items) && item in items ==>
                              Mirrors(r.tiles, RemoveFirst(items, item))
  {
    assert forall items | Mirrors(v.tiles, items) && Catalog.DistinctPaths(items) && item in items ::
             FindTile(v.tiles, item.path) == Some(FirstIndex(items, item))
             && Mirrors(Without(v.tiles, FirstIndex(items, item)), RemoveFirst(items, item)) by {
      forall items | Mirrors(v.tiles, items) && Catalog.DistinctPaths(items) && item in items
        ensures FindTile(v.tiles, item.path) == Some(FirstIndex(items, item))
        ensures Mirrors(Without(v.tiles, FirstIndex(items, item)), RemoveFirst(items, item))
      {
        MirrorWithout(v.tiles, items, FirstIndex(items, item));
      }
    }
    match FindTile(v.tiles, item.path)
    case None => v
    case Some(i) => v.(tiles := Without(v.tiles, i))
  }

  /**
   A widget as gtk_container_get_children returns it. GtkFlowBox wraps every
   widget added to it in a GtkFlowBoxChild, so the flow box's children are the
   wrappers, each holding one tile.
   */
  datatype Widget = TileWidget(tile: Tiles.Tile) | FlowBoxChild(child: Tiles.Tile)

  /** The children of the flow box: one wrapper per tile, in order. */
  function Children(tiles: seq<Tiles.Tile>): (r: seq<Widget>)
    ensures |r| == |tiles|
    ensures forall i :: 0 <= i < |r| ==> r[i] == FlowBoxChild(tiles[i])
  {
    seq(|tiles|, i requires 0 <= i < |tiles| => FlowBoxChild(tiles[i]))
  }

  /** TAKU_IS_LAUNCHER_TILE on the widget itself, then the item test of the loop. */
  predicate IsTileOf(w: Widget, path: string) {
    w.TileWidget? && BoundTo(w.tile, path)
  }

  /** The loop of on_item_removed as written: the first child that is a launcher tile bound to the item. */
  function FindChild(ws: seq<Widget>, path: string): (r: Option<Widget>)
    ensures r.None? <==> forall i :: 0 <= i < |ws| ==> !IsTileOf(ws[i], path)
    ensures r.Some? ==> r.value in ws && IsTileOf(r.value, path)
    decreases |ws|
  {
    if |ws| == 0 then None
    else if IsTileOf(ws[0], path) then Some(ws[0])
    else FindChild(ws[1..], path)
  }

  /**
   on_item_removed as written: the loop type-tests the flow box's wrappers,
   none of which is a launcher tile, so no tile is found and the flow box
   keeps every tile.
   */
  function OnItemRemovedAsWritten(v: View, item: DesktopEntry.MenuItem): (r: View)
    ensures r == v
  {
    match FindChild(Children(v.tiles), item.path)
    case None => v
    case Some(w) =>
      match w
      case TileWidget(t) => v.(tiles := RemoveFirst(v.tiles, t))
      case FlowBoxChild(_) => v
  }

  /** The desktop's reaction to one of the menu's signals. */
  function OnNotification(v: View, n: Catalog.Notification, collate: string -> string): (r: View)
    ensures r.bar == v.bar && r.selected == v.selected
    ensures n.ItemAdded? ==> |r.tiles| == |v.tiles| + 1 && r.tiles[..|v.tiles|] == v.tiles
                             && BoundTo(r.tiles[|v.tiles|], n.item.path)
    ensures n.ItemRemoved? ==> |v.tiles| - 1 <= |r.tiles| <= |v.tiles|
  {
    match n
    case ItemAdded(x) => OnItemAdded(v, x, collate)
    case ItemRemoved(x) => OnItemRemoved(v, x)
  }

  /** The reactions to a list of signals, in order. */
  function OnNotifications(v: View, ns: seq<Catalog.Notification>, collate: string -> string): (r: View)
    ensures r.bar == v.bar && r.selected == v.selected
    ensures |v.tiles| - |ns| <= |r.tiles| <= |v.tiles| + |ns|
    decreases |ns|
  {
    if |ns| == 0 then v else OnNotifications(OnNotification(v, ns[0], collate), ns[1..], collate)
  }

  /** load_items: a tile for every item of the menu's list that is not NULL, in list order. */
  function LoadItems(v: View, items: seq<Option<DesktopEntry.MenuItem>>, collate: string -> string): (r: View)
    ensures r.bar == v.bar && r.selected == v.selected
    ensures |v.tiles| <= |r.tiles| <= |v.tiles| + |items| && r.tiles[..|v.tiles|] == v.tiles
    decreases |items|
  {
    if |items| == 0 then v
    else
      var w := LoadItems(v, items[..|items| - 1], collate);
      var last := items[|items| - 1];
      var r := if last.Some? then OnItemAdded(w, last.value, collate) else w;
      assert r.tiles[..|v.tiles|] == w.tiles[..|v.tiles|];
      r
  }

  /** The items of a list with its NULL entries left out, in list order. */
  function Present(items: seq<Option<DesktopEntry.MenuItem>>): (r: seq<DesktopEntry.MenuItem>)
    ensures |r| <= |items|
    decreases |items|
  {
    if |items| == 0 then []
    else
      var last := items[|items| - 1];
      Present(items[..|items| - 1]) + if last.Some? then [last.value] else []
  }

  /** Loading the menu's list into an empty flow box mirrors the items of the list that are not NULL. */
  lemma {:induction false} LoadItemsMirrors(v: View, items: seq<Option<DesktopEntry.MenuItem>>, collate: string -> string)
    requires |v.tiles| == 0
    ensures Mirrors(LoadItems(v, items, collate).tiles, Present(items))
    decreases |items|
  {
    if |items| > 0 {
      var prefix := items[..|items| - 1];
      var last := items[|items| - 1];
      LoadItemsMirrors(v, prefix, collate);
      if last.Some? {
        MirrorAdd(LoadItems(v, prefix, collate), Present(prefix), last.value, collate);
      }
    }
  }

  /** With distinct paths, the first occurrence of a listed item is at its own position. */
  lemma FirstIndexOfDistinct(items: seq<DesktopEntry.MenuItem>, i: nat)
    requires Catalog.DistinctPaths(items) && i < |items|
    ensures FirstIndex(items, items[i]) == i
  {
  }

  /** In a flow box mirroring a menu with distinct paths, the tile found for item i is tile i. */
  lemma FindTileMirrors(tiles: seq<Tiles.Tile>, items: seq<DesktopEntry.MenuItem>, i: nat)
    requires Mirrors(tiles, items) && Catalog.DistinctPaths(items) && i < |items|
    ensures FindTile(tiles, items[i].path) == Some(i)
  {
    forall j | 0 <= j < i ensures !BoundTo(tiles[j], items[i].path) {
      assert BoundTo(tiles[j], items[j].path);
    }
  }

  /** Adding an item to a mirrored menu adds its tile at the end of the flow box. */
  lemma MirrorAdd(v: View, items: seq<DesktopEntry.MenuItem>, x: DesktopEntry.MenuItem, collate: string -> string)
    requires Mirrors(v.tiles, items)
    ensures Mirrors(OnItemAdded(v, x, collate).tiles, items + [x])
  {
    var r := OnItemAdded(v, x, collate).tiles;
    forall k | 0 <= k < |r| ensures BoundTo(r[k], (items + [x])[k].path) {
      if k < |v.tiles| {
        assert r[k] == v.tiles[k];
      }
    }
  }

  /** Removing item i from a mirrored menu removes tile i from the flow box. */
  lemma MirrorWithout(tiles: seq<Tiles.Tile>, items: seq<DesktopEntry.MenuItem>, i: nat)
    requires Mirrors(tiles, items) && Catalog.DistinctPaths(items) && i < |items|
    ensures FindTile(tiles, items[i].path) == Some(i)
    ensures Mirrors(Without(tiles, i), RemoveFirst(items, items[i]))
  {
    FirstIndexOfDistinct(items, i);
    FindTileMirrors(tiles, items, i);
    var r := Without(tiles, i);
    var rest := Without(items, i);
    forall k | 0 <= k < |r| ensures BoundTo(r[k], rest[k].path) {
      var j := if k < i then k else k + 1;
      assert r[k] == tiles[j] && rest[k] == items[j];
    }
  }

  /** A mirroring flow box follows any one signal whose removed item is listed. */
  lemma MirrorNotification(v: View, items: seq<DesktopEntry.MenuItem>, n: Catalog.Notification,
                           collate: string -> string)
    requires Mirrors(v.tiles, items) && Catalog.DistinctPaths(items)
    requires n.ItemRemoved? ==> n.item in items
    ensures Mirrors(OnNotifications(v, [n], collate).tiles, Catalog.ApplyNotifications(items, [n]))
  {
    assert [n][1..] == [];
    if n.ItemAdded? {
      MirrorAdd(v, items, n.item, collate);
    }
  }

  /**
   The desktop stays in step with the menu: if the flow box mirrors the menu
   before a file-system event, it mirrors it after the desktop has handled the
   signals the menu emitted for that event.
   */
  lemma StaysInSync(v: View, m: Catalog.Menu, ev: Catalog.FsEvent, files: string -> Option<DesktopEntry.KeyFile>,
                    collate: string -> string)
    requires Catalog.Valid(m) && Mirrors(v.tiles, m.items)
    ensures var (m1, notes) := Catalog.HandleEvent(m, ev, files);
            Mirrors(OnNotifications(v, notes, collate).tiles, m1.items)
  {
    var r := Catalog.HandleEvent(m, ev, files);
    Catalog.NotificationsDescribeChange(m, ev, files);
    Catalog.RemovedItemWasListed(m, ev, files);
    if |r.1| == 1 {
      assert r.1 == [r.1[0]];
      MirrorNotification(v, m.items, r.1[0], collate);
    }
  }

  /**
   As written, deleting a listed desktop file leaves its tile behind: the menu
   announces the item, drops it from its list and index (and frees it), but
   on_item_removed keeps the tile bound to the item's path, so the flow box no
   longer mirrors the menu.
   */
  lemma StaleTileAfterDelete(v: View, m: Catalog.Menu, ev: Catalog.FsEvent,
                             files: string -> Option<DesktopEntry.KeyFile>, i: nat)
    requires Catalog.Valid(m) && Mirrors(v.tiles, m.items) && i < |m.items|
    requires ev.kind == Catalog.Deleted && BuildFilename(ev.dir, ev.name) == m.items[i].path
    ensures var (m1, notes) := Catalog.HandleEvent(m, ev, files);
            && notes == [Catalog.ItemRemoved(m.items[i])]
            && OnItemRemovedAsWritten(v, m.items[i]) == v
            && BoundTo(v.tiles[i], m.items[i].path)
            && m.items[i].path !in m1.index
            && !Mirrors(OnItemRemovedAsWritten(v, m.items[i]).tiles, m1.items)
  {
    var path := m.items[i].path;
    var f := Catalog.FindItem(m.items, path);
    assert path in Catalog.Paths(m.items);
    assert f == Some(i);
  }

  // ---------------------------------------------------------------------------
  // Filtering and focus
  // ---------------------------------------------------------------------------

  /**
   table_filter as written: the tile is tested against the bar's current
   category, which taku_category_bar_get_current dereferences unchecked. None
   stands for that NULL dereference when no category is current.
   */
  function TableFilterAsWritten(bar: CategoryBar.Bar, t: Tiles.Tile): (r: Option<bool>)
    ensures r.None? <==> bar.current.None?
    ensures r.Some? ==> (r.value <==> Tiles.MatchesFilter(t, bar.current))
  {
    match bar.current
    case None => None
    case Some(_) => Some(Tiles.MatchesFilter(t, bar.current))
  }

  /** With no categories the bar never gets a current one, so the filter as written dereferences NULL for every tile. */
  lemma EmptyCategoriesBreakFilter(t: Tiles.Tile)
    ensures var bar := CategoryBar.SetCategories(CategoryBar.NewBar, []);
            TableFilterAsWritten(bar, t).None?
  {
  }

  /**
   table_filter with the NULL guard that taku_tile_matches_filter already
   provides: the possibly absent current category is passed on, and a tile is
   shown iff it matches it.
   */
  function TableFilter(bar: CategoryBar.Bar, t: Tiles.Tile): (r: bool)
    ensures bar.current.None? ==> !r
    ensures bar.current.Some? ==> (r <==> TableFilterAsWritten(bar, t) == Some(true))
  {
    Tiles.MatchesFilter(t, bar.current)
  }

  /** A tile built from an item is shown exactly when the current category is one the item was placed in. */
  lemma ShownIffInCurrentCategory(bar: CategoryBar.Bar, item: DesktopEntry.MenuItem, collate: string -> string)
    requires bar.current.Some?
    ensures TableFilter(bar, Tiles.NewFromItem(item, collate)) <==> bar.current.value in item.groups
  {
    Tiles.NewTileMatchesItemGroups(item, collate, bar.current.value);
  }

  /** GtkDirectionType. */
  datatype Direction = TabForward | TabBackward | Up | Down | Left | Right

  /**
   focus_cb, run when focus cannot move further inside the flow box: with no
   categories it declines; left and right switch to the previous and next
   category and claim the event; up clears the selection and declines; other
   directions decline.
   */
  function FocusCb(v: View, dir: Direction): (r: (View, bool))
    requires CategoryBar.Valid(v.bar)
    ensures r.0.tiles == v.tiles && CategoryBar.Valid(r.0.bar)
    ensures |v.bar.categories| == 0 ==> r == (v, false)
    ensures r.1 <==> |v.bar.categories| > 0 && (dir == Left || dir == Right)
    ensures r.0.bar != v.bar ==> r.1
    ensures |v.bar.categories| > 0 && dir == Up ==> r.0.selected.None? && r.0.bar == v.bar
    ensures dir != Left && dir != Right && dir != Up ==> r.0 == v
  {
    if |v.bar.categories| == 0 then (v, false)
    else match dir
      case Left => (v.(bar := CategoryBar.Prev(v.bar)), true)
      case Right => (v.(bar := CategoryBar.Next(v.bar)), true)
      case Up => (v.(selected := None), false)
      case _ => (v, false)
  }

  /** Running off the left edge and then off the right edge comes back to the same category. */
  lemma LeftThenRightReturns(v: View)
    requires CategoryBar.Valid(v.bar)
    ensures var (v1, _) := FocusCb(v, Left);
            FocusCb(v1, Right).0.bar.current == v.bar.current
  {
    CategoryBar.NextPrevInverse(v.bar);
  }

  /** Running off the right edge moves to the next category, wrapping round at the end. */
  lemma RightAdvances(v: View)
    requires CategoryBar.Valid(v.bar) && v.bar.current.Some?
    ensures var c := FocusCb(v, Right).0.bar.current;
            c.Some? && c.value == (v.bar.current.value + 1) % |v.bar.categories|
  {
  }

  /** table_size_allocate_cb: at least one tile per 200 pixels of width, with C's truncating division. */
  function MinChildrenPerLine(width: int): (r: int)
    ensures width >= 0 ==> r >= 0 && 200 * r <= width < 200 * (r + 1)
    ensures width < 0 ==> r <= 0
  {
    TruncDivBounds(width, 200);
    TruncDiv(width, 200)
  }
}

=== FILE: exec_argv.dfy ===
/**
 The Exec command-line tokenizer of libtaku/launcher-util.c (exec_to_argv):
 a single left-to-right scan with an escape flag and two quote flags that
 splits a desktop entry's Exec value into an argument vector of at most 255
 strings, dropping field codes such as %f and turning %% into %.
 */
module ExecArgv {
  import opened Common

  /** Size of the argument slots the scanner allocates (MAX_ARGS). */
  const MaxArgs: nat := 255

  /** The scanner's variables between two characters. */
  datatype ScanState = ScanState(
    escape: bool,
    singleQuote: bool,
    doubleQuote: bool,
    buf: string,          // characters of the argument being built
    args: seq<string>)    // arguments already stored in argv

  const Start := ScanState(false, false, false, "", [])

  /** Not escaped and outside both kinds of quotes. */
  predicate Plain(st: ScanState) {
    !st.escape && !st.singleQuote && !st.doubleQuote
  }

  /** The first MaxArgs elements of `args`. */
  function Cap(args: seq<string>): seq<string> {
    if |args| <= MaxArgs then args else args[..MaxArgs]
  }

  /**
   Stores a finished argument, unless all MaxArgs slots are taken: the stored
   vector is the capped extension, and what was stored before is kept.
   */
  function Emit(args: seq<string>, arg: string): (r: seq<string>)
    ensures args <= r && |r| <= |args| + 1
    ensures |args| <= MaxArgs ==> r == Cap(args + [arg]) && |r| <= MaxArgs
    ensures |args| >= MaxArgs ==> r == args
  {
    if |args| < MaxArgs then args + [arg]
    else
      assert |args| == MaxArgs ==> (args + [arg])[..MaxArgs] == args;
      args
  }

  /**
   Scans the rest `s` of the Exec string. None means the scan steps past the
   string's terminator: a field-code '%' that is the last character makes the
   source advance twice, over the terminator, and keep reading memory.
   */
  function Scan(s: string, st: ScanState): (r: Option<ScanState>)
    ensures r.Some? ==> st.args <= r.value.args
    ensures r.Some? && |st.args| <= MaxArgs ==> |r.value.args| <= MaxArgs
    decreases |s|
  {
    if |s| == 0 then Some(st)
    else if st.escape then
      Scan(s[1..], st.(escape := false, buf := st.buf + [s[0]]))
    else if s[0] == '\\' then
      Scan(s[1..], st.(escape := true))
    else if s[0] == '%' then
      if |s| == 1 then None
      else if s[1] == '%' then Scan(s[2..], st.(buf := st.buf + ['%']))
      else Scan(s[2..], st)
    else if s[0] == '\'' then
      if st.doubleQuote then Scan(s[1..], st.(buf := st.buf + [s[0]]))
      else Scan(s[1..], st.(singleQuote := !st.singleQuote))
    else if s[0] == '"' then
      if st.singleQuote then Scan(s[1..], st.(buf := st.buf + [s[0]]))
      else Scan(s[1..], st.(doubleQuote := !st.doubleQuote))
    else if s[0] == ' ' then
      if st.singleQuote || st.doubleQuote then Scan(s[1..], st.(buf := st.buf + [s[0]]))
      else Scan(s[1..], st.(buf := "", args := Emit(st.args, st.buf)))
    else
      Scan(s[1..], st.(buf := st.buf + [s[0]]))
  }

  /** End of input: the pending argument is stored only when it is non-empty. */
  function Finish(st: ScanState): (r: seq<string>)
    ensures st.args <= r && |r| <= |st.args| + 1
    ensures st.buf == "" ==> r == st.args
    ensures st.buf != "" && |st.args| < MaxArgs ==> r == st.args + [st.buf]
    ensures |st.args| <= MaxArgs ==> |r| <= MaxArgs
  {
    if st.buf != "" then Emit(st.args, st.buf) else st.args
  }

  /**
   The scan only overruns at a '%' that is the last character: every other
   step consumes characters that are there.
   */
  lemma {:induction false} NoneEndsInPercent(s: string, st: ScanState)
    requires Scan(s, st).None?
    ensures |s| > 0 && s[|s| - 1] == '%'
    decreases |s|
  {
    if st.escape || s[0] != '%' {
      var st' :| Scan(s, st) == Scan(s[1..], st');
      NoneEndsInPercent(s[1..], st');
      assert s[1..][|s| - 2] == s[|s| - 1];
    } else if |s| > 1 {
      var st' := if s[1] == '%' then st.(buf := st.buf + ['%']) else st;
      assert Scan(s, st) == Scan(s[2..], st');
      NoneEndsInPercent(s[2..], st');
      assert s[2..][|s| - 3] == s[|s| - 1];
    }
  }

  /** exec_to_argv: the argument vector (without its NULL terminator). */
  function ExecToArgv(exec: string): (r: Option<seq<string>>)
    ensures r.Some? ==> |r.value| <= MaxArgs
    ensures r.None? <==> Scan(exec, Start).None?
    ensures r.None? ==> |exec| > 0 && exec[|exec| - 1] == '%'
    ensures '%' !in exec ==> r.Some?
  {
    assert Scan(exec, Start).None? ==> |exec| > 0 && exec[|exec| - 1] == '%' by {
      if Scan(exec, Start).None? { NoneEndsInPercent(exec, Start); }
    }
    match Scan(exec, Start)
    case None => None
    case Some(st) => Some(Finish(st))
  }

  // ---------------------------------------------------------------------------
  // Scanning is compositional

  /** Scanning `s + t` is scanning `s` and then `t` from where `s` left off. */
  lemma {:induction false} ScanAppend(s: string, t: string, st: ScanState)
    requires Scan(s, st).Some?
    ensures Scan(s + t, st) == Scan(t, Scan(s, st).value)
    decreases |s|
  {
    if |s| == 0 {
      assert s + t == t;
    } else {
      assert (s + t)[1..] == s[1..] + t;
      if st.escape {
        ScanAppend(s[1..], t, st.(escape := false, buf := st.buf + [s[0]]));
      } else if s[0] == '\\' {
        ScanAppend(s[1..], t, st.(escape := true));
      } else if s[0] == '%' {
        assert |s| >= 2;
        assert (s + t)[2..] == s[2..] + t;
        assert (s + t)[1] == s[1];
        if s[1] == '%' {
          ScanAppend(s[2..], t, st.(buf := st.buf + ['%']));
        } else {
          ScanAppend(s[2..], t, st);
        }
      } else if s[0] == '\'' {
        if st.doubleQuote {
          ScanAppend(s[1..], t, st.(buf := st.buf + [s[0]]));
        } else {
          ScanAppend(s[1..], t, st.(singleQuote := !st.singleQuote));
        }
      } else if s[0] == '"' {
        if st.singleQuote {
          ScanAppend(s[1..], t, st.(buf := st.buf + [s[0]]));
        } else {
          ScanAppend(s[1..], t, st.(doubleQuote := !st.doubleQuote));
        }
      } else if s[0] == ' ' {
        if st.singleQuote || st.doubleQuote {
          ScanAppend(s[1..], t, st.(buf := st.buf + [s[0]]));
        } else {
          ScanAppend(s[1..], t, st.(buf := "", args := Emit(st.args, st.buf)));
        }
      } else {
        ScanAppend(s[1..], t, st.(buf := st.buf + [s[0]]));
      }
    }
  }

  // ---------------------------------------------------------------------------
  // Escaping round trip: a backslash copies the next character verbatim

  /** The characters the scanner treats specially outside an escape. */
  predicate Special(c: char) {
    c == '\\' || c == '%' || c == '\'' || c == '"' || c == ' '
  }

  /** One argument written so that the scanner reads it back literally. */
  function QuoteArg(a: string): (r: string)
    ensures |r| >= |a|
    decreases |a|
  {
    if |a| == 0 then ""
    else (if Special(a[0]) then ['\\', a[0]] else [a[0]]) + QuoteArg(a[1..])
  }

  /** Arguments written as an Exec line: quoted and separated by single spaces. */
  function QuoteArgs(args: seq<string>): string
    decreases |args|
  {
    if |args| == 0 then ""
    else if |args| == 1 then QuoteArg(args[0])
    else QuoteArgs(args[..|args| - 1]) + " " + QuoteArg(args[|args| - 1])
  }

  lemma {:induction false} ScanQuoteArg(a: string, st: ScanState)
    requires Plain(st)
    ensures Scan(QuoteArg(a), st) == Some(st.(buf := st.buf + a))
    decreases |a|
  {
    if |a| == 0 {
      assert st.buf + a == st.buf;
    } else {
      var c := a[0];
      var head: string := if Special(c) then ['\\', c] else [c];
      var mid := st.(buf := st.buf + [c]);
      assert Scan(head, st) == Some(mid) by {
        if Special(c) {
          assert head[1..] == [c];
          assert Scan(head[1..], st.(escape := true)) == Scan([], mid);
        } else {
          assert head[1..] == [];
        }
      }
      ScanAppend(head, QuoteArg(a[1..]), st);
      ScanQuoteArg(a[1..], mid);
      assert st.buf + [c] + a[1..] == st.buf + a;
    }
  }

  lemma EmitCap(args: seq<string>, a: string)
    ensures Emit(Cap(args), a) == Cap(args + [a])
  {
    if |args| > MaxArgs {
      assert (args + [a])[..MaxArgs] == args[..MaxArgs];
    }
  }

  lemma {:induction false} ScanQuoteArgs(args: seq<string>)
    requires |args| >= 1
    ensures Scan(QuoteArgs(args), Start)
         == Some(ScanState(false, false, false, args[|args| - 1], Cap(args[..|args| - 1])))
    decreases |args|
  {
    if |args| == 1 {
      ScanQuoteArg(args[0], Start);
      assert Start.buf + args[0] == args[0];
      assert args[..0] == [];
    } else {
      var init := args[..|args| - 1];
      var last := args[|args| - 1];
      var prev := init[|init| - 1];
      ScanQuoteArgs(init);
      var m := ScanState(false, false, false, prev, Cap(init[..|init| - 1]));
      ScanAppend(QuoteArgs(init), " ", Start);
      assert Scan(" ", m) == Some(m.(buf := "", args := Emit(m.args, prev)));
      EmitCap(init[..|init| - 1], prev);
      assert init[..|init| - 1] + [prev] == init;
      var m2 := ScanState(false, false, false, "", Cap(init));
      assert Scan(QuoteArgs(init) + " ", Start) == Some(m2);
      ScanAppend(QuoteArgs(init) + " ", QuoteArg(last), Start);
      ScanQuoteArg(last, m2);
      assert m2.buf + last == last;
    }
  }

  /** The vector of a completed scan is the stored arguments plus the pending one, if any. */
  lemma FinishScan(exec: string, st: ScanState)
    requires Scan(exec, Start) == Some(st)
    ensures ExecToArgv(exec) == Some(if st.buf != "" then Emit(st.args, st.buf) else st.args)
  {
  }

  /**
   Any argument vector whose last argument is non-empty survives being quoted
   and scanned again, except that only the first MaxArgs arguments are kept.
   Empty arguments in the middle come back as "" because every unquoted space
   stores the buffer, empty or not.
   */
  lemma QuoteRoundTrip(args: seq<string>)
    requires |args| == 0 || args[|args| - 1] != ""
    ensures ExecToArgv(QuoteArgs(args)) == Some(Cap(args))
  {
    if |args| > 0 {
      var init, last := args[..|args| - 1], args[|args| - 1];
      ScanQuoteArgs(args);
      FinishScan(QuoteArgs(args), ScanState(false, false, false, last, Cap(init)));
      EmitCap(init, last);
      SplitLast(args);
    }
  }

  // ---------------------------------------------------------------------------
  // Local rules, each stated as an equivalence between two Exec strings

  /** A field code `%x` (x not '%') outside an escape is removed without trace. */
  lemma FieldCodeDropped(pre: string, x: char, post: string)
    requires x != '%'
    requires Scan(pre, Start).Some? && !Scan(pre, Start).value.escape
    ensures ExecToArgv(pre + ['%', x] + post) == ExecToArgv(pre + post)
  {
    var m := Scan(pre, Start).value;
    ScanAppend(pre, ['%', x] + post, Start);
    ScanAppend(pre, post, Start);
    assert pre + ['%', x] + post == pre + (['%', x] + post);
    assert (['%', x] + post)[2..] == post;
  }

  /** `%%` outside an escape reads exactly like the escaped character `\%`. */
  lemma PercentPercentIsPercent(pre: string, post: string)
    requires Scan(pre, Start).Some? && !Scan(pre, Start).value.escape
    ensures ExecToArgv(pre + "%%" + post) == ExecToArgv(pre + "\\%" + post)
  {
    ScanAppend(pre, "%%" + post, Start);
    ScanAppend(pre, "\\%" + post, Start);
    assert pre + "%%" + post == pre + ("%%" + post);
    assert pre + "\\%" + post == pre + ("\\%" + post);
    assert ("%%" + post)[2..] == post;
    assert ("\\%" + post)[1..][1..] == post;
  }

  /** A '%' that is the last unescaped character runs the scan off the string. */
  lemma TrailingPercentOverruns(pre: string)
    requires Scan(pre, Start).Some? && !Scan(pre, Start).value.escape
    ensures ExecToArgv(pre + "%") == None
  {
    ScanAppend(pre, "%", Start);
  }

  /** A lone trailing backslash contributes nothing. */
  lemma TrailingBackslashIgnored(pre: string)
    requires Scan(pre, Start).Some? && !Scan(pre, Start).value.escape
    ensures ExecToArgv(pre + "\\") == ExecToArgv(pre)
  {
    ScanAppend(pre, "\\", Start);
  }

  /**
   A trailing unquoted space adds no argument when an argument is pending, but
   stores an empty argument when the buffer is already empty (after another
   space or a dropped field code).
   */
  lemma TrailingSpace(pre: string)
    requires Scan(pre, Start).Some? && Plain(Scan(pre, Start).value)
    ensures var m := Scan(pre, Start).value;
            ExecToArgv(pre + " ") == if m.buf == "" then Some(Emit(m.args, "")) else ExecToArgv(pre)
  {
    ScanAppend(pre, " ", Start);
  }

  /** Text without `'`, backslash or `%` between single quotes is copied literally, spaces and `"` included. */
  lemma SingleQuotedLiteral(w: string, st: ScanState)
    requires Plain(st)
    requires forall i :: 0 <= i < |w| ==> w[i] != '\'' && w[i] != '\\' && w[i] != '%'
    ensures Scan("'" + w + "'", st) == Some(st.(buf := st.buf + w))
  {
    var inside := st.(singleQuote := true);
    ScanAppend("'", w + "'", st);
    assert "'" + w + "'" == "'" + (w + "'");
    QuotedRun(w, inside);
    ScanAppend(w, "'", inside);
  }

  /** Text without `"`, backslash or `%` between double quotes is copied literally, spaces and `'` included. */
  lemma DoubleQuotedLiteral(w: string, st: ScanState)
    requires Plain(st)
    requires forall i :: 0 <= i < |w| ==> w[i] != '"' && w[i] != '\\' && w[i] != '%'
    ensures Scan("\"" + w + "\"", st) == Some(st.(buf := st.buf + w))
  {
    var inside := st.(doubleQuote := true);
    ScanAppend("\"", w + "\"", st);
    assert "\"" + w + "\"" == "\"" + (w + "\"");
    QuotedRun(w, inside);
    ScanAppend(w, "\"", inside);
  }

  /** Inside exactly one kind of quote, characters other than that quote, backslash and '%' are copied. */
  lemma {:induction false} QuotedRun(w: string, st: ScanState)
    requires !st.escape && st.singleQuote != st.doubleQuote
    requires forall i :: 0 <= i < |w| ==> w[i] != '\\' && w[i] != '%'
    requires forall i :: 0 <= i < |w| ==> (st.singleQuote ==> w[i] != '\'') && (st.doubleQuote ==> w[i] != '"')
    ensures Scan(w, st) == Some(st.(buf := st.buf + w))
    decreases |w|
  {
    if |w| == 0 {
      assert st.buf + w == st.buf;
    } else {
      var next := st.(buf := st.buf + [w[0]]);
      assert Scan(w, st) == Scan(w[1..], next);
      QuotedRun(w[1..], next);
      assert st.buf + [w[0]] + w[1..] == st.buf + w;
    }
  }

  // ---------------------------------------------------------------------------
  // Worked examples

  /** Text with no special character is copied into the buffer unchanged. */
  lemma ScanPlainWord(w: string, st: ScanState)
    requires Plain(st)
    requires forall i :: 0 <= i < |w| ==> !Special(w[i])
    ensures Scan(w, st) == Some(st.(buf := st.buf + w))
  {
    PlainWordQuotesToItself(w);
    ScanQuoteArg(w, st);
  }

  lemma {:induction false} PlainWordQuotesToItself(w: string)
    requires forall i :: 0 <= i < |w| ==> !Special(w[i])
    ensures QuoteArg(w) == w
    decreases |w|
  {
    if |w| > 0 {
      PlainWordQuotesToItself(w[1..]);
      assert [w[0]] + w[1..] == w;
    }
  }

  /** An unquoted space stores the buffer, empty or not. */
  lemma ScanSpace(st: ScanState)
    requires Plain(st)
    ensures Scan(" ", st) == Some(st.(buf := "", args := Emit(st.args, st.buf)))
  {
    assert " "[0] == ' ' && " "[1..] == "";
  }

  lemma QuoteThree(a: string, b: string)
    ensures QuoteArgs([a, "", b]) == QuoteArg(a) + " " + " " + QuoteArg(b)
  {
    var args := [a, "", b];
    assert args[..2] == [a, ""] && [a, ""][..1] == [a];
    assert QuoteArgs([a]) == QuoteArg(a);
    assert QuoteArg("") == "";
    assert QuoteArgs([a, ""]) == QuoteArg(a) + " " + "";
  }

  lemma DropFieldBetween(a: string, b: string)
    requires forall i :: 0 <= i < |a| ==> !Special(a[i])
    ensures ExecToArgv(a + " %f " + b) == ExecToArgv(a + " " + " " + b)
  {
    ScanPlainWord(a, Start);
    ScanSpace(Start.(buf := a));
    ScanAppend(a, " ", Start);
    FieldCodeDropped(a + " ", 'f', " " + b);
    assert a + " %f " + b == (a + " ") + ['%', 'f'] + (" " + b);
    assert (a + " ") + (" " + b) == a + " " + " " + b;
  }

  /** A dropped field code leaves the space after it to store an empty argument: `foo %f bar` gives foo, "", bar. */
  lemma FieldCodeLeavesEmptyArgument(a: string, b: string)
    requires a != "" && b != ""
    requires forall i :: 0 <= i < |a| ==> !Special(a[i])
    requires forall i :: 0 <= i < |b| ==> !Special(b[i])
    ensures ExecToArgv(a + " %f " + b) == Some([a, "", b])
  {
    PlainWordQuotesToItself(a);
    PlainWordQuotesToItself(b);
    QuoteThree(a, b);
    QuoteRoundTrip([a, "", b]);
    DropFieldBetween(a, b);
  }
}

=== FILE: icon.dfy ===
/**
 Icon-name handling of libtaku/launcher-util.c: strip_extension and the
 fallback decision of get_icon. Loading a file or a themed icon is foreign;
 it is given as two predicates saying which loads would succeed.
 */
module Icon {
  import opened Common

  const MissingImage := "gtk-missing-image"
  const GenericExecutable := "application-x-executable"

  /** The suffixes strip_extension removes. */
  predicate IsImageExtension(ext: string) {
    ext == ".png" || ext == ".svg" || ext == ".xpm"
  }

  /** strip_extension: cut at the last '.' when what follows it is an image extension. */
  function StripExtension(file: string): (r: string)
    ensures r <= file
    ensures r == file || (|r| == |file| - 4 && EndsWithImageExtension(file))
  {
    match LastIndexOf(file, '.')
    case None => file
    case Some(i) => if IsImageExtension(file[i..]) then file[..i] else file
  }

  /** The name ends in one of the image extensions. */
  predicate EndsWithImageExtension(file: string) {
    HasSuffix(file, ".png") || HasSuffix(file, ".svg") || HasSuffix(file, ".xpm")
  }

  /**
   Stripping removes exactly a trailing .png, .svg or .xpm and nothing else:
   whether the last dot starts the suffix does not need to be asked separately,
   because none of the extensions contains a second dot.
   */
  lemma StripExtensionSpec(file: string)
    ensures EndsWithImageExtension(file) ==> StripExtension(file) == file[..|file| - 4]
    ensures !EndsWithImageExtension(file) ==> StripExtension(file) == file
  {
    var n := |file|;
    if EndsWithImageExtension(file) {
      var ext := file[n - 4..];
      assert ext == ".png" || ext == ".svg" || ext == ".xpm";
      assert file[n - 4] == '.';
      assert '.' !in file[n - 3..] by {
        assert file[n - 3..] == ext[1..];
      }
      assert LastIndexOf(file, '.') == Some(n - 4);
    }
  }

  /** g_path_is_absolute on a POSIX system. */
  predicate IsAbsolutePath(name: string) {
    |name| > 0 && name[0] == '/'
  }

  /** Where a loaded icon came from. */
  datatype IconSource = FromFile(path: string) | FromTheme(name: string)

  /** Ranks the names get_icon may retry with, so that each retry is strictly lower. */
  function FallbackRank(name: Option<string>): nat {
    match name
    case None => 3
    case Some(n) => if n == MissingImage then 0 else if n == GenericExecutable then 1 else 2
  }

  /**
   get_icon without the pixbuf scaling: NULL asks for the generic executable
   icon; an absolute path is loaded from the file with no fallback; any other
   name is looked up with its extension stripped, and a failed lookup falls
   back to the generic executable icon, then to the missing-image icon, then
   to nothing.
   */
  function GetIcon(name: Option<string>, fileLoads: string -> bool, themeHas: string -> bool): (r: Option<IconSource>)
    ensures r.Some? && r.value.FromTheme? ==> themeHas(r.value.name)
    ensures r.Some? && r.value.FromFile? ==> name.Some? && IsAbsolutePath(name.value) && fileLoads(name.value)
    ensures name.Some? && IsAbsolutePath(name.value) ==>
              (r.Some? <==> fileLoads(name.value)) && (r.Some? ==> r.value == FromFile(name.value))
    decreases FallbackRank(name)
  {
    match name
    case None => GetIcon(Some(GenericExecutable), fileLoads, themeHas)
    case Some(n) =>
      if IsAbsolutePath(n) then
        (if fileLoads(n) then Some(FromFile(n)) else None)
      else if themeHas(StripExtension(n)) then
        Some(FromTheme(StripExtension(n)))
      else if n == MissingImage then None
      else if n == GenericExecutable then GetIcon(Some(MissingImage), fileLoads, themeHas)
      else GetIcon(Some(GenericExecutable), fileLoads, themeHas)
  }

  /** The theme names get_icon tries for a relative name, in order. */
  function Candidates(n: string): seq<string> {
    if n == MissingImage then [MissingImage]
    else if n == GenericExecutable then [GenericExecutable, MissingImage]
    else [StripExtension(n), GenericExecutable, MissingImage]
  }

  /** The first name the theme can load, if any. */
  function FirstAvailable(names: seq<string>, themeHas: string -> bool): (r: Option<string>)
    ensures r.Some? ==> r.value in names && themeHas(r.value)
    ensures r.None? <==> forall i :: 0 <= i < |names| ==> !themeHas(names[i])
  {
    if |names| == 0 then None
    else if themeHas(names[0]) then Some(names[0])
    else FirstAvailable(names[1..], themeHas)
  }

  lemma FallbackNamesAreBare()
    ensures StripExtension(MissingImage) == MissingImage
    ensures StripExtension(GenericExecutable) == GenericExecutable
  {
    StripExtensionSpec(MissingImage);
    StripExtensionSpec(GenericExecutable);
  }

  /**
   For a relative name get_icon returns the first loadable name of a chain of
   at most three: the stripped name, the generic executable icon and the
   missing-image icon. The chain never revisits a name, so the recursion ends.
   */
  lemma GetIconFallbackChain(n: string, fileLoads: string -> bool, themeHas: string -> bool)
    requires !IsAbsolutePath(n)
    ensures |Candidates(n)| <= 3
    ensures GetIcon(Some(n), fileLoads, themeHas)
         == match FirstAvailable(Candidates(n), themeHas)
            case None => None
            case Some(m) => Some(FromTheme(m))
  {
    FallbackNamesAreBare();
    assert !IsAbsolutePath(GenericExecutable) && !IsAbsolutePath(MissingImage);
    var missing := GetIcon(Some(MissingImage), fileLoads, themeHas);
    assert missing == if themeHas(MissingImage) then Some(FromTheme(MissingImage)) else None;
    var generic := GetIcon(Some(GenericExecutable), fileLoads, themeHas);
    assert generic == if themeHas(GenericExecutable) then Some(FromTheme(GenericExecutable)) else missing;
    assert [GenericExecutable, MissingImage][1..] == [MissingImage];
    assert [MissingImage][1..] == [];
    var fm := FirstAvailable([MissingImage], themeHas);
    assert fm == if themeHas(MissingImage) then Some(MissingImage) else None;
    var fg := FirstAvailable([GenericExecutable, MissingImage], themeHas);
    assert fg == if themeHas(GenericExecutable) then Some(GenericExecutable) else fm;
    if n == MissingImage {
    } else if n == GenericExecutable {
    } else {
      var c := [StripExtension(n), GenericExecutable, MissingImage];
      assert c[1..] == [GenericExecutable, MissingImage];
      assert FirstAvailable(c, themeHas) == if themeHas(c[0]) then Some(c[0]) else fg;
    }
  }

  /** A missing icon name behaves exactly like the generic executable icon. */
  lemma NullNameIsGeneric(fileLoads: string -> bool, themeHas: string -> bool)
    ensures GetIcon(None, fileLoads, themeHas) == GetIcon(Some(GenericExecutable), fileLoads, themeHas)
    ensures themeHas(GenericExecutable) ==> GetIcon(None, fileLoads, themeHas) == Some(FromTheme(GenericExecutable))
  {
    FallbackNamesAreBare();
  }
}

=== FILE: icon_queue.dfy ===
/**
 The deferred icon loading of libtaku/taku-launcher-tile.c: a FIFO of launcher
 tiles whose icons are still to be loaded, each tile's loading_icon flag, the
 enqueue on style-set and the idle callback load_icon that loads a batch.
 Tiles are named by numbers; the pixbuf taku_menu_item_get_icon returns for a
 tile's item at the tile's icon size is foreign and comes from `lookup` as an
 opaque handle (None for NULL). The idle source that calls load_icon while
 the queue is non-empty is event-loop glue and is not modelled.
 */
module IconQueue {
  import opened Common

  /** How many icons one call of load_icon loads at most. */
  const BatchSize: nat := 5

  /**
   The queue, the tiles whose loading_icon flag is set, and the pixbuf each
   tile shows (absent: still the placeholder set at construction).
   */
  datatype Loader = Loader(queue: seq<nat>, loading: set<nat>, shown: map<nat, Option<nat>>)

  /** The set of tiles in a queue. */
  function Queued(q: seq<nat>): set<nat> {
    set i | 0 <= i < |q| :: q[i]
  }

  /** No tile is queued twice. */
  predicate Distinct(q: seq<nat>) {
    forall i, j :: 0 <= i < j < |q| ==> q[i] != q[j]
  }

  /** Each tile is queued at most once, and its flag is set exactly while it is queued. */
  predicate Valid(l: Loader) {
    Distinct(l.queue) && l.loading == Queued(l.queue)
  }

  /** The empty queue of a fresh process. */
  const Initial := Loader([], {}, map[])

  /** taku_launcher_tile_style_set: a tile whose flag is clear joins the back of the queue and sets its flag. */
  function StyleSet(l: Loader, tile: nat): (r: Loader)
    requires Valid(l)
    ensures Valid(r) && r.shown == l.shown
    ensures tile in l.loading ==> r == l
    ensures tile !in l.loading ==> r.queue == l.queue + [tile] && r.loading == l.loading + {tile}
  {
    if tile in l.loading then l
    else
      var q := l.queue + [tile];
      assert Queued(q) == Queued(l.queue) + {tile} by {
        assert forall i :: 0 <= i < |l.queue| ==> q[i] == l.queue[i];
        assert q[|l.queue|] == tile;
      }
      Loader(q, l.loading + {tile}, l.shown)
  }

  /** The first k tiles taken off the queue: each shows its looked-up pixbuf and has its flag cleared. */
  function Take(l: Loader, lookup: nat -> Option<nat>, k: nat): (r: Loader)
    requires k <= |l.queue|
    decreases k
  {
    if k == 0 then l
    else
      var t := l.queue[0];
      Take(Loader(l.queue[1..], l.loading - {t}, l.shown[t := lookup(t)]), lookup, k - 1)
  }

  /** The tiles of a non-empty queue are its head and the tiles behind it. */
  lemma QueuedCons(q: seq<nat>)
    requires |q| > 0
    ensures Queued(q) == {q[0]} + Queued(q[1..])
  {
    assert forall i :: 0 <= i < |q[1..]| ==> q[1..][i] == q[i + 1];
  }

  /** In a queue without repeats the head is not among the tiles behind it. */
  lemma DistinctHead(q: seq<nat>)
    requires |q| > 0 && Distinct(q)
    ensures Distinct(q[1..]) && q[0] !in Queued(q[1..])
  {
  }

  /** Taking tiles off a valid queue keeps it valid and leaves exactly the rest queued. */
  lemma {:induction false} TakeQueue(l: Loader, lookup: nat -> Option<nat>, k: nat)
    requires Valid(l) && k <= |l.queue|
    ensures var r := Take(l, lookup, k);
            Valid(r) && r.queue == l.queue[k..] && r.loading == l.loading - Queued(l.queue[..k])
    decreases k
  {
    if k > 0 {
      var t := l.queue[0];
      var q := l.queue[1..];
      QueuedCons(l.queue);
      DistinctHead(l.queue);
      var l1 := Loader(q, l.loading - {t}, l.shown[t := lookup(t)]);
      TakeQueue(l1, lookup, k - 1);
      assert l.queue[..k][1..] == q[..k - 1];
      QueuedCons(l.queue[..k]);
      assert q[k - 1..] == l.queue[k..];
    }
  }

  /** Every tile taken off shows its looked-up pixbuf; every other tile keeps what it showed. */
  lemma {:induction false} TakeShown(l: Loader, lookup: nat -> Option<nat>, k: nat)
    requires k <= |l.queue|
    ensures var r := Take(l, lookup, k);
            r.shown.Keys == l.shown.Keys + Queued(l.queue[..k])
            && (forall t :: t in Queued(l.queue[..k]) ==> r.shown[t] == lookup(t))
            && (forall t :: t in l.shown && t !in Queued(l.queue[..k]) ==> r.shown[t] == l.shown[t])
    decreases k
  {
    if k > 0 {
      var t := l.queue[0];
      var q := l.queue[1..];
      var l1 := Loader(q, l.loading - {t}, l.shown[t := lookup(t)]);
      TakeShown(l1, lookup, k - 1);
      assert l.queue[..k][1..] == q[..k - 1];
      QueuedCons(l.queue[..k]);
    }
  }

  /** Both halves of what taking tiles off does. */
  lemma TakeSpec(l: Loader, lookup: nat -> Option<nat>, k: nat)
    requires Valid(l) && k <= |l.queue|
    ensures var r := Take(l, lookup, k);
            Valid(r) && r.queue == l.queue[k..]
            && r.loading == l.loading - Queued(l.queue[..k])
            && r.shown.Keys == l.shown.Keys + Queued(l.queue[..k])
            && (forall t :: t in Queued(l.queue[..k]) ==> r.shown[t] == lookup(t))
            && (forall t :: t in l.shown && t !in Queued(l.queue[..k]) ==> r.shown[t] == l.shown[t])
  {
    TakeQueue(l, lookup, k);
    TakeShown(l, lookup, k);
  }

  /**
   load_icon: loads up to BatchSize icons from the front of the queue, in
   order, clearing each tile's flag; it stops early, returning TRUE, when the
   queue runs dry, and always asks to be called again.
   */
  method LoadIcon(l: Loader, lookup: nat -> Option<nat>) returns (r: Loader, again: bool, loaded: seq<nat>)
    requires Valid(l)
    ensures again && Valid(r)
    ensures |l.queue| == 0 ==> r == l && |loaded| == 0
    ensures loaded == l.queue[..Min(BatchSize, |l.queue|)]
    ensures r.queue == l.queue[|loaded|..]
    ensures r.loading == l.loading - Queued(loaded)
    ensures forall t :: t in Queued(loaded) ==> t in r.shown && r.shown[t] == lookup(t)
    ensures forall t :: t in l.shown && t !in Queued(loaded) ==> t in r.shown && r.shown[t] == l.shown[t]
    ensures r == Take(l, lookup, |loaded|)
  {
    r := l;
    loaded := [];
    var i := 0;
    while i < BatchSize
      invariant 0 <= i <= BatchSize && i <= |l.queue|
      invariant loaded == l.queue[..i]
      invariant r == Take(l, lookup, i)
    {
      if |r.queue| == 0 {
        TakeSpec(l, lookup, i);
        return r, true, loaded;
      }
      TakeSpec(l, lookup, i);
      var t := r.queue[0];
      TakeStep(l, lookup, i);
      r := Loader(r.queue[1..], r.loading - {t}, r.shown[t := lookup(t)]);
      loaded := loaded + [t];
      i := i + 1;
    }
    TakeSpec(l, lookup, i);
    again := true;
  }

  /** Taking one more tile is taking the next one off what the first i left. */
  lemma {:induction false} TakeStep(l: Loader, lookup: nat -> Option<nat>, i: nat)
    requires i < |l.queue|
    ensures var p := Take(l, lookup, i);
            p.queue == l.queue[i..]
            && Take(l, lookup, i + 1)
               == Loader(p.queue[1..], p.loading - {l.queue[i]}, p.shown[l.queue[i] := lookup(l.queue[i])])
    decreases i
  {
    if i > 0 {
      var t := l.queue[0];
      TakeStep(Loader(l.queue[1..], l.loading - {t}, l.shown[t := lookup(t)]), lookup, i - 1);
      assert l.queue[1..][i - 1..] == l.queue[i..];
    }
  }

  /** One batch as a function of the queue: the result of load_icon. */
  function Batch(l: Loader, lookup: nat -> Option<nat>): (r: Loader)
    requires Valid(l)
    ensures Valid(r)
    ensures |l.queue| <= BatchSize ==> |r.queue| == 0
    ensures |l.queue| > 0 ==> |r.queue| < |l.queue|
    ensures |l.queue| == 0 ==> r == l
  {
    TakeSpec(l, lookup, Min(BatchSize, |l.queue|));
    Take(l, lookup, Min(BatchSize, |l.queue|))
  }

  /** Calling load_icon while the queue is non-empty, as the idle source does, until it is empty. */
  function Drain(l: Loader, lookup: nat -> Option<nat>): (r: Loader)
    requires Valid(l)
    ensures Valid(r) && |r.queue| == 0 && r.loading == {}
    decreases |l.queue|
  {
    if |l.queue| == 0 then l else Drain(Batch(l, lookup), lookup)
  }

  /** A tile that has been enqueued and drained shows its icon and can be enqueued again. */
  lemma StyleSetThenDrain(l: Loader, lookup: nat -> Option<nat>, tile: nat)
    requires Valid(l) && |l.queue| == 0
    ensures var r := Drain(StyleSet(l, tile), lookup);
            tile in r.shown && r.shown[tile] == lookup(tile) && tile !in r.loading
  {
    var s := StyleSet(l, tile);
    assert s.queue == [tile];
    TakeSpec(s, lookup, 1);
    assert Queued(s.queue[..1]) == {tile};
    assert Batch(s, lookup) == Take(s, lookup, 1);
  }

  /** A repeated style-set while the tile is queued queues nothing more. */
  lemma StyleSetIdempotent(l: Loader, tile: nat)
    requires Valid(l)
    ensures StyleSet(StyleSet(l, tile), tile) == StyleSet(l, tile)
  {
  }
}

=== FILE: launch.dfy ===
/**
 The single-instance branch of launcher_start (libtaku/launcher-util.c): the
 decision whether to launch at all. Activating a window, startup notification
 and g_spawn_async are foreign; the model returns which of them would run.
 */
module Launch {
  import opened Common
  import WindowProps

  /** What launcher_start ends up doing. */
  datatype LaunchAction =
    | AlreadyStarting          // a startup for this binary is pending: nothing happens
    | Activate(window: nat)    // the binary already has a window: it is raised instead
    | Spawn(argv: seq<string>) // a new process is started from the argument vector

  /**
   The decision of launcher_start. Only a single-instance launch reads argv[0]
   (for a zero-length vector the C code would read the terminating NULL); the
   startup list and the exec map are the contents of the two root-window
   properties at the time of the click.
   */
  function LaunchDecision(argv: seq<string>, singleInstance: bool,
                          startupList: WindowProps.Property, execMap: WindowProps.Property): (r: LaunchAction)
    requires singleInstance ==> |argv| > 0
    ensures !singleInstance ==> r == Spawn(argv)
    ensures r.Spawn? ==> r.argv == argv
    ensures r.AlreadyStarting? <==> singleInstance && WindowProps.IsStarting(startupList, argv[0])
    ensures r.Activate? <==> singleInstance && !WindowProps.IsStarting(startupList, argv[0])
                             && WindowProps.GetWindow(execMap, argv[0]).Some?
    ensures r.Activate? ==> r.window > 0
  {
    if singleInstance then
      if WindowProps.IsStarting(startupList, argv[0]) then AlreadyStarting
      else match WindowProps.GetWindow(execMap, argv[0])
        case Some(w) => Activate(w)
        case None => Spawn(argv)
    else Spawn(argv)
  }

  /**
   The decision as launcher_start is written: the exec map is read with the
   unsigned value check, so a negative registered id names a huge window.
   */
  function LaunchDecisionAsWritten(argv: seq<string>, singleInstance: bool,
                                   startupList: WindowProps.Property, execMap: WindowProps.Property): (r: LaunchAction)
    requires singleInstance ==> |argv| > 0
    ensures !singleInstance ==> r == Spawn(argv)
    ensures r.Spawn? ==> r.argv == argv
    ensures r.AlreadyStarting? <==> singleInstance && WindowProps.IsStarting(startupList, argv[0])
    ensures r.Activate? <==> singleInstance && !WindowProps.IsStarting(startupList, argv[0])
                             && WindowProps.GetWindowAsWritten(execMap, argv[0]).Some?
    ensures r.Activate? ==> 0 < r.window < WindowProps.ULongModulus
  {
    if singleInstance then
      if WindowProps.IsStarting(startupList, argv[0]) then AlreadyStarting
      else match WindowProps.GetWindowAsWritten(execMap, argv[0])
        case Some(w) => Activate(w)
        case None => Spawn(argv)
    else Spawn(argv)
  }

  /**
   The launch-level consequence of the unsigned check: with `bin=-n|` in the
   exec map and no startup pending, the code as written raises window
   2^64 - n, while the corrected decision starts the program.
   */
  lemma NegativeIdActivatesHugeWindow(argv: seq<string>, startupList: WindowProps.Property, n: nat)
    requires |argv| > 0 && '=' !in argv[0] && '\0' !in argv[0] && 0 < n < WindowProps.ULongModulus
    requires !WindowProps.IsStarting(startupList, argv[0])
    ensures var execMap := Some(WindowProps.EntryText(argv[0], "-" + WindowProps.DecimalString(n), ""));
            && LaunchDecisionAsWritten(argv, true, startupList, execMap) == Activate(WindowProps.ULongModulus - n)
            && LaunchDecision(argv, true, startupList, execMap) == Spawn(argv)
  {
    WindowProps.NegativeIdBecomesHugeWindow(argv[0], n);
  }

  /**
   With the binary registered in the exec map as window w (its first entry,
   written in decimal), and no startup pending, the launch raises w.
   */
  lemma RegisteredWindowIsActivated(argv: seq<string>, startupList: WindowProps.Property,
                                    entries: seq<(string, string)>, rest: string, k: nat, w: nat)
    requires |argv| > 0 && !WindowProps.IsStarting(startupList, argv[0])
    requires WindowProps.FirstKeyedAt(entries, argv[0], k)
    requires entries[k].1 == WindowProps.DecimalString(w) && w > 0
    requires '\0' !in rest
    ensures LaunchDecision(argv, true, startupList, Some(WindowProps.EncodeMap(entries) + rest)) == Activate(w)
  {
    WindowProps.GetWindowFindsFirst(entries, rest, argv[0], k, w);
  }

  /**
   A pending startup wins over a registered window, and the substring test
   means a pending startup of any binary whose name contains this one's counts.
   */
  lemma PendingStartupBlocksLaunch(argv: seq<string>, before: string, after: string, execMap: WindowProps.Property)
    requires |argv| > 0 && '\0' !in before + argv[0] + after
    ensures LaunchDecision(argv, true, Some(before + argv[0] + after), execMap) == AlreadyStarting
  {
    WindowProps.IsStartingMatchesSubstrings(before, argv[0], after);
  }
}

=== FILE: legacy_main.dfy ===
/**
 The legacy desktop's start-up (main.c): three tables named "other",
 "office" and "settings", and load_data_dir, which puts a tile for every
 .desktop file of a data directory's applications folder into one of them,
 chosen by a fixed test on the entry's Categories string. Building a tile
 from a file is foreign: `tileFor` gives, for a file name, no tile or a tile
 with its Categories string (None for NULL). Directory listing is I/O: a
 listing is given, or None when the folder is missing or unreadable.
 */
module LegacyMain {
  import opened Common

  const Other := "other"
  const Office := "office"
  const Settings := "settings"

  /** The tables main creates before loading anything. */
  const DefaultTables: set<string> := {Other, Office, Settings}

  /** The tags the classifier looks for, with the separators on both sides that it demands. */
  const OfficeTag := ";Office;"
  const SettingsTag := ";Settings;"

  /**
   The table a tile goes to: "office" when the Categories string holds
   ";Office;", else "settings" when it holds ";Settings;", else "other"; a
   NULL string is read as empty.
   */
  function TableFor(categories: Option<string>): (r: string)
    ensures r in DefaultTables
    ensures r == Office <==> categories.Some? && Contains(categories.value, OfficeTag)
    ensures r == Settings <==> categories.Some? && !Contains(categories.value, OfficeTag)
                               && Contains(categories.value, SettingsTag)
    ensures r == Other <==> categories.None? || (!Contains(categories.value, OfficeTag)
                                                 && !Contains(categories.value, SettingsTag))
  {
    var c := if categories.Some? then categories.value else "";
    if Contains(c, OfficeTag) then Office
    else if Contains(c, SettingsTag) then Settings
    else Other
  }

  /** A string too short to hold ";Office;" goes to "other": a lone leading tag such as "Office;" never matches. */
  lemma ShortCategoriesAreOther(categories: string)
    requires |categories| < |OfficeTag|
    ensures TableFor(Some(categories)) == Other
  {
  }

  /** A string without any ';' cannot hold a tag with separators on both sides. */
  lemma NoSeparatorIsOther(categories: string)
    requires ';' !in categories
    ensures TableFor(Some(categories)) == Other
  {
    forall i | 0 <= i < |categories| ensures !OccursAt(categories, OfficeTag, i) && !OccursAt(categories, SettingsTag, i) {
      assert OfficeTag[0] == ';' && SettingsTag[0] == ';';
    }
  }

  /** Where a tile is put: the file it came from and the table's name. */
  datatype Placement = Placement(filename: string, table: string)

  /**
   One directory entry: names without the .desktop suffix are skipped, a file
   that yields no tile is skipped, and a tile whose table is missing is
   skipped with a warning.
   */
  function PlaceEntry(directory: string, name: string, tileFor: string -> Option<Option<string>>,
                      tables: set<string>): (r: Option<Placement>)
    ensures r.Some? <==> HasSuffix(name, DesktopSuffix) && tileFor(BuildFilename(directory, name)).Some?
                         && TableFor(tileFor(BuildFilename(directory, name)).value) in tables
    ensures r.Some? ==> r.value.filename == BuildFilename(directory, name)
                        && r.value.table == TableFor(tileFor(BuildFilename(directory, name)).value)
  {
    if !HasSuffix(name, DesktopSuffix) then None
    else
      var filename := BuildFilename(directory, name);
      match tileFor(filename)
      case None => None
      case Some(categories) =>
        var table := TableFor(categories);
        if table in tables then Some(Placement(filename, table)) else None
  }

  /** The placements of a listing, in listing order. */
  function PlaceAll(directory: string, names: seq<string>, tileFor: string -> Option<Option<string>>,
                    tables: set<string>): (r: seq<Placement>)
    ensures |r| <= |names|
    ensures forall p :: p in r <==> exists n :: n in names && PlaceEntry(directory, n, tileFor, tables) == Some(p)
    decreases |names|
  {
    if |names| == 0 then []
    else
      var rest := PlaceAll(directory, names[1..], tileFor, tables);
      assert forall n :: n in names <==> n == names[0] || n in names[1..];
      match PlaceEntry(directory, names[0], tileFor, tables)
      case None => rest
      case Some(p) => [p] + rest
  }

  /** load_data_dir: the entries of `datadir`/applications, or nothing when that is not a readable directory. */
  function LoadDataDir(datadir: string, listing: Option<seq<string>>, tileFor: string -> Option<Option<string>>,
                       tables: set<string>): (r: seq<Placement>)
    ensures listing.None? ==> r == []
    ensures forall p :: p in r ==> p.table in tables && HasSuffix(p.filename, DesktopSuffix)
  {
    match listing
    case None => []
    case Some(names) =>
      var directory := BuildFilename(datadir, "applications");
      var r := PlaceAll(directory, names, tileFor, tables);
      forall p | p in r ensures p.table in tables && HasSuffix(p.filename, DesktopSuffix) {
        var n :| n in names && PlaceEntry(directory, n, tileFor, tables) == Some(p);
        FilenameKeepsSuffix(directory, n);
      }
      r
  }

  /** Joining a directory and a name keeps the name's suffix. */
  lemma FilenameKeepsSuffix(directory: string, name: string)
    requires HasSuffix(name, DesktopSuffix)
    ensures HasSuffix(BuildFilename(directory, name), DesktopSuffix)
  {
    var f := BuildFilename(directory, name);
    assert f[|f| - |DesktopSuffix|..] == name[|name| - |DesktopSuffix|..];
  }

  /** With the three tables main creates, every .desktop file that yields a tile is placed. */
  lemma DefaultTablesPlaceEveryTile(directory: string, names: seq<string>, tileFor: string -> Option<Option<string>>,
                                    n: string)
    requires n in names && HasSuffix(n, DesktopSuffix) && tileFor(BuildFilename(directory, n)).Some?
    ensures exists p :: p in PlaceAll(directory, names, tileFor, DefaultTables) && p.filename == BuildFilename(directory, n)
  {
    var p := PlaceEntry(directory, n, tileFor, DefaultTables).value;
    assert p in PlaceAll(directory, names, tileFor, DefaultTables);
  }
}

=== FILE: legacy_table.dfy ===
/**
 The grid container of the legacy desktop (taku-table.c): icon tiles kept in
 a sequence sorted by collation of their primary text and laid out row by
 row in a fixed number of columns, with invisible dummy cells padding a short
 first row. Tiles are named by their addresses, which are distinct; the
 collation of a tile's primary text is strcmp on an abstract collation key
 `key`, as g_utf8_collate_key promises. GtkTable's own packing, the focus
 scrolling and the font metrics beyond the approximate character width are
 GTK and Pango and are not modelled.
 */
module LegacyTable {
  import opened Common

  /** A grid position: column and row. */
  datatype Cell = Cell(x: int, y: int)

  /**
   The table: visibility, the reflowing flag, the column count, the tiles in
   sequence order, where each attached tile sits and the dummy cells.
   */
  datatype Table = Table(visible: bool, reflowing: bool, columns: int,
                         children: seq<nat>, layout: map<nat, Cell>, dummies: seq<Cell>)

  /** The column count of a new table. */
  const InitialColumns: int := 2

  /** A new table: two columns, no tiles. */
  function NewTable(visible: bool): (r: Table)
    ensures Valid(r) && r.columns == InitialColumns && |r.children| == 0
  {
    Table(visible, false, InitialColumns, [], map[], [])
  }

  /** No tile is in the sequence twice. */
  predicate Distinct(s: seq<nat>) {
    forall i, j :: 0 <= i < j < |s| ==> s[i] != s[j]
  }

  /** At least one column, distinct tiles, and exactly the tiles of the sequence attached. */
  predicate Valid(t: Table) {
    t.columns >= 1 && Distinct(t.children) && t.layout.Keys == (set w | w in t.children)
  }

  // ---------------------------------------------------------------------------
  // Reflow
  // ---------------------------------------------------------------------------

  /** Cell c is where the k-th tile goes in a grid of `cols` columns, filled row by row. */
  predicate At(c: Cell, k: int, cols: int) {
    0 <= c.x < cols && 0 <= c.y && c.y * cols + c.x == k
  }

  /** reflow_foreach's step: the next column, or the start of the next row after the last column. */
  function NextCell(c: Cell, cols: int): Cell {
    if c.x + 1 >= cols then Cell(0, c.y + 1) else Cell(c.x + 1, c.y)
  }

  /** Stepping from the k-th tile's cell reaches the (k+1)-th tile's cell. */
  lemma AtNext(c: Cell, k: int, cols: int)
    requires cols >= 1 && At(c, k, cols)
    ensures At(NextCell(c, cols), k + 1, cols)
  {
    RowStep(c.y, cols);
  }

  /** Before a whole row is filled, the cell is in the first row at the tile's index. */
  lemma AtFirstRow(c: Cell, k: int, cols: int)
    requires cols >= 1 && At(c, k, cols) && k < cols
    ensures c == Cell(k, 0)
  {
    if c.y > 0 {
      RowsApart(0, c.y, cols);
    }
  }

  /** One more row is one more row's width. */
  lemma RowStep(a: int, cols: int)
    ensures a * cols + cols == (a + 1) * cols
  {
  }

  /** A later row starts at least a whole row further on. */
  lemma {:induction false} RowsApart(a: int, b: int, cols: int)
    requires cols >= 1 && a < b
    ensures a * cols + cols <= b * cols
    decreases b - a
  {
    RowStep(a, cols);
    if a + 1 < b {
      RowsApart(a + 1, b, cols);
    }
  }

  /** Each tile index has one cell. */
  lemma AtUnique(c1: Cell, c2: Cell, k: int, cols: int)
    requires cols >= 1 && At(c1, k, cols) && At(c2, k, cols)
    ensures c1 == c2
  {
    if c1.y < c2.y {
      RowsApart(c1.y, c2.y, cols);
    } else if c2.y < c1.y {
      RowsApart(c2.y, c1.y, cols);
    }
  }

  /** The row-by-row position of the k-th tile is column k mod cols, row k div cols. */
  lemma AtIsDivMod(c: Cell, k: int, cols: int)
    requires cols >= 1 && At(c, k, cols)
    ensures c == Cell(k % cols, k / cols)
  {
    if c.y > 0 {
      RowsApart(0, c.y, cols);
    }
    assert k >= 0;
    var d := Cell(k % cols, k / cols);
    assert k == d.y * cols + d.x;
    if d.y < 0 {
      RowsApart(d.y, 0, cols);
      assert false;
    }
    AtUnique(c, d, k, cols);
  }

  /**
   reflow: nothing while the table is invisible; otherwise the old dummies go,
   the k-th tile of the sequence is placed at column k mod columns, row k div
   columns, and a first row shorter than the column count is padded with
   dummies after the last tile.
   */
  method Reflow(t: Table) returns (r: Table)
    requires Valid(t)
    ensures !t.visible ==> r == t
    ensures Valid(r) && r.visible == t.visible && r.columns == t.columns && r.children == t.children
    ensures t.visible ==> !r.reflowing
    ensures t.visible ==> forall k :: 0 <= k < |t.children| ==> At(r.layout[t.children[k]], k, t.columns)
    ensures t.visible ==> |r.dummies| == Max(0, t.columns - |t.children|)
    ensures t.visible ==> forall c :: c in r.dummies <==> c.y == 0 && |t.children| <= c.x < t.columns
  {
    if !t.visible {
      return t;
    }
    var cols, n := t.columns, |t.children|;
    var c := Cell(0, 0);
    var layout := t.layout;
    var i := 0;
    while i < n
      invariant 0 <= i <= n && At(c, i, cols)
      invariant layout.Keys == t.layout.Keys
      invariant forall k :: 0 <= k < i ==> At(layout[t.children[k]], k, cols)
    {
      layout := layout[t.children[i] := c];
      forall k | 0 <= k < i ensures At(layout[t.children[k]], k, cols) {
        assert t.children[k] != t.children[i];
      }
      AtNext(c, i, cols);
      c := NextCell(c, cols);
      i := i + 1;
    }
    if n < cols {
      AtFirstRow(c, n, cols);
    }
    var dummies: seq<Cell> := [];
    var j := n;
    while j < cols
      invariant n < cols ==> n <= j <= cols && c == Cell(j, 0)
      invariant n >= cols ==> j == n
      invariant |dummies| == j - n
      invariant forall d :: d in dummies <==> d.y == 0 && n <= d.x < j
    {
      dummies := [c] + dummies;
      c := c.(x := c.x + 1);
      j := j + 1;
    }
    r := Table(t.visible, false, cols, t.children, layout, dummies);
  }

  /** No two tiles share a cell, and no dummy covers a tile. */
  lemma CellsDisjoint(c1: Cell, k1: int, c2: Cell, k2: int, cols: int, n: int)
    requires cols >= 1 && At(c1, k1, cols) && At(c2, k2, cols)
    ensures k1 != k2 ==> c1 != c2
    ensures 0 <= k1 < n ==> !(c1.y == 0 && n <= c1.x < cols)
  {
    if c1.y > 0 {
      assert c1.y * cols >= cols;
    }
  }

  // ---------------------------------------------------------------------------
  // The column count
  // ---------------------------------------------------------------------------

  /** PANGO_PIXELS: Pango units (1/1024 pixel) to the nearest pixel, by an arithmetic shift. */
  function PangoPixels(d: int): (r: int)
    ensures r * 1024 - 512 <= d < r * 1024 + 512
  {
    (d + 512) / 1024
  }

  /** The width of a cell: 25 approximate characters, in pixels. */
  function CellWidth(charWidth: int): int {
    PangoPixels(25 * charWidth)
  }

  /**
   calculate_columns: nothing while invisible, while reflowing or before a
   real width is allocated; otherwise as many whole cells as fit, at least
   one, with a reflow only when that count changes. A cell width of zero
   would divide by zero: the font must be at least that wide.
   */
  method CalculateColumns(t: Table, width: int, charWidth: int) returns (r: Table)
    requires Valid(t)
    requires t.visible && !t.reflowing && width > 1 ==> CellWidth(charWidth) > 0
    ensures Valid(r) && r.children == t.children
    ensures !t.visible || t.reflowing || width <= 1 ==> r == t
    ensures t.visible && !t.reflowing && width > 1 ==>
              var cell := CellWidth(charWidth);
              r.columns >= 1 && (r.columns == 1 || r.columns * cell <= width < (r.columns + 1) * cell)
              && (width >= cell ==> r.columns * cell <= width < (r.columns + 1) * cell)
    ensures r.columns == t.columns ==> r == t
    ensures r.columns != t.columns ==> forall k :: 0 <= k < |r.children| ==> At(r.layout[r.children[k]], k, r.columns)
  {
    if !t.visible || t.reflowing || width <= 1 {
      return t;
    }
    var cell := CellWidth(charWidth);
    var newCols := Max(1, width / cell);
    if t.columns != newCols {
      r := Reflow(t.(columns := newCols));
    } else {
      r := t;
    }
  }

  // ---------------------------------------------------------------------------
  // The sorted sequence
  // ---------------------------------------------------------------------------

  /** g_utf8_collate of two tiles' primary texts, as strcmp of their collation keys. */
  function Collate(key: nat -> string, a: nat, b: nat): int {
    Strcmp(key(a), key(b))
  }

  /** The sequence is sorted by collation. */
  predicate Sorted(s: seq<nat>, key: nat -> string) {
    forall i, j :: 0 <= i < j < |s| ==> Collate(key, s[i], s[j]) <= 0
  }

  /**
   The positions a search down the sequence's balanced tree can report for a
   test `le` (element at most the needle): an element that passes just before
   it, one that fails just at it. Which one is reported depends on the tree's
   shape; when `le` holds on a prefix there is only one.
   */
  predicate Boundary(s: seq<nat>, le: nat -> bool, p: int) {
    0 <= p <= |s| && (p == 0 || le(s[p - 1])) && (p == |s| || !le(s[p]))
  }

  /** When the test holds on a prefix of the sequence, the boundary is the length of that prefix. */
  lemma MonotoneBoundary(s: seq<nat>, le: nat -> bool, p: int)
    requires forall i, j :: 0 <= i < j < |s| && le(s[j]) ==> le(s[i])
    requires Boundary(s, le, p)
    ensures forall i :: 0 <= i < p ==> le(s[i])
    ensures forall i :: p <= i < |s| ==> !le(s[i])
  {
  }

  /** The position after every tile that collates at or before `w`. */
  function InsertPos(s: seq<nat>, key: nat -> string, w: nat): (p: nat)
    ensures p <= |s|
    ensures forall i :: 0 <= i < p ==> Collate(key, s[i], w) <= 0
    ensures p < |s| ==> Collate(key, s[p], w) > 0
    decreases |s|
  {
    if |s| == 0 || Collate(key, s[0], w) > 0 then 0
    else 1 + InsertPos(s[1..], key, w)
  }

  /** A string strictly below one that is at most a third is strictly below the third. */
  lemma StrcmpBelowAtMost(a: string, b: string, c: string)
    requires Strcmp(a, b) < 0 && Strcmp(b, c) <= 0
    ensures Strcmp(a, c) < 0
  {
    StrcmpZero(b, c);
    if Strcmp(b, c) < 0 {
      StrcmpTransitive(a, b, c);
    }
  }

  /** The sequence with `w` inserted at position p, element by element. */
  function Inserted(s: seq<nat>, p: nat, w: nat): (r: seq<nat>)
    requires p <= |s|
    ensures |r| == |s| + 1 && r[p] == w && multiset(r) == multiset(s) + multiset{w}
    ensures forall k :: 0 <= k < p ==> r[k] == s[k]
    ensures forall k :: p < k < |r| ==> r[k] == s[k - 1]
  {
    assert s == s[..p] + s[p..];
    s[..p] + [w] + s[p..]
  }

  /** In a sorted sequence every tile from the insertion point on collates after `w`. */
  lemma AfterInsertPos(s: seq<nat>, key: nat -> string, w: nat)
    requires Sorted(s, key)
    ensures forall i :: InsertPos(s, key, w) <= i < |s| ==> Collate(key, s[i], w) > 0
  {
    var p := InsertPos(s, key, w);
    forall i | p < i < |s| ensures Collate(key, s[i], w) > 0 {
      StrcmpAntisymmetric(key(s[p]), key(w));
      StrcmpBelowAtMost(key(w), key(s[p]), key(s[i]));
      StrcmpAntisymmetric(key(s[i]), key(w));
    }
  }

  /** Inserting at the insertion point keeps the sequence sorted. */
  lemma InsertedSorted(s: seq<nat>, key: nat -> string, w: nat)
    requires Sorted(s, key)
    ensures Sorted(Inserted(s, InsertPos(s, key, w), w), key)
  {
    var p := InsertPos(s, key, w);
    var r := Inserted(s, p, w);
    AfterInsertPos(s, key, w);
    forall i, j | 0 <= i < j < |r| ensures Collate(key, r[i], r[j]) <= 0 {
      if i == p {
        StrcmpAntisymmetric(key(s[j - 1]), key(w));
      } else if i < p && j > p {
        assert r[i] == s[i] && r[j] == s[j - 1];
      } else if i > p {
        assert r[i] == s[i - 1] && r[j] == s[j - 1];
      }
    }
  }

  /** Inserting a tile not yet in a sequence without repeats keeps it without repeats. */
  lemma InsertedDistinct(s: seq<nat>, p: nat, w: nat)
    requires p <= |s| && Distinct(s) && w !in s
    ensures Distinct(Inserted(s, p, w))
    ensures (set v | v in Inserted(s, p, w)) == (set v | v in s) + {w}
  {
    var r := Inserted(s, p, w);
    forall i, j | 0 <= i < j < |r| ensures r[i] != r[j] {
      if i < p && j > p {
        assert r[j] == s[j - 1];
      } else if i > p {
        assert r[i] == s[i - 1] && r[j] == s[j - 1];
      }
    }
    assert forall v :: v in r <==> v in s || v == w by {
      assert forall v :: v in multiset(r) <==> v in multiset(s) || v == w;
    }
  }

  /**
   egg_sequence_insert_sorted: in a sorted sequence the new tile goes after
   every tile collating at or before it and before every tile collating after
   it; that place is the only one the tree search can report.
   */
  function InsertSorted(s: seq<nat>, key: nat -> string, w: nat): (r: seq<nat>)
    requires Sorted(s, key)
    ensures Sorted(r, key)
    ensures |r| == |s| + 1 && multiset(r) == multiset(s) + multiset{w}
    ensures var p := InsertPos(s, key, w);
            r == Inserted(s, p, w)
            && Boundary(s, (e: nat) => Collate(key, e, w) <= 0, p)
            && (forall i :: p <= i < |s| ==> Collate(key, s[i], w) > 0)
  {
    AfterInsertPos(s, key, w);
    InsertedSorted(s, key, w);
    Inserted(s, InsertPos(s, key, w), w)
  }

  /**
   container_add: the tile joins the sorted sequence in collation order, after
   any tiles that collate equal, is attached at the origin and the table
   reflows.
   */
  method ContainerAdd(t: Table, key: nat -> string, w: nat) returns (r: Table)
    requires Valid(t) && Sorted(t.children, key) && w !in t.children
    ensures Valid(r) && Sorted(r.children, key) && r.columns == t.columns
    ensures r.children == InsertSorted(t.children, key, w)
    ensures !t.visible ==> r.layout[w] == Cell(0, 0)
    ensures t.visible ==> forall k :: 0 <= k < |r.children| ==> At(r.layout[r.children[k]], k, r.columns)
  {
    var s := InsertSorted(t.children, key, w);
    InsertedDistinct(t.children, InsertPos(t.children, key, w), w);
    r := Reflow(t.(children := s, layout := t.layout[w := Cell(0, 0)]));
  }

  // ---------------------------------------------------------------------------
  // Removal
  // ---------------------------------------------------------------------------

  /** The search's test in container_remove: an element at most the widget by address. */
  function AtMostAddress(w: nat): nat -> bool {
    (e: nat) => e <= w
  }

  /**
   The position container_remove removes, as written: the search reports a
   boundary p for the address test, the iterator steps back one place (the
   first position stays put), and the tile there is removed only if it is the
   widget.
   */
  function RemoveTargetAsWritten(s: seq<nat>, w: nat, p: int): (r: Option<nat>)
    requires Boundary(s, AtMostAddress(w), p)
    ensures r.Some? ==> r.value < |s| && s[r.value] == w
    ensures w !in s ==> r.None?
  {
    var q := if p == 0 then 0 else p - 1;
    if q < |s| && s[q] == w then Some(q) else None
  }

  /** The position container_remove should remove: the widget's own, if it is in the sequence. */
  function RemoveTarget(s: seq<nat>, w: nat): (r: Option<nat>)
    ensures r.Some? <==> w in s
    ensures r.Some? ==> r.value < |s| && s[r.value] == w
  {
    if w in s then Some(FirstIndex(s, w)) else None
  }

  /** On a sequence that happened to be sorted by address, the search as written finds the widget. */
  lemma AddressSortedRemoves(s: seq<nat>, w: nat, p: int)
    requires forall i, j :: 0 <= i < j < |s| ==> s[i] < s[j]
    requires Boundary(s, AtMostAddress(w), p)
    ensures RemoveTargetAsWritten(s, w, p) == RemoveTarget(s, w)
  {
    if w in s {
      var k := FirstIndex(s, w);
      assert AtMostAddress(w)(s[k]);
    }
  }

  /**
   The widget with the greatest address is never found unless it also sorts
   last: every element passes the address test, so the search reports the
   end and the step back lands on the last tile.
   */
  lemma GreatestAddressNotRemoved(s: seq<nat>, w: nat, p: int)
    requires Distinct(s) && w in s && s[|s| - 1] != w
    requires forall i :: 0 <= i < |s| ==> s[i] <= w
    requires Boundary(s, AtMostAddress(w), p)
    ensures RemoveTargetAsWritten(s, w, p).None?
    ensures RemoveTarget(s, w).Some?
  {
    assert p == |s|;
  }

  /** Two tiles whose collation order is the reverse of their address order: the first cannot be removed. */
  lemma TwoTileCounterexample(p: int)
    requires Boundary([2, 1], AtMostAddress(2), p)
    ensures RemoveTargetAsWritten([2, 1], 2, p).None?
    ensures RemoveTarget([2, 1], 2) == Some(0)
  {
    GreatestAddressNotRemoved([2, 1], 2, p);
  }

  /** Dropping a tile from a sequence without repeats drops it entirely. */
  lemma WithoutDistinct(s: seq<nat>, i: nat)
    requires i < |s| && Distinct(s)
    ensures Distinct(Without(s, i)) && s[i] !in Without(s, i)
    ensures (set v | v in Without(s, i)) == (set v | v in s) - {s[i]}
  {
    var r := Without(s, i);
    WithoutMultiset(s, i);
    forall a, b | 0 <= a < b < |r| ensures r[a] != r[b] {
      assert r[a] == s[if a < i then a else a + 1];
      assert r[b] == s[if b < i then b else b + 1];
    }
    forall k | 0 <= k < |r| ensures r[k] != s[i] {
      assert r[k] == s[if k < i then k else k + 1];
    }
    assert forall v :: v in r <==> v in multiset(s) - multiset{s[i]};
  }

  /** Removing the tile at position i: the sequence loses it, the grid detaches it, and the table reflows. */
  method RemoveAt(t: Table, i: nat) returns (r: Table)
    requires Valid(t) && i < |t.children|
    ensures Valid(r) && r.columns == t.columns
    ensures r.children == Without(t.children, i)
    ensures multiset(r.children) == multiset(t.children) - multiset{t.children[i]}
    ensures t.children[i] !in r.children
    ensures t.visible ==> forall k :: 0 <= k < |r.children| ==> At(r.layout[r.children[k]], k, r.columns)
  {
    WithoutDistinct(t.children, i);
    WithoutMultiset(t.children, i);
    r := Reflow(t.(children := Without(t.children, i), layout := t.layout - {t.children[i]}));
  }

  /** container_remove as written: removes the widget only where the address search happens to find it. */
  method ContainerRemoveAsWritten(t: Table, w: nat, p: int) returns (r: Table)
    requires Valid(t) && Boundary(t.children, AtMostAddress(w), p)
    ensures Valid(r)
    ensures RemoveTargetAsWritten(t.children, w, p).None? ==> r == t
    ensures RemoveTargetAsWritten(t.children, w, p).Some? ==>
              w !in r.children && multiset(r.children) == multiset(t.children) - multiset{w}
  {
    match RemoveTargetAsWritten(t.children, w, p)
    case None => r := t;
    case Some(i) =>
      r := RemoveAt(t, i);
  }

  /**
   container_remove with the widget looked up by identity: a tile of the
   sequence is removed, whatever its address, and anything else is ignored.
   */
  method ContainerRemove(t: Table, w: nat) returns (r: Table)
    requires Valid(t)
    ensures Valid(r) && r.columns == t.columns
    ensures w !in t.children ==> r == t
    ensures w !in r.children
    ensures multiset(r.children) == multiset(t.children) - multiset{w}
    ensures t.visible && w in t.children ==> forall k :: 0 <= k < |r.children| ==> At(r.layout[r.children[k]], k, r.columns)
  {
    match RemoveTarget(t.children, w)
    case None => r := t;
    case Some(i) =>
      r := RemoveAt(t, i);
  }
}

=== FILE: tiles.dfy ===
/**
 The tile widgets of libtaku: the click state machine and the overridable
 keys of taku-tile.c, the keys of the icon tile (taku-icon-tile.c) and the
 group list of the launcher tile (taku-launcher-tile.c). Drawing, styling and
 focus handling belong to GTK; a launcher tile's menu item is identified by
 its path, which the catalog keeps unique.
 */
module Tiles {
  import opened Common
  import DesktopEntry

  /** The class of a tile: which of the virtual methods are overridden. */
  datatype TileClass =
    | PlainTile     // TakuTile itself: no overrides
    | IconTile      // TakuIconTile: sort and search keys
    | LauncherTile  // TakuLauncherTile: an icon tile that also filters by group

  /**
   A tile. `primary` is the text of the primary label (a NULL text shows as the
   empty string); `collationKey` is absent exactly when the primary text was
   set to NULL; `groups` are category positions, most recently added first.
   */
  datatype Tile = Tile(
    cls: TileClass,
    inTile: bool,
    primary: string,
    secondary: string,
    collationKey: Option<string>,
    item: Option<string>,
    groups: seq<nat>)

  /** A fresh tile of the given class: the pointer is outside, no text, no groups. */
  function NewTile(cls: TileClass): (r: Tile)
    ensures r.cls == cls && !r.inTile && r.collationKey.None? && r.item.None? && |r.groups| == 0
  {
    Tile(cls, false, "", "", None, None, [])
  }

  // ---------------------------------------------------------------------------
  // Pointer handling
  // ---------------------------------------------------------------------------

  /** What a handler reports: whether the event was consumed, whether "clicked" fired and focus was grabbed. */
  datatype Reaction = Reaction(handled: bool, clicked: bool, grabsFocus: bool)

  /** enter-notify: the pointer is now inside; the event is consumed. */
  function Enter(t: Tile): (r: (Tile, bool))
    ensures r.0.inTile && r.1
    ensures r.0.(inTile := t.inTile) == t
  {
    (t.(inTile := true), true)
  }

  /** leave-notify: the pointer is now outside; the event is consumed. */
  function Leave(t: Tile): (r: (Tile, bool))
    ensures !r.0.inTile && r.1
    ensures r.0.(inTile := t.inTile) == t
  {
    (t.(inTile := false), true)
  }

  /** button-release: a release of button 1 inside the tile grabs focus and clicks; every release is consumed. */
  function Release(t: Tile, button: int): (r: Reaction)
    ensures r.handled
    ensures r.clicked <==> button == 1 && t.inTile
    ensures r.grabsFocus <==> r.clicked
  {
    var hit := button == 1 && t.inTile;
    Reaction(true, hit, hit)
  }

  /** The default activate handler (return or space on a focused tile) clicks, wherever the pointer is. */
  function RealActivate(t: Tile): (r: Reaction)
    ensures r.clicked && !r.grabsFocus
  {
    Reaction(false, true, false)
  }

  /** The events a tile reacts to. */
  datatype TileEvent = EnterEvent | LeaveEvent | ReleaseEvent(button: int) | ActivateEvent

  /** One event: the tile after it and whether "clicked" fired. */
  function Step(t: Tile, e: TileEvent): (Tile, bool) {
    match e
    case EnterEvent => (Enter(t).0, false)
    case LeaveEvent => (Leave(t).0, false)
    case ReleaseEvent(b) => (t, Release(t, b).clicked)
    case ActivateEvent => (t, RealActivate(t).clicked)
  }

  /** A run of events from the first to the last: the tile after it and the number of clicks. */
  function Run(t: Tile, events: seq<TileEvent>): (r: (Tile, nat))
    ensures r.0.(inTile := t.inTile) == t
    decreases |events|
  {
    if |events| == 0 then (t, 0)
    else
      var (t1, c) := Step(t, events[0]);
      var (t2, n) := Run(t1, events[1..]);
      (t2, n + if c then 1 else 0)
  }

  /** Whether the pointer is inside after `events`: the last crossing event decides, else the start. */
  ghost function InsideAfter(start: bool, events: seq<TileEvent>): bool
    decreases |events|
  {
    if |events| == 0 then start
    else match events[|events| - 1]
      case EnterEvent => true
      case LeaveEvent => false
      case _ => InsideAfter(start, events[..|events| - 1])
  }

  /** The clicks a run should produce: activations, and button-1 releases while inside. */
  ghost function ClicksIn(start: bool, events: seq<TileEvent>): nat
    decreases |events|
  {
    if |events| == 0 then 0
    else
      var prefix := events[..|events| - 1];
      var e := events[|events| - 1];
      ClicksIn(start, prefix)
        + if e.ActivateEvent? || (e == ReleaseEvent(1) && InsideAfter(start, prefix)) then 1 else 0
  }

  /** Running a longer sequence is running the prefix, then the last event. */
  lemma {:induction false} RunSnoc(t: Tile, events: seq<TileEvent>, e: TileEvent)
    ensures var (t1, n) := Run(t, events);
            var (t2, c) := Step(t1, e);
            Run(t, events + [e]) == (t2, n + if c then 1 else 0)
    decreases |events|
  {
    if |events| == 0 {
      assert events + [e] == [e];
    } else {
      assert (events + [e])[1..] == events[1..] + [e];
      RunSnoc(Step(t, events[0]).0, events[1..], e);
    }
  }

  /**
   A tile clicks once for every activation and for every button-1 release
   that comes after an enter with no leave in between (or, with no crossing
   event yet, while it started inside); the pointer state is that of the
   last crossing event.
   */
  lemma {:induction false} RunCountsClicks(t: Tile, events: seq<TileEvent>)
    ensures Run(t, events).0.inTile == InsideAfter(t.inTile, events)
    ensures Run(t, events).1 == ClicksIn(t.inTile, events)
    decreases |events|
  {
    if |events| > 0 {
      var prefix := events[..|events| - 1];
      var e := events[|events| - 1];
      assert events == prefix + [e];
      RunCountsClicks(t, prefix);
      RunSnoc(t, prefix, e);
    }
  }

  /** Moving out of a tile and releasing there never clicks, whatever came before. */
  lemma LeaveThenReleaseNoClick(t: Tile, before: seq<TileEvent>)
    ensures Run(t, before + [LeaveEvent, ReleaseEvent(1)]).1 == Run(t, before).1
  {
    RunCountsClicks(t, before + [LeaveEvent, ReleaseEvent(1)]);
    RunCountsClicks(t, before);
    assert (before + [LeaveEvent, ReleaseEvent(1)])[..|before| + 1] == before + [LeaveEvent];
    assert (before + [LeaveEvent])[..|before|] == before;
  }

  // ---------------------------------------------------------------------------
  // Keys and filtering
  // ---------------------------------------------------------------------------

  /**
   taku_icon_tile_set_primary: the label shows the text (the empty string for
   NULL) and the collation key is recomputed from it, or cleared for NULL.
   Case folding and g_utf8_collate_key are the locale's: `collate` stands for both.
   */
  function SetPrimary(t: Tile, text: Option<string>, collate: string -> string): (r: Tile)
    ensures r.primary == (if text.Some? then text.value else "")
    ensures r.collationKey.Some? <==> text.Some?
    ensures text.Some? ==> r.collationKey.value == collate(text.value)
    ensures r.(primary := t.primary, collationKey := t.collationKey) == t
  {
    match text
    case None => t.(primary := "", collationKey := None)
    case Some(s) => t.(primary := s, collationKey := Some(collate(s)))
  }

  /** taku_tile_get_sort_key: NULL without an override; an icon tile's collation key otherwise. */
  function SortKey(t: Tile): (r: Option<string>)
    ensures t.cls.PlainTile? ==> r.None?
    ensures !t.cls.PlainTile? ==> r == t.collationKey
  {
    if t.cls.PlainTile? then None else t.collationKey
  }

  /** taku_tile_get_search_key: NULL without an override; an icon tile's primary text otherwise. */
  function SearchKey(t: Tile): (r: Option<string>)
    ensures t.cls.PlainTile? <==> r.None?
    ensures r.Some? ==> r.value == t.primary
  {
    if t.cls.PlainTile? then None else Some(t.primary)
  }

  /**
   The keys of an icon or launcher tile follow its primary text: sorted by the
   collation key of the text (none for NULL), searched by the text itself; a
   plain tile has neither key, whatever its text.
   */
  lemma KeysFollowPrimary(t: Tile, text: Option<string>, collate: string -> string)
    ensures var r := SetPrimary(t, text, collate);
            if t.cls.PlainTile? then SortKey(r).None? && SearchKey(r).None?
            else (SortKey(r).None? <==> text.None?)
                 && (text.Some? ==> SortKey(r) == Some(collate(text.value)) && SearchKey(r) == text)
                 && (text.None? ==> SearchKey(r) == Some(""))
  {
  }

  /**
   taku_tile_matches_filter: a NULL filter never matches; a tile class without
   an override matches everything; a launcher tile matches the categories in
   its group list.
   */
  function MatchesFilter(t: Tile, filter: Option<nat>): (r: bool)
    ensures r ==> filter.Some?
    ensures filter.Some? && !t.cls.LauncherTile? ==> r
    ensures filter.Some? && t.cls.LauncherTile? ==> (r <==> filter.value in t.groups)
  {
    match filter
    case None => false
    case Some(c) => if t.cls.LauncherTile? then c in t.groups else true
  }

  // ---------------------------------------------------------------------------
  // Launcher groups
  // ---------------------------------------------------------------------------

  /** taku_launcher_tile_add_group: the category goes to the front of the list. */
  function AddGroup(t: Tile, c: nat): (r: Tile)
    ensures |r.groups| > 0 && r.groups[0] == c
    ensures multiset(r.groups) == multiset(t.groups) + multiset{c}
    ensures r.(groups := t.groups) == t
  {
    t.(groups := [c] + t.groups)
  }

  /** taku_launcher_tile_remove_group: only the first occurrence goes; an absent category changes nothing. */
  function RemoveGroup(t: Tile, c: nat): (r: Tile)
    ensures c !in t.groups ==> r == t
    ensures multiset(r.groups) == multiset(t.groups) - multiset{c}
    ensures c in t.groups ==> |r.groups| == |t.groups| - 1
    ensures c in t.groups ==> var i := FirstIndex(t.groups, c);
                              r.groups[..i] == t.groups[..i] && r.groups[i..] == t.groups[i + 1..]
    ensures r.(groups := t.groups) == t
  {
    RemoveFirstMultiset(t.groups, c);
    t.(groups := RemoveFirst(t.groups, c))
  }

  /** Adding the categories one after the other, as the loop of taku_launcher_tile_new_from_item does. */
  function AddGroups(t: Tile, cs: seq<nat>): (r: Tile)
    ensures r.(groups := t.groups) == t
    decreases |cs|
  {
    if |cs| == 0 then t else AddGroups(AddGroup(t, cs[0]), cs[1..])
  }

  /** Repeated prepending leaves the added categories in reverse order, in front of the old ones. */
  lemma {:induction false} AddGroupsReverses(t: Tile, cs: seq<nat>)
    ensures var g := AddGroups(t, cs).groups;
            |g| == |cs| + |t.groups|
            && (forall i :: 0 <= i < |cs| ==> g[i] == cs[|cs| - 1 - i])
            && g[|cs|..] == t.groups
    decreases |cs|
  {
    if |cs| > 0 {
      AddGroupsReverses(AddGroup(t, cs[0]), cs[1..]);
    }
  }

  /**
   taku_launcher_tile_new_from_item: a launcher tile bound to the item, showing
   its name and description, whose groups are the item's categories in
   reverse order.
   */
  function NewFromItem(item: DesktopEntry.MenuItem, collate: string -> string): (r: Tile)
    ensures r.cls.LauncherTile? && !r.inTile && r.item == Some(item.path)
    ensures r.primary == (if item.name.Some? then item.name.value else "")
    ensures r.secondary == (if item.comment.Some? then item.comment.value else "")
    ensures |r.groups| == |item.groups|
    ensures forall i :: 0 <= i < |r.groups| ==> r.groups[i] == item.groups[|item.groups| - 1 - i]
  {
    var t := SetPrimary(NewTile(LauncherTile), item.name, collate);
    var t := t.(secondary := if item.comment.Some? then item.comment.value else "", item := Some(item.path));
    AddGroupsReverses(t, item.groups);
    AddGroups(t, item.groups)
  }

  /** A tile built from an item shows in exactly the categories the item was classified into. */
  lemma NewTileMatchesItemGroups(item: DesktopEntry.MenuItem, collate: string -> string, c: nat)
    ensures MatchesFilter(NewFromItem(item, collate), Some(c)) <==> c in item.groups
  {
    var r := NewFromItem(item, collate);
    if c in item.groups {
      var j :| 0 <= j < |item.groups| && item.groups[j] == c;
      assert r.groups[|item.groups| - 1 - j] == c;
    }
  }

  /** Removing a category just added restores the tile. */
  lemma RemoveAfterAdd(t: Tile, c: nat)
    ensures RemoveGroup(AddGroup(t, c), c) == t
  {
    var a := AddGroup(t, c);
    assert FirstIndex(a.groups, c) == 0;
    assert RemoveFirst(a.groups, c) == t.groups;
  }

  /** After removing one occurrence, a launcher tile still matches the category only if it was added twice. */
  lemma RemoveGroupMatching(t: Tile, c: nat)
    requires t.cls.LauncherTile?
    ensures MatchesFilter(RemoveGroup(t, c), Some(c)) <==> multiset(t.groups)[c] >= 2
  {
    var r := RemoveGroup(t, c);
    assert c in r.groups <==> multiset(r.groups)[c] > 0;
  }
}

=== FILE: window_props.dfy ===
/**
 The two root-window property readers of libtaku/xutil.c used for
 single-instance launching. Reading the X property is foreign: the model
 receives its bytes, or None when the read failed or returned no data.
   - mb_single_instance_get_window scans `key=value|key=value|...` for the
     executable's name and converts the value with atoi;
   - mb_single_instance_is_starting tests whether the name occurs anywhere
     in the startup list.
 */
module WindowProps {
  import opened Common

  /** The text a C string function sees: everything before the first NUL. */
  function CString(data: seq<char>): (r: string)
    ensures '\0' !in r && r <= data
    ensures '\0' !in data ==> r == data
  {
    match IndexOf(data, '\0')
    case None => data
    case Some(i) => data[..i]
  }

  // ---------------------------------------------------------------------------
  // atoi

  predicate IsDigit(c: char) { '0' <= c <= '9' }

  /** The longest prefix of decimal digits. */
  function DigitPrefix(s: string): (r: string)
    ensures r <= s
    ensures forall i :: 0 <= i < |r| ==> IsDigit(r[i])
    ensures |r| < |s| ==> !IsDigit(s[|r|])
  {
    if |s| > 0 && IsDigit(s[0]) then [s[0]] + DigitPrefix(s[1..]) else ""
  }

  function DigitValue(c: char): nat
    requires IsDigit(c)
  {
    c as int - '0' as int
  }

  /** The number a string of decimal digits denotes. */
  function DigitsValue(ds: string): nat
    requires forall i :: 0 <= i < |ds| ==> IsDigit(ds[i])
  {
    if |ds| == 0 then 0
    else DigitsValue(ds[..|ds| - 1]) * 10 + DigitValue(ds[|ds| - 1])
  }

  /** The leading isspace characters atoi skips, dropped. */
  function SkipSpace(s: string): (r: string)
    ensures |r| <= |s| && r == s[|s| - |r|..]
    ensures forall i :: 0 <= i < |s| - |r| ==> IsSpace(s[i])
    ensures |r| > 0 ==> !IsSpace(r[0])
  {
    if |s| > 0 && IsSpace(s[0]) then SkipSpace(s[1..]) else s
  }

  /**
   atoi: leading whitespace, an optional sign, then as many digits as there are.
   The C result is an int; values beyond its range are undefined there and kept
   exact here.
   */
  function Atoi(s: string): (r: int)
    ensures (forall i :: 0 <= i < |s| ==> !IsDigit(s[i])) ==> r == 0
    ensures r < 0 ==> '-' in s
  {
    var t := SkipSpace(s);
    assert t == s[|s| - |t|..];
    if |t| > 0 && t[0] == '-' then
      NoDigitsNoValue(s, t[1..]);
      0 - DigitsValue(DigitPrefix(t[1..]))
    else if |t| > 0 && t[0] == '+' then
      NoDigitsNoValue(s, t[1..]);
      DigitsValue(DigitPrefix(t[1..]))
    else
      NoDigitsNoValue(s, t);
      DigitsValue(DigitPrefix(t))
  }

  /** A tail of a string without digits has an empty digit prefix, worth 0. */
  lemma NoDigitsNoValue(s: string, tail: string)
    requires |tail| <= |s| && tail == s[|s| - |tail|..]
    ensures (forall i :: 0 <= i < |s| ==> !IsDigit(s[i])) ==> DigitsValue(DigitPrefix(tail)) == 0
  {
    if |tail| > 0 && forall i :: 0 <= i < |s| ==> !IsDigit(s[i]) {
      assert tail[0] == s[|s| - |tail|];
    }
  }

  /** Decimal representation of a natural number. */
  function DecimalString(n: nat): (r: string)
    ensures |r| > 0
    ensures forall i :: 0 <= i < |r| ==> IsDigit(r[i])
  {
    if n < 10 then [('0' as int + n) as char]
    else DecimalString(n / 10) + [('0' as int + n % 10) as char]
  }

  lemma {:induction false} DecimalValue(n: nat)
    ensures DigitsValue(DecimalString(n)) == n
  {
    if n >= 10 {
      var r := DecimalString(n);
      assert r[..|r| - 1] == DecimalString(n / 10);
      DecimalValue(n / 10);
    }
  }

  /** atoi of a non-empty digit string is the number it denotes. */
  lemma AtoiOfDigits(d: string)
    requires |d| > 0 && forall i :: 0 <= i < |d| ==> IsDigit(d[i])
    ensures Atoi(d) == DigitsValue(d)
  {
    assert IsDigit(d[0]);
    assert SkipSpace(d) == d;
    assert d[0] != '-' && d[0] != '+';
    assert DigitPrefix(d) == d;
  }

  /** atoi of a minus sign and a non-empty digit string is minus the number the digits denote. */
  lemma AtoiOfNegatedDigits(d: string)
    requires |d| > 0 && forall i :: 0 <= i < |d| ==> IsDigit(d[i])
    ensures Atoi("-" + d) == 0 - DigitsValue(d)
  {
    var s := "-" + d;
    assert s[0] == '-' && !IsSpace(s[0]);
    assert SkipSpace(s) == s;
    assert s[1..] == d;
    assert DigitPrefix(d) == d;
  }

  /** atoi reads back the decimal representation of a natural number. */
  lemma AtoiDecimal(n: nat)
    ensures Atoi(DecimalString(n)) == n
  {
    DecimalValue(n);
    AtoiOfDigits(DecimalString(n));
  }

  /** atoi reads back the decimal representation of a negative number. */
  lemma AtoiNegativeDecimal(n: nat)
    ensures Atoi("-" + DecimalString(n)) == 0 - n
  {
    DecimalValue(n);
    AtoiOfNegatedDigits(DecimalString(n));
  }

  // ---------------------------------------------------------------------------
  // The executable-to-window map

  /** One step of the scan: the next `key=value|` entry, or the end of the scan. */
  datatype Step = Stop | Entry(key: string, value: string, rest: string)

  /** One entry `key=value|` in front of `tail`. */
  function EntryText(key: string, value: string, tail: string): string {
    key + "=" + (value + "|" + tail)
  }

  /** Appending to the text after an entry appends to its tail. */
  lemma EntryTextAppend(key: string, value: string, tail: string, more: string)
    ensures EntryText(key, value, tail) + more == EntryText(key, value, tail + more)
  {
  }

  /**
   Cuts the next entry off the exec map. The scan stops at the end of the text
   and also at a malformed entry: a key that runs to the end without '=', an
   '=' that is the last character, or a value not closed by '|'.
   */
  function NextEntry(text: string): (r: Step)
    ensures r.Entry? ==> '=' !in r.key && '|' !in r.value
    ensures r.Entry? ==> text == EntryText(r.key, r.value, r.rest)
  {
    match IndexOf(text, '=')
    case None => Stop
    case Some(e) =>
      SplitAt(text, e);
      ValueAfter(text[..e], text[e + 1..])
  }

  /** The second half of an entry: after the key and its '=', a non-empty value closed by '|'. */
  function ValueAfter(key: string, after: string): (r: Step)
    ensures r.Entry? ==> r.key == key && '|' !in r.value && after == r.value + "|" + r.rest
  {
    if |after| == 0 then Stop
    else match IndexOf(after, '|')
      case None => Stop
      case Some(b) =>
        SplitAt(after, b);
        Entry(key, after[..b], after[b + 1..])
  }

  /**
   The scan of mb_single_instance_get_window over the exec map: the value of the
   first entry whose key equals `bin`, or None when the scan stops first.
   */
  function Lookup(text: string, bin: string): (r: Option<string>)
    ensures r.Some? ==> '|' !in r.value
    ensures '=' !in text ==> r.None?
    decreases |text|
  {
    match NextEntry(text)
    case Stop => None
    case Entry(k, v, rest) => if k == bin then Some(v) else Lookup(rest, bin)
  }

  /** What the lookup answers is a value that stands in the text as the entry `bin=value|`. */
  lemma {:induction false} LookupOccurs(text: string, bin: string)
    ensures var r := Lookup(text, bin);
            r.Some? ==> exists i :: OccursAt(text, bin + "=" + r.value + "|", i)
    decreases |text|
  {
    match NextEntry(text)
    case Stop =>
    case Entry(k, v, rest) =>
      EntryOccurs(k, v, rest);
      if k != bin {
        LookupOccurs(rest, bin);
        var r := Lookup(rest, bin);
        if r.Some? {
          OccursInTail(k + "=" + v + "|", rest, bin + "=" + r.value + "|");
        }
      }
  }

  /** An entry's text is its `key=value|` head followed by the rest. */
  lemma EntryOccurs(k: string, v: string, rest: string)
    ensures EntryText(k, v, rest) == (k + "=" + v + "|") + rest
    ensures OccursAt(EntryText(k, v, rest), k + "=" + v + "|", 0)
  {
    assert EntryText(k, v, rest) == (k + "=" + v + "|") + rest;
  }

  /** A text that occurs in a tail occurs in the whole. */
  lemma OccursInTail(head: string, tail: string, needle: string)
    requires exists i :: OccursAt(tail, needle, i)
    ensures exists i :: OccursAt(head + tail, needle, i)
  {
    var i :| OccursAt(tail, needle, i);
    assert (head + tail)[|head| + i..|head| + i + |needle|] == tail[i..i + |needle|];
    assert OccursAt(head + tail, needle, |head| + i);
  }

  /** The X server's answer for a property: None when the read failed or returned no data. */
  type Property = Option<seq<char>>

  /** The property was read and has at least one byte (result == Success, data != NULL, n_items > 0). */
  predicate HasData(prop: Property) {
    prop.Some? && |prop.value| > 0
  }

  /** Window ids are unsigned long; assigning atoi's int to one wraps negatives modulo 2^64. */
  const ULongModulus: int := 0x1_0000_0000_0000_0000

  function ToWindowId(i: int): (r: nat)
    ensures r < ULongModulus && (r - i) % ULongModulus == 0
  {
    if 0 <= i < ULongModulus then i
    else if -ULongModulus <= i < 0 then i + ULongModulus
    else i % ULongModulus
  }

  /**
   The value check of mb_single_instance_get_window as written: `win_found` is
   a Window (unsigned long), so the `> 0` test only rejects 0 and a negative
   atoi result comes back as a huge window id.
   */
  function WindowIdAsWritten(value: string): (r: Option<nat>)
    ensures r.Some? ==> 0 < r.value < ULongModulus
  {
    var w := ToWindowId(Atoi(value));
    if w > 0 then Some(w) else None
  }

  /** The value check with the evident intent: only a positive atoi result names a window. */
  function WindowId(value: string): (r: Option<nat>)
    ensures r.Some? <==> Atoi(value) > 0
    ensures r.Some? ==> r.value == Atoi(value)
  {
    var w := Atoi(value);
    if w > 0 then Some(w) else None
  }

  /** mb_single_instance_get_window as written. */
  function GetWindowAsWritten(prop: Property, bin: string): (r: Option<nat>)
    ensures r.Some? ==> HasData(prop) && 0 < r.value < ULongModulus
  {
    if !HasData(prop) then None
    else match Lookup(CString(prop.value), bin)
      case None => None
      case Some(v) => WindowIdAsWritten(v)
  }

  /** mb_single_instance_get_window with the corrected value check; the launcher uses this one. */
  function GetWindow(prop: Property, bin: string): (r: Option<nat>)
    ensures r.Some? ==> HasData(prop) && r.value > 0
    ensures r.Some? ==> Lookup(CString(prop.value), bin).Some?
                        && Atoi(Lookup(CString(prop.value), bin).value) == r.value
  {
    if !HasData(prop) then None
    else match Lookup(CString(prop.value), bin)
      case None => None
      case Some(v) => WindowId(v)
  }

  /** A read failure, a missing property or an empty one yields no window. */
  lemma NoDataNoWindow(prop: Property, bin: string)
    requires !HasData(prop)
    ensures GetWindow(prop, bin) == None && GetWindowAsWritten(prop, bin) == None
  {
  }

  /** One well-formed entry: the key has no '=', the value no '|', neither a NUL. */
  predicate WellFormedEntry(key: string, value: string) {
    '=' !in key && '\0' !in key && '|' !in value && '\0' !in value
  }

  /** An exec map written out, each entry closed by '|'. */
  function EncodeMap(entries: seq<(string, string)>): string
    decreases |entries|
  {
    if |entries| == 0 then ""
    else EntryText(entries[0].0, entries[0].1, EncodeMap(entries[1..]))
  }

  lemma IndexOfAfter(a: string, c: char, b: string)
    requires c !in a
    ensures IndexOf(a + [c] + b, c) == Some(|a|)
  {
    var s := a + [c] + b;
    assert s[|a|] == c;
    assert s[..|a|] == a;
  }

  /** A well-formed entry is cut off the text exactly. */
  lemma NextEntryOf(k: string, v: string, tail: string)
    requires '=' !in k && '|' !in v
    ensures NextEntry(EntryText(k, v, tail)) == Entry(k, v, tail)
  {
    var after := v + "|" + tail;
    var text := EntryText(k, v, tail);
    IndexOfAfter(k, '=', after);
    assert text[..|k|] == k && text[|k| + 1..] == after;
    IndexOfAfter(v, '|', tail);
    assert after[..|v|] == v && after[|v| + 1..] == tail;
  }

  /** Scanning one well-formed entry: its value if the key matches, else the scan of what follows. */
  lemma LookupEntry(k: string, v: string, tail: string, bin: string)
    requires WellFormedEntry(k, v)
    ensures Lookup(EntryText(k, v, tail), bin) == if k == bin then Some(v) else Lookup(tail, bin)
  {
    NextEntryOf(k, v, tail);
  }

  /** Scanning the first entry of an encoded map. */
  lemma LookupStep(entries: seq<(string, string)>, rest: string, bin: string)
    requires |entries| > 0 && WellFormedEntry(entries[0].0, entries[0].1)
    ensures Lookup(EncodeMap(entries) + rest, bin)
         == if entries[0].0 == bin then Some(entries[0].1) else Lookup(EncodeMap(entries[1..]) + rest, bin)
  {
    var e := entries[0];
    var tail := EncodeMap(entries[1..]) + rest;
    EntryTextAppend(e.0, e.1, EncodeMap(entries[1..]), rest);
    LookupEntry(e.0, e.1, tail, bin);
  }

  /** Every entry of a map is well formed and none before position k is keyed `bin`. */
  predicate FirstKeyedAt(entries: seq<(string, string)>, bin: string, k: nat) {
    && (forall i :: 0 <= i < |entries| ==> WellFormedEntry(entries[i].0, entries[i].1))
    && k < |entries| && entries[k].0 == bin
    && (forall i :: 0 <= i < k ==> entries[i].0 != bin)
  }

  lemma FirstKeyedLater(entries: seq<(string, string)>, bin: string, k: nat)
    requires FirstKeyedAt(entries, bin, k) && k > 0
    ensures FirstKeyedAt(entries[1..], bin, k - 1)
  {
    var later := entries[1..];
    assert forall i :: 0 <= i < |later| ==> later[i] == entries[i + 1];
  }

  lemma LookupPast(entries: seq<(string, string)>, rest: string, bin: string, k: nat)
    requires FirstKeyedAt(entries, bin, k) && k > 0
    ensures FirstKeyedAt(entries[1..], bin, k - 1) && entries[1..][k - 1] == entries[k]
    ensures Lookup(EncodeMap(entries) + rest, bin) == Lookup(EncodeMap(entries[1..]) + rest, bin)
  {
    LookupStep(entries, rest, bin);
    FirstKeyedLater(entries, bin, k);
  }

  /**
   The lookup returns the value of the FIRST entry keyed `bin`; entries before
   it are skipped and whatever follows it, malformed or not, is never read.
   */
  lemma {:induction false} LookupFirstMatch(entries: seq<(string, string)>, rest: string, bin: string, k: nat)
    requires FirstKeyedAt(entries, bin, k)
    ensures Lookup(EncodeMap(entries) + rest, bin) == Some(entries[k].1)
    decreases k
  {
    if k == 0 {
      LookupStep(entries, rest, bin);
    } else {
      LookupPast(entries, rest, bin, k);
      LookupFirstMatch(entries[1..], rest, bin, k - 1);
    }
  }

  /** Entries whose keys differ from `bin` are skipped, leaving the verdict to what follows. */
  lemma {:induction false} LookupSkips(entries: seq<(string, string)>, rest: string, bin: string)
    requires forall i :: 0 <= i < |entries| ==> WellFormedEntry(entries[i].0, entries[i].1)
    requires forall i :: 0 <= i < |entries| ==> entries[i].0 != bin
    ensures Lookup(EncodeMap(entries) + rest, bin) == Lookup(rest, bin)
    decreases |entries|
  {
    if |entries| == 0 {
      assert EncodeMap(entries) + rest == rest;
    } else {
      LookupStep(entries, rest, bin);
      LookupSkips(entries[1..], rest, bin);
    }
  }

  /** A key with no '=' after it ends the whole lookup with nothing found. */
  lemma KeyWithoutEquals(rest: string, bin: string)
    requires '=' !in rest
    ensures Lookup(rest, bin) == None
  {
  }

  /** An '=' as the very last character ends the lookup with nothing found, whatever the key. */
  lemma EqualsAtEnd(k: string, bin: string)
    requires '=' !in k
    ensures Lookup(k + "=", bin) == None
  {
    IndexOfAfter(k, '=', "");
    assert k + ['='] + "" == k + "=";
  }

  /** A last entry not closed by '|' is never found, even when its key matches. */
  lemma UnterminatedEntry(k: string, v: string, bin: string)
    requires '=' !in k && '|' !in v && |v| > 0
    ensures Lookup(k + "=" + v, bin) == None
  {
    IndexOfAfter(k, '=', v);
    assert k + ['='] + v == k + "=" + v;
    assert (k + "=" + v)[|k| + 1..] == v;
  }

  /**
   The intended reading of the property: when the first entry keyed `bin`
   holds a positive decimal number, that number is the window.
   */
  lemma GetWindowFindsFirst(entries: seq<(string, string)>, rest: string, bin: string, k: nat, w: nat)
    requires FirstKeyedAt(entries, bin, k) && entries[k].1 == DecimalString(w) && w > 0
    requires '\0' !in rest
    ensures GetWindow(Some(EncodeMap(entries) + rest), bin) == Some(w)
  {
    var text := EncodeMap(entries) + rest;
    NoNulInMap(entries);
    LookupFirstMatch(entries, rest, bin, k);
    AtoiDecimal(w);
  }

  lemma {:induction false} NoNulInMap(entries: seq<(string, string)>)
    requires forall i :: 0 <= i < |entries| ==> WellFormedEntry(entries[i].0, entries[i].1)
    ensures '\0' !in EncodeMap(entries)
    decreases |entries|
  {
    if |entries| > 0 {
      NoNulInMap(entries[1..]);
    }
  }

  /**
   The value check as written and as intended agree on every value except the
   negative ones (and those past the unsigned range, which atoi cannot return).
   */
  lemma AsWrittenAgreesExceptNegative(value: string)
    requires 0 <= Atoi(value) < ULongModulus
    ensures WindowIdAsWritten(value) == WindowId(value)
  {
  }

  /** A negative value wraps to a huge id as written and is refused as intended. */
  lemma NegativeValue(n: nat)
    requires 0 < n < ULongModulus
    ensures WindowIdAsWritten("-" + DecimalString(n)) == Some(ULongModulus - n)
    ensures WindowId("-" + DecimalString(n)) == None
  {
    AtoiNegativeDecimal(n);
  }

  /** A property holding the single entry `k=v|` is found by its key. */
  lemma SingleEntryLookup(k: string, v: string)
    requires WellFormedEntry(k, v)
    ensures Lookup(CString(EntryText(k, v, "")), k) == Some(v)
  {
    assert '\0' !in EntryText(k, v, "");
    LookupEntry(k, v, "", k);
  }

  /**
   The discrepancy: an entry `k=-n|` for the binary yields window 2^64 - n as
   written, and no window as intended; `app=-1|` yields 2^64 - 1.
   */
  lemma NegativeIdBecomesHugeWindow(k: string, n: nat)
    requires '=' !in k && '\0' !in k && 0 < n < ULongModulus
    ensures var prop := Some(EntryText(k, "-" + DecimalString(n), ""));
            && GetWindowAsWritten(prop, k) == Some(ULongModulus - n)
            && GetWindow(prop, k) == None
  {
    var v := "-" + DecimalString(n);
    assert '\0' !in v && '|' !in v;
    SingleEntryLookup(k, v);
    NegativeValue(n);
  }

  // ---------------------------------------------------------------------------
  // The startup list

  /** mb_single_instance_is_starting: strstr on the list, so any substring counts. */
  function IsStarting(prop: Property, bin: string): (r: bool)
    ensures r <==> prop.Some? && exists i :: OccursAt(CString(prop.value), bin, i)
  {
    prop.Some? && Contains(CString(prop.value), bin)
  }

  /** The match is not exact: a name is "starting" when a longer name containing it is. */
  lemma IsStartingMatchesSubstrings(before: string, bin: string, after: string)
    requires '\0' !in before + bin + after
    ensures IsStarting(Some(before + bin + after), bin)
    ensures !IsStarting(None, bin)
  {
    var list := before + bin + after;
    assert list[|before|..|before| + |bin|] == bin;
    assert OccursAt(list, bin, |before|);
  }
}
